=== FILE: README.md ===
# Expense tracker core, modelled in Dafny

This project models the computational core of the expense-tracker
application and proves properties of it:

- **Local financial analyser** (`FinancialAnalyzer`). It finds spending
  patterns per category over the last six months and flags expense
  anomalies above mean + 2σ in the last month. It finds recurring payments
  per merchant (three or more payments with σ/mean < 0.2). It produces
  recommendations ordered by confidence and a three-month forecast from
  monthly buckets.
- **Ledger maintenance scripts.**
  - `fix-transaction-balances` rebuilds every row's closing balance
    backwards from the account's current balance.
  - `verify-transaction-balances` re-chains the balances forwards and
    reports differences above 0.01.
  - `calculateClosingBalances` lists the re-chained balance next to the
    stored one.
- **`POST /api/transactions`.** It moves the account balance, stores the
  row with its closing balance, and credits the house goal when the notes
  mention a house.
- **Bank-statement converter** (`python_script_to_insert_query.py`).
  - `parse_amount`.
  - Keyword categories and bank detection.
  - `clean_description`.
  - The line-oriented parser with its debit/credit decision.
  - The SQL literals of `generate_sql_insert`.

## Modelling choices

- **Amounts** are exact `real`s.
  - JavaScript `NaN` becomes `None` where it can arise: a NULL closing
    balance fed to `parseFloat`.
  - Square roots appear only in squared comparisons. Lemmas tie those to
    any non-negative root of the variance.
- **Clocks and "now"** are parameters: the six-month and one-month cutoff
  day numbers, and the current month of the forecast.
- **Merchant extraction** and `datetime.strptime` are function parameters
  of the parser.
- **Sorting.** JavaScript's stable `sort` is one generic stable insertion
  sort (`Seqs.SortBy`).
- **Grouping by key.** The analyzer's `Map` and `new Set` keep insertion
  order, which is modelled as first-appearance order (`Seqs.Distinct`).
  The ledger scripts group into a plain object and walk it with
  `Object.entries`, which visits integer keys in ascending numeric order,
  not insertion order. `Ledger.GroupByAccount` keeps first-appearance
  order; the two agree because the query sorts by `t.bank_account_id`
  (`Ledger.GroupsAscend`). On rows not sorted by account they differ
  (`Ledger.UnsortedGroupsKeepArrivalOrder`).
- **Balance lines** are searched for `\d+\.\d{2}` with their commas in
  place, as the converter does, while amount lines have their commas
  removed first. A comma-grouped closing balance is therefore misread:
  `45,412.18` becomes 412.18 (`StatementParser.CommaBalanceMisread`).
- **Database state** of the route handler is a `Db` value, and the
  handler is a function from state and request to the new state and
  response. The scripts receive their rows (already in query order) and
  the account balances as arguments.
- **Python's dict display** `CATEGORY_MAPPING` lists `'INVESTMENT'` twice.
  The model spells out the dictionary Python builds from it: the key
  keeps its first position and takes its last value, 15.
- **Statement lines** are stripped once, when the raw text is split
  (`StatementParser.Lines`). `parse_transactions` reads every line through
  `.strip()`, so the parser sees the same text either way.
- **Regex classes.** `\d` is the ASCII digits, `\w` the ASCII letters,
  digits and `_`, and `\s` the characters `str.isspace` accepts.

Files and modules:

| file | module | models |
|---|---|---|
| wrappers.dfy | Wrappers | `Option` / `Result` |
| seqs.dfy | Seqs | filter, first-appearance distinct, stable sort |
| stats.dfy | Stats | sum, mean, variance, the σ comparisons |
| ai_types.dfy | AiTypes | transactions, patterns, recommendations, forecasts |
| patterns.dfy | Patterns | `analyzeSpendingPatterns`, `calculateFrequency`, `analyzeTrend` |
| anomalies.dfy | Anomalies | `detectAnomalies` |
| recurring.dfy | Recurring | `findRecurringPayments`, `calculateFrequencyDays` |
| recommendations.dfy | Recommendations | `generateRecommendations` |
| forecast.dfy | Forecasting | `groupByMonth`, `predictFutureSpending` |
| analyzer.dfy | FinancialAnalyzer | `analyzeFinances` |
| ledger.dfy | Ledger | rows, signed amounts, grouping by account |
| fix_balances.dfy | FixBalances | `fix-transaction-balances.ts` |
| verify_balances.dfy | VerifyBalances | `verify-transaction-balances.ts` |
| closing_balances.dfy | ClosingBalances | `calculateClosingBalances.ts` |
| transaction_post.dfy | TransactionPost | `POST` of `src/app/api/transactions/route.ts` |
| text.dfy | Text | `upper`, `in`, `split`, `join`, `strip`, `replace` |
| amounts.dfy | StatementAmounts | `parse_amount`, `:.2f` of whole cents |
| categories.dfy | Categories | `detect_category`, `detect_bank_account` |
| amount_lines.dfy | AmountLines | amount-line regexes and debit/credit decision |
| statement.dfy | StatementParser | `clean_description`, `parse_transactions` |
| sql.dfy | SqlInsert | `generate_sql_insert` |

## Model

| member | source | states |
|---|---|---|
| Seqs.Distinct | src/lib/local-ai/FinancialAnalyzer.ts:48 | `[...new Set(xs)]`: no repeats, and exactly the elements of the input |
| Seqs.FilterMembers | src/lib/local-ai/FinancialAnalyzer.ts:43-45 | an element is kept by a filter iff it is in the input and satisfies the predicate |
| Seqs.SortBy | src/lib/local-ai/FinancialAnalyzer.ts:178 | sorting yields a permutation of its input that is ordered by the key |
| Seqs.SortByStable | src/lib/local-ai/FinancialAnalyzer.ts:178 | the sort is stable: the elements with any one key keep their input order |
| Seqs.SortBySorted | src/lib/local-ai/FinancialAnalyzer.ts:178 | an already ordered input is left unchanged |
| Stats.Mean | src/lib/local-ai/FinancialAnalyzer.ts:214-216 | the average times the count is the sum |
| Stats.Variance | src/lib/local-ai/FinancialAnalyzer.ts:222-226 | the population variance is non-negative and is the mean squared deviation |
| Stats.AboveTwoSigmaMeansAboveThreshold | src/lib/local-ai/FinancialAnalyzer.ts:100-104 | the squared-form test agrees with `amount > mean + 2·sqrt(variance)` |
| Stats.LowVariationMeansSmallRatio | src/lib/local-ai/FinancialAnalyzer.ts:264-265 | for a non-zero mean, the squared-form test agrees with `sqrt(variance)/mean < 0.2` |
| Stats.MinimumAtMostMean | src/lib/local-ai/FinancialAnalyzer.ts:214-216 | the smallest value never exceeds the average |
| Stats.ConstantStatistics | src/lib/local-ai/FinancialAnalyzer.ts:214-226 | equal values have that value as mean and zero variance |
| AiTypes.CategoriesOf | src/lib/local-ai/FinancialAnalyzer.ts:48 | the distinct categories include every transaction's category, without repeats |
| AiTypes.EarliestIndex | src/lib/local-ai/FinancialAnalyzer.ts:229 | picks a transaction whose date is no later than any other |
| AiTypes.LatestIndex | src/lib/local-ai/FinancialAnalyzer.ts:230 | picks a transaction whose date is no earlier than any other |
| Patterns.Confidence | src/lib/local-ai/FinancialAnalyzer.ts:67 | `min(1, n/10)` lies in (0, 1] for n > 0 and is 1 exactly from ten transactions on |
| Patterns.CalculateFrequency | src/lib/local-ai/FinancialAnalyzer.ts:228-235 | transactions per month lie in (0, n] and equal n exactly when the dates span at most one month |
| Patterns.ClassifyChangeBand | src/lib/local-ai/FinancialAnalyzer.ts:245-249 | for a positive first-half mean: increasing iff the second half exceeds 110% of it, decreasing iff below 90%, else stable |
| Patterns.AnalyzeTrend | src/lib/local-ai/FinancialAnalyzer.ts:237-238 | fewer than six transactions are always stable |
| Patterns.AnalyzeTrendHalves | src/lib/local-ai/FinancialAnalyzer.ts:237-249 | from six transactions on, the date-sorted list is split after floor(n/2) entries; for a positive first-half mean the trend is increasing iff the second-half mean exceeds 110% of it and decreasing iff it is below 90%; a negative first mean mirrors the band; a zero first mean gives increasing, decreasing or stable by the sign of the second |
| Patterns.ConstantAmountsAreStable | src/lib/local-ai/FinancialAnalyzer.ts:237-250 | a category with constant amounts has a stable trend |
| Patterns.PatternsOverComplete | src/lib/local-ai/FinancialAnalyzer.ts:50-55 | every listed category with at least three expenses gets a pattern |
| Patterns.PatternsOverUnique | src/lib/local-ai/FinancialAnalyzer.ts:38-62 | distinct categories give distinct patterns |
| Patterns.AnalyzeSpendingPatterns | src/lib/local-ai/FinancialAnalyzer.ts:37-73 | a category has a pattern iff it has at least three expenses since the six-month cutoff; each pattern describes exactly those expenses; confidences lie in (0, 1]; one pattern per category |
| Patterns.PatternOrder | src/lib/local-ai/FinancialAnalyzer.ts:48-71 | the patterns come in the order their categories first appear in the window, skipping categories with fewer than three expenses |
| Patterns.PatternMembersQualify | src/lib/local-ai/FinancialAnalyzer.ts:43-53 | the transactions behind a pattern are expenses of that category on or after the cutoff |
| Anomalies.DetectAnomalies | src/lib/local-ai/FinancialAnalyzer.ts:79-111 | a transaction is reported iff it is a recent expense and its category has at least five recent expenses and it exceeds their mean + 2σ |
| Anomalies.AnomalyMultiplicity | src/lib/local-ai/FinancialAnalyzer.ts:89-108 | no anomaly is dropped or repeated: a flagged expense is listed exactly as often as it occurs among the recent expenses, anything else not at all |
| Anomalies.AnomalyIsRecentExpense | src/lib/local-ai/FinancialAnalyzer.ts:84-86 | every anomaly is an expense on or after the one-month cutoff |
| Anomalies.SmallCategoryHasNoAnomaly | src/lib/local-ai/FinancialAnalyzer.ts:94 | a category with fewer than five recent expenses yields no anomaly |
| Anomalies.ConstantCategoryHasNoAnomaly | src/lib/local-ai/FinancialAnalyzer.ts:96-104 | a category whose recent expenses are all equal yields no anomaly |
| Anomalies.MinimumIsNotAnomaly | src/lib/local-ai/FinancialAnalyzer.ts:96-104 | the cheapest expense of a category is never an anomaly |
| Anomalies.ThresholdIsStrict | src/lib/local-ai/FinancialAnalyzer.ts:100-104 | the outlier test is the strict `amount > mean + 2σ` |
| Recurring.GapsTelescope | src/lib/local-ai/FinancialAnalyzer.ts:283-285 | the consecutive gaps of a date list sum to last minus first |
| Recurring.SortedDays | src/lib/local-ai/FinancialAnalyzer.ts:280 | the sorted day list is ordered, as long as the group, and runs from the earliest to the latest day |
| Recurring.CalculateFrequencyDays | src/lib/local-ai/FinancialAnalyzer.ts:279-288 | fewer than two dates give 30; the mean interval is never negative |
| Recurring.FrequencyDaysIsSpread | src/lib/local-ai/FinancialAnalyzer.ts:279-288 | for n ≥ 2 dates the mean interval is (latest − earliest)/(n − 1) |
| Recurring.CandidatesOverComplete | src/lib/local-ai/FinancialAnalyzer.ts:257-273 | every merchant with at least three payments of low variation is reported |
| Recurring.FindRecurringPayments | src/lib/local-ai/FinancialAnalyzer.ts:252-277 | a merchant is reported iff its whole payment group has at least three payments with σ/mean < 0.2; each report carries that group's mean, count and mean interval; one report per merchant |
| Recurring.ZeroMeanNeverReported | src/lib/local-ai/FinancialAnalyzer.ts:264-265 | a group with mean 0 is never reported, because 0/0 is NaN |
| Recurring.RegularGroupHasSmallRatio | src/lib/local-ai/FinancialAnalyzer.ts:264-265 | for non-negative amounts a reported group has positive mean and σ/mean < 0.2 |
| Recommendations.GenerateRecommendations | src/lib/local-ai/FinancialAnalyzer.ts:117-179 | one saving tip per pattern with mean > 5000 and frequency > 4, one per recurring payment, one per anomaly; a permutation of them in non-increasing confidence |
| Recommendations.TiesKeepGenerationOrder | src/lib/local-ai/FinancialAnalyzer.ts:178 | recommendations of equal confidence keep the order they were generated in |
| Recommendations.OutputFromRules | src/lib/local-ai/FinancialAnalyzer.ts:121-176 | every recommendation comes from one rule; alerts have confidence 0.9 and subscriptions 0.8; none is a budget adjustment |
| Recommendations.AlertsBeforeSubscriptions | src/lib/local-ai/FinancialAnalyzer.ts:178 | every spending alert is listed before every subscription finding |
| Forecasting.GroupByMonth | src/lib/local-ai/FinancialAnalyzer.ts:290-311 | one bucket per month present, in ascending month order; each bucket's income and expense totals are those of its month's transactions; the buckets add up to the total of all amounts |
| Forecasting.BucketCount | src/lib/local-ai/FinancialAnalyzer.ts:290-311 | there are as many buckets as distinct months |
| Forecasting.MonthAfterAdvances | src/lib/local-ai/FinancialAnalyzer.ts:198-199 | the month i months ahead is i months later in the year·12 + month count |
| Forecasting.PredictFutureSpending | src/lib/local-ai/FinancialAnalyzer.ts:185-210 | the forecast is empty iff fewer than three months have data, and otherwise has three entries built from the averages of the last three buckets |
| Forecasting.ForecastShape | src/lib/local-ai/FinancialAnalyzer.ts:197-206 | entry i is month now + i + 1; confidences strictly decrease and lie in [0.7, 0.9] |
| Forecasting.ForecastConfidences | src/lib/local-ai/FinancialAnalyzer.ts:205 | the confidences are 0.9, 0.8 and 0.7 |
| Forecasting.ForecastGrows | src/lib/local-ai/FinancialAnalyzer.ts:203-204 | with non-negative amounts the predicted income and expenses never decrease month to month |
| FinancialAnalyzer.AnalyzeFinances | src/lib/local-ai/FinancialAnalyzer.ts:15-31 | the combined analysis keeps each part's characterisation: patterns, anomalies, recommendation count and order, forecast length |
| FinancialAnalyzer.AlertsNameAnomalies | src/lib/local-ai/FinancialAnalyzer.ts:160-175 | every spending alert names the category of some anomaly |
| Ledger.FoldIsNetChange | src/scripts/verify-transaction-balances.ts:69-90 | running a balance over rows adds their signed total |
| Ledger.SumSignedSplit | src/scripts/fix-transaction-balances.ts:81-95 | the signed total of rows is that of a prefix plus that of the rest |
| Ledger.GroupByAccount | src/scripts/fix-transaction-balances.ts:41-48 | groups appear in first-appearance order of accounts; each group is that account's rows in input order; no row is lost; no group is empty |
| Ledger.GroupsAscend | src/scripts/fix-transaction-balances.ts:29-55 | for rows in the query's account order the groups come in strictly ascending account order, the order `Object.entries` walks integer keys |
| Ledger.GroupingPartitions | src/scripts/verify-transaction-balances.ts:40-46 | the groups partition the rows: distinct accounts, every row in its account's group, row count preserved |
| FixBalances.ExpectedShape | src/scripts/fix-transaction-balances.ts:78-105 | the expected closings start from the rewound opening balance, follow each row's income or expense, and the last one is the current balance |
| FixBalances.Fixes | src/scripts/fix-transaction-balances.ts:97-108 | a row is fixed iff its stored closing is NULL or differs from the expected one by more than 0.01 |
| FixBalances.FixAccount | src/scripts/fix-transaction-balances.ts:78-108 | the rebuilt closings chain forwards from the derived opening balance and end at the current balance |
| FixBalances.PlannedFixesMembers | src/scripts/fix-transaction-balances.ts:59-108 | a fix is planned iff its row belongs to an account with a known balance and needs fixing |
| FixBalances.CheckedRowsAreFoundRows | src/scripts/fix-transaction-balances.ts:59-78 | the checked count is the number of rows whose account has a known balance |
| FixBalances.WriteBackIsUnchanged | src/scripts/fix-transaction-balances.ts:133-163 | each account update writes back the account's own current balance |
| FixBalances.FixTransactionBalances | src/scripts/fix-transaction-balances.ts:32-163 | no rows give an empty report; otherwise the fixes, checked count and account updates are the planned ones; fixed ≤ checked; no warnings |
| VerifyBalances.RowReports | src/scripts/verify-transaction-balances.ts:73-88 | a row is reported iff both its stored and re-chained closings exist and differ by more than 0.01 |
| VerifyBalances.VerifyTransactionBalances | src/scripts/verify-transaction-balances.ts:32-106 | no rows give no discrepancies; the report is the per-account checks in group order; every row is counted |
| VerifyBalances.FirstRowNeverFlagged | src/scripts/verify-transaction-balances.ts:60-67 | the first row seeds the chain and is never reported |
| VerifyBalances.CalculatedCarries | src/scripts/verify-transaction-balances.ts:69-90 | each re-chained closing is the previous one moved by the row's signed amount |
| VerifyBalances.NullSeedSilencesAccount | src/scripts/verify-transaction-balances.ts:60-106 | an account whose first closing is NULL reports nothing, since NaN compares false |
| VerifyBalances.FinalCheckComesLast | src/scripts/verify-transaction-balances.ts:93-106 | at most one report per row plus one; only the last can be the final-balance mismatch, present iff the chain end differs from the balance by more than 0.01 |
| VerifyBalances.DiscrepancyBound | src/scripts/verify-transaction-balances.ts:48-106 | at most one discrepancy per row plus one per account |
| ClosingBalances.CalculateAndExportBalances | src/scripts/calculateClosingBalances.ts:22-61 | one line per row; the first keeps its stored closing with difference 0; each later one chains from the previous and differs from the stored closing by stored − calculated |
| ClosingBalances.ChainAgreesWithVerification | src/scripts/calculateClosingBalances.ts:40-61 | the exported chain is the same chain the verification script checks |
| TransactionPost.Post | src/app/api/transactions/route.ts:43-115 | an unknown account is a server error that changes nothing; for a known account the balance moves by the signed amount, the row is stored with the new balance as closing and the next id, and goals are credited iff the notes mention a house |
| TransactionPost.CreditsAdd | src/app/api/transactions/route.ts:97-103 | two credits of the house goals equal one credit of their sum, so the goal accumulates every house-mentioning amount |
| TransactionPost.OnlyAddressedAccountMoves | src/app/api/transactions/route.ts:61-95 | no other account's balance changes, and the addressed one ends at the stored closing |
| TransactionPost.IncomeThenExpenseRestores | src/app/api/transactions/route.ts:61-70 | an income followed by an equal expense restores the balance |
| TransactionPost.PostKeepsLedgerConsistent | src/app/api/transactions/route.ts:61-95 | if every stored closing of the account is the one the repair script would compute from its current balance, that still holds after a post |
| Text.SplitJoin | src/scripts/python_script_to_insert_query.py:117-118 | splitting words joined by single spaces gives the words back |
| Text.CollapseIdempotent | src/scripts/python_script_to_insert_query.py:117-118 | collapsing whitespace twice equals collapsing once |
| Text.CollapseIsNormal | src/scripts/python_script_to_insert_query.py:117-118 | collapsed text has only single spaces between non-space characters |
| Text.NormalFixed | src/scripts/python_script_to_insert_query.py:117-118 | text with only single inner spaces is left unchanged by collapsing |
| Text.SplitOnJoin | src/scripts/python_script_to_insert_query.py:123 | `s.split('\n')` joined again with newlines is `s` |
| Text.UpperIdempotent | src/scripts/python_script_to_insert_query.py:64 | upper-casing twice equals upper-casing once |
| StatementAmounts.ParseAmountPoint | src/scripts/python_script_to_insert_query.py:56-60 | digits, a point and digits parse to their decimal value |
| StatementAmounts.ParseAmountRejects | src/scripts/python_script_to_insert_query.py:56-60 | in the model's `float()`, any character other than a digit, point, sign or comma makes the conversion fail |
| StatementAmounts.CommasIgnored | src/scripts/python_script_to_insert_query.py:60 | thousands separators do not change the parsed amount |
| StatementAmounts.ParseFormatCents | src/scripts/python_script_to_insert_query.py:56-60 | a two-decimal rendering of whole cents parses back to the amount |
| Categories.DetectCategory | src/scripts/python_script_to_insert_query.py:62-79 | the category is always one of 1..17 |
| Categories.Precedence | src/scripts/python_script_to_insert_query.py:62-77 | a SIP expense is 15; otherwise a HOUSE expense is 16; otherwise a cash withdrawal or a transfer word (TRANSFER, NEFT, UPI, IMPS) is 17 whatever keyword the mapping would match; otherwise the first keyword of the mapping, in its order, that occurs decides |
| Categories.NeftSalaryIsTransfer | src/scripts/python_script_to_insert_query.py:72-77 | `NEFT SALARY` as income is 17, though the mapping alone would give 1 for `SALARY` |
| Categories.UpiSipIsInvestment | src/scripts/python_script_to_insert_query.py:66-73 | `UPI/DR/sip` as an expense is 15: the SIP rule comes before the transfer words |
| Categories.CategoryIgnoresCase | src/scripts/python_script_to_insert_query.py:64 | the category does not depend on letter case |
| Categories.OnlyReturnYieldsFour | src/scripts/python_script_to_insert_query.py:10-77 | category 4 is produced only for descriptions containing RETURN: the repeated INVESTMENT key maps to 15 |
| Categories.InvestmentYieldsFifteen | src/scripts/python_script_to_insert_query.py:10-77 | INVESTMENT with no earlier rule or keyword matching gives 15 |
| Categories.Fallback | src/scripts/python_script_to_insert_query.py:79 | with no keyword at all, income gives 1 and expense 6 |
| Categories.DetectBankAccount | src/scripts/python_script_to_insert_query.py:81-87 | the account is 1 or 2, and 2 exactly when BARODA appears without SBI |
| AmountLines.DecimalAtIff | src/scripts/python_script_to_insert_query.py:138 | the greedy `\d+\.\d{2}` test agrees with the existence of a digits-point-two-digits split |
| AmountLines.DecimalValue | src/scripts/python_script_to_insert_query.py:156-171 | `parse_amount` of a matched decimal succeeds with a non-negative value |
| AmountLines.DetectAmount | src/scripts/python_script_to_insert_query.py:148-168 | a leading `- X` is an income of X; otherwise a trailing `X -` is X, an expense when positive; neither gives income 0; the amount is never negative |
| AmountLines.ExpenseIff | src/scripts/python_script_to_insert_query.py:155-168 | a record is an expense iff the credit pattern fails and the debit pattern matches a positive amount |
| AmountLines.DebitLineRoundTrip | src/scripts/python_script_to_insert_query.py:138-168 | `X -` with X rendered to two decimals is an amount line read back as X, an expense unless X is 0 (`0.00 -` is income 0) |
| AmountLines.CreditLineRoundTrip | src/scripts/python_script_to_insert_query.py:138-168 | `- X` is an amount line read back as an income of X |
| StatementParser.CleanDescription | src/scripts/python_script_to_insert_query.py:117-119 | whitespace is collapsed; the result has at most 100 characters; a longer text becomes its first 97 characters and `...`, exactly 100 |
| StatementParser.CleanIdempotent | src/scripts/python_script_to_insert_query.py:117-119 | cleaning a cleaned description changes nothing |
| StatementParser.BalanceOf | src/scripts/python_script_to_insert_query.py:170-171 | the closing balance is `parse_amount` of the first decimal on the balance line, or 0 when there is none |
| StatementParser.CommaGroupedBalance | src/scripts/python_script_to_insert_query.py:170-171 | the balance line keeps its comma, so `high,low.cents` is read as `low.cents` alone |
| StatementParser.CommaBalanceMisread | src/scripts/python_script_to_insert_query.py:170-171 | the closing balance `45,412.18` is read as 412.18 |
| StatementParser.ScanBody | src/scripts/python_script_to_insert_query.py:135-194 | the inner loop stops at the first amount line at or after its start; no line before that one is an amount line, and without one no line to the end is |
| StatementParser.ReadRecord | src/scripts/python_script_to_insert_query.py:126-190 | a date line yields the record built from it and its first following amount line, or nothing when no amount line follows, or a date error |
| StatementParser.ParseLines | src/scripts/python_script_to_insert_query.py:125-198 | the records emitted are exactly those of the record-by-record definition `RecordsFrom`: from each next date line, its first following amount line and the balance line after it, resuming after the balance line, so date lines before the amount line belong to the description; the run ends when no amount line follows and fails at the first such record whose date `strptime` rejects |
| StatementParser.RecordsFromSound | src/scripts/python_script_to_insert_query.py:125-198 | every emitted record is read from a date line and its first following amount line; at most one record per date line; a failure names a date line whose date `strptime` rejects |
| StatementParser.ParseTransactions | src/scripts/python_script_to_insert_query.py:121-198 | the records are those of `RecordsFrom` over the stripped lines of the raw text, each read from a date line and its first following amount line, at most one per date line |
| StatementParser.DateLinesMonotone | src/scripts/python_script_to_insert_query.py:125-196 | the count of date lines in a prefix grows with the prefix |
| SqlInsert.QuoteRoundTrip | src/scripts/python_script_to_insert_query.py:221-224 | a quoted literal with its quotes doubled reads back in SQL as exactly the original text |
| SqlInsert.MerchantValue | src/scripts/python_script_to_insert_query.py:222 | the merchant column is NULL iff the merchant is missing or empty |
| SqlInsert.InvestmentFlag | src/scripts/python_script_to_insert_query.py:226 | with the category from `detect_category`, a SIP or HOUSE expense is flagged as an investment, and a cash withdrawal or transfer that is neither is not |
| SqlInsert.Fixed2RoundTrip | src/scripts/python_script_to_insert_query.py:219-223 | an amount in whole cents renders with two decimals and parses back to itself |
| SqlInsert.ValuesReadBack | src/scripts/python_script_to_insert_query.py:200-229 | description, notes and a present merchant read back from their columns; merchant NULL iff missing or empty; `is_investment` iff category in {15, 16, 4} |

## Left out

- React pages and components, SQL-only route handlers, schema and import
  scripts: presentation, or logic that runs inside PostgreSQL.
- Database I/O: queries, transactions, `BEGIN`/`COMMIT`/`ROLLBACK` and
  console and CSV output. The scripts and the handler receive their rows
  and balances as values. A rollback is modelled as the unchanged state.
- `Promise.all`: the two analyses run one after the other. They are
  independent.
- Recommendation titles, messages and action items, and generated report
  text.
- Floating point: amounts are exact reals. `toFixed(2)` rounding in the
  export script is not modelled; the difference is kept exact.
- TransactionPost.Post: the stored closing balance is the new account
  balance whatever the transaction date, as the handler does. Back-dated
  inserts that break the chain are therefore not analysed.
- Ledger.GroupByAccount: groups come in first-appearance order, not in
  the ascending key order of `Object.entries`. The two agree on rows in
  the query's `ORDER BY t.bank_account_id` order, which is all the scripts
  see; on other rows they differ (`Ledger.UnsortedGroupsKeepArrivalOrder`).
- Recurring.CalculateFrequencyDays: the dates are sorted numerically. The
  default JavaScript `sort()` compares the millisecond timestamps as
  strings. That agrees for all 13-digit timestamps (2001 to 2286).
- Forecasting.PredictFutureSpending: `setMonth` day overflow (the 31st
  plus one month) is not modelled. A month is year·12 + month arithmetic.
- TransactionPost.Post: a failing INSERT or UPDATE (an unknown
  category, a malformed `transaction_date`) rolls back with status 500 in
  the handler; the model has no such failure and returns `Created`.
- FixBalances.FixTransactionBalances: a NULL `current_balance` becomes
  NaN through `parseFloat`, and the script then writes NaN closings and
  balances; `balances` holds only numbers, so such an account is not
  expressible, and a missing account is the only one skipped.
- StatementAmounts.ParseAmount: `float()` also accepts exponents,
  surrounding whitespace, underscores between digits, `inf` and `nan`; the
  model rejects them. Only `\d+\.\d{2}` texts reach it from the parser.
- StatementAmounts.ParseAmountRejects: states what the model's `float()`
  rejects. Python's `float()` accepts some of these texts (`1e5`, ` 5`,
  `1_0`, `inf`), for the reason on the line above.
- Categories.DetectCategory: upper-casing covers ASCII letters only.
  Python's `upper()` also maps letters such as `ſ` to `S`, `ı` to `I` and
  `ß` to `SS`, so `ſip` as an expense is 15 in Python and 6 here.
- Categories.DetectBankAccount: the same ASCII-only upper-casing, so
  `ſbi baroda` is 1 in Python and 2 here.
- StatementParser.ParseTransactions: `extract_merchant` and
  `datetime.strptime` are parameters. The regex-based merchant extraction
  is not modelled.
- AmountLines.DetectAmount: `\d` and `\s` cover ASCII digits and
  `str.isspace` characters. Python's `re` and `float` also accept other
  Unicode decimal digits.
- StatementParser.IsDateLine: `\w` is the ASCII letters, digits and `_`.
  Python's `\w` also accepts other Unicode word characters.
- SqlInsert.Fixed2RoundTrip: `:.2f` is stated for amounts in whole cents,
  which is all the parser produces. Other reals are rounded half to even
  on their exact value, not on a binary double.
- The INSERT statement's fixed text and layout are not modelled; only
  the column values (`SqlInsert.Values`) are.
- `main`: the embedded sample statement and the printed SQL text.

=== FILE: ai_types.dfy ===
/** The records the analysis engine consumes and produces
    (`src/types/ai.ts`). Dates carry a day number (for the window filters,
    chronological sorting and day intervals) and the calendar month they
    fall in (for the month arithmetic and the `YYYY-MM` buckets). */
module AiTypes {
  import opened Wrappers
  import opened Seqs

  /** A calendar month, the `YYYY-MM` prefix of an ISO date. */
  datatype MonthKey = MonthKey(year: int, month: int)

  /** Months since a fixed origin: `year * 12 + month`. */
  function MonthIndex(k: MonthKey): int {
    k.year * 12 + k.month
  }

  /** The ordering `localeCompare` gives `YYYY-MM` strings with four-digit
      years and two-digit months: by year, then by month. */
  predicate MonthBefore(a: MonthKey, b: MonthKey) {
    a.year < b.year || (a.year == b.year && a.month < b.month)
  }

  datatype Date = Date(day: int, month: MonthKey)

  datatype Kind = Income | Expense

  datatype Transaction = Transaction(
    id: string,
    date: Date,
    amount: real,
    category: string,
    description: string,
    kind: Kind,
    merchant: Option<string>)

  datatype Trend = Increasing | Decreasing | Stable

  datatype SpendingPattern = SpendingPattern(
    category: string,
    averageAmount: real,
    frequency: real,
    trend: Trend,
    confidence: real,
    categoryName: string)

  datatype RecommendationType =
    | SavingOpportunity
    | SpendingAlert
    | BudgetAdjustment
    | SubscriptionFinder

  /** A recommendation without its generated title, message and action-item
      texts. */
  datatype Recommendation = Recommendation(
    kind: RecommendationType,
    confidence: real,
    amountSaved: Option<real>,
    category: Option<string>)

  datatype Forecast = Forecast(
    month: MonthKey,
    predictedIncome: real,
    predictedExpenses: real,
    confidence: real)

  /** `transactions.map(t => t.amount)`. */
  function Amounts(ts: seq<Transaction>): (r: seq<real>)
    ensures |r| == |ts|
    ensures forall i :: 0 <= i < |ts| ==> r[i] == ts[i].amount
  {
    seq(|ts|, i requires 0 <= i < |ts| => ts[i].amount)
  }

  /** The categories of `ts` (income and expense alike) in order of first
      appearance: `[...new Set(ts.map(t => t.category))]`. */
  function CategoriesOf(ts: seq<Transaction>): (cs: seq<string>)
    ensures NoDup(cs)
    ensures forall i :: 0 <= i < |ts| ==> ts[i].category in cs
  {
    var all := seq(|ts|, i requires 0 <= i < |ts| => ts[i].category);
    assert forall i :: 0 <= i < |ts| ==> all[i] == ts[i].category;
    Distinct(all)
  }

  /** Index of the first transaction with the smallest day number. */
  function EarliestIndex(ts: seq<Transaction>): (k: nat)
    requires |ts| > 0
    ensures k < |ts|
    ensures forall i :: 0 <= i < |ts| ==> ts[k].date.day <= ts[i].date.day
  {
    if |ts| == 1 then 0
    else
      var k := EarliestIndex(ts[..|ts| - 1]);
      if ts[|ts| - 1].date.day < ts[k].date.day then |ts| - 1 else k
  }

  /** Index of the first transaction with the largest day number. */
  function LatestIndex(ts: seq<Transaction>): (k: nat)
    requires |ts| > 0
    ensures k < |ts|
    ensures forall i :: 0 <= i < |ts| ==> ts[i].date.day <= ts[k].date.day
  {
    if |ts| == 1 then 0
    else
      var k := LatestIndex(ts[..|ts| - 1]);
      if ts[|ts| - 1].date.day > ts[k].date.day then |ts| - 1 else k
  }

  /** Amounts are non-negative, as the data model requires. */
  ghost predicate NonNegativeAmounts(ts: seq<Transaction>) {
    forall i :: 0 <= i < |ts| ==> ts[i].amount >= 0.0
  }
}

=== FILE: amount_lines.dfy ===
/** The amount-line side of `parse_transactions`: the `\d+\.\d{2}` search,
    the anchored credit (`-\s*(\d+\.\d{2})`) and debit (`(\d+\.\d{2})\s*-`)
    matches, and the debit/credit decision built on them. `\d` is taken to
    be the ASCII digits and `\s` the characters `str.isspace` accepts. */
module AmountLines {
  import opened Wrappers
  import opened Text
  import opened StatementAmounts
  import opened Categories

  /** End of the run of digits that starts at `i` (a greedy `\d*`). */
  function DigitsEnd(s: string, i: nat): (m: nat)
    requires i <= |s|
    ensures i <= m <= |s|
    ensures forall k :: i <= k < m ==> IsDigit(s[k])
    ensures m == |s| || !IsDigit(s[m])
    decreases |s| - i
  {
    if i < |s| && IsDigit(s[i]) then DigitsEnd(s, i + 1) else i
  }

  /** End of the run of whitespace that starts at `i` (a greedy `\s*`). */
  function SpacesEnd(s: string, i: nat): (m: nat)
    requires i <= |s|
    ensures i <= m <= |s|
    ensures forall k :: i <= k < m ==> IsSpace(s[k])
    ensures m == |s| || !IsSpace(s[m])
    decreases |s| - i
  {
    if i < |s| && IsSpace(s[i]) then SpacesEnd(s, i + 1) else i
  }

  /** `\d+\.\d{2}` matches at `i`: the digit run starting there is
      followed by a point and two digits. */
  predicate DecimalAt(s: string, i: nat) {
    i < |s| && IsDigit(s[i]) &&
    var m := DigitsEnd(s, i);
    m + 2 < |s| && s[m] == '.' && IsDigit(s[m + 1]) && IsDigit(s[m + 2])
  }

  /** Any split of `s[i..]` into digits, a point and two digits is the
      greedy one. */
  lemma DecimalAtSplit(s: string, i: nat, j: nat)
    requires SplitAt(s, i, j)
    ensures DecimalAt(s, i) && DigitsEnd(s, i) == j
  {
  }

  /** `s[i..]` reads as a non-empty digit run ending at `j`, a point and
      two digits. */
  predicate SplitAt(s: string, i: nat, j: nat) {
    i < j && j + 2 < |s| && (forall k :: i <= k < j ==> IsDigit(s[k])) &&
    s[j] == '.' && IsDigit(s[j + 1]) && IsDigit(s[j + 2])
  }

  /** The regular-expression reading of `DecimalAt`: some non-empty digit
      run from `i` is followed by a point and two digits. */
  lemma DecimalAtIff(s: string, i: nat)
    ensures DecimalAt(s, i) <==> exists j :: SplitAt(s, i, j)
  {
    if DecimalAt(s, i) {
      assert SplitAt(s, i, DigitsEnd(s, i));
    } else if exists j :: SplitAt(s, i, j) {
      var j :| SplitAt(s, i, j);
      DecimalAtSplit(s, i, j);
    }
  }

  /** The text `\d+\.\d{2}` matched at `i`. */
  function DecimalText(s: string, i: nat): string
    requires DecimalAt(s, i)
  {
    s[i..DigitsEnd(s, i) + 3]
  }

  /** The value of the match at `i`; `parse_amount` of the matched text
      yields exactly it. */
  function DecimalValue(s: string, i: nat): (v: real)
    requires DecimalAt(s, i)
    ensures v >= 0.0
    ensures ParseAmount(DecimalText(s, i)) == Success(v)
  {
    DecimalTextParses(s, i);
    PointValue(DecimalWhole(s, i), DecimalFraction(s, i))
  }

  /** The digit run of the match at `i`. */
  function DecimalWhole(s: string, i: nat): (w: string)
    requires DecimalAt(s, i)
    ensures |w| > 0 && AllDigits(w)
  {
    s[i..DigitsEnd(s, i)]
  }

  /** The two digits after the point of the match at `i`. */
  function DecimalFraction(s: string, i: nat): (f: string)
    requires DecimalAt(s, i)
    ensures |f| == 2 && AllDigits(f)
  {
    s[DigitsEnd(s, i) + 1..DigitsEnd(s, i) + 3]
  }

  /** The matched text parses to the value of its digit run and its two
      decimals. */
  lemma DecimalTextParses(s: string, i: nat)
    requires DecimalAt(s, i)
    ensures ParseAmount(DecimalText(s, i)) == Success(PointValue(DecimalWhole(s, i), DecimalFraction(s, i)))
  {
    var w := DecimalWhole(s, i);
    var f := DecimalFraction(s, i);
    assert DecimalText(s, i) == w + ['.'] + f;
    ParseAmountPoint(w, f);
  }

  /** `re.search(r'\d+\.\d{2}', s)` from position `from`: the leftmost
      match. */
  function SearchDecimal(s: string, from: nat): (r: Option<nat>)
    requires from <= |s|
    ensures r.Some? ==> from <= r.value < |s| && DecimalAt(s, r.value)
    ensures r.Some? ==> forall j :: from <= j < r.value ==> !DecimalAt(s, j)
    ensures r.None? ==> forall j :: from <= j <= |s| ==> !DecimalAt(s, j)
    decreases |s| - from
  {
    if from == |s| then None
    else if DecimalAt(s, from) then Some(from)
    else SearchDecimal(s, from + 1)
  }

  /** The guard that makes a line the amount line of a record. */
  predicate IsAmountLine(line: string) {
    SearchDecimal(line, 0).Some? && (Contains(line, " -") || Contains(line, "- "))
  }

  /** `re.match(r'-\s*(\d+\.\d{2})', s)`: the position of the group. */
  function CreditAt(s: string): (r: Option<nat>)
    ensures r.Some? <==> |s| > 0 && s[0] == '-' && DecimalAt(s, SpacesEnd(s, 1))
    ensures r.Some? ==> r.value == SpacesEnd(s, 1)
  {
    if |s| > 0 && s[0] == '-' && DecimalAt(s, SpacesEnd(s, 1)) then Some(SpacesEnd(s, 1)) else None
  }

  /** `re.match(r'(\d+\.\d{2})\s*-', s)`: whether it matches; the group
      then starts at 0. */
  predicate DebitMatch(s: string) {
    DecimalAt(s, 0) &&
    var w := SpacesEnd(s, DigitsEnd(s, 0) + 3);
    w < |s| && s[w] == '-'
  }

  /** The amount and type of the record whose amount line is `line`: a
      leading `- X` is a credit, a trailing `X -` a debit, and the credit
      match is tried first. */
  function DetectAmount(line: string): (r: (real, TxType))
    ensures r.0 >= 0.0
    ensures var s := RemoveChar(line, ',');
      CreditAt(s).Some? ==> r == (DecimalValue(s, CreditAt(s).value), IncomeTx)
    ensures var s := RemoveChar(line, ',');
      CreditAt(s).None? && DebitMatch(s) ==>
        r == (DecimalValue(s, 0), if DecimalValue(s, 0) > 0.0 then ExpenseTx else IncomeTx)
    ensures var s := RemoveChar(line, ',');
      CreditAt(s).None? && !DebitMatch(s) ==> r == (0.0, IncomeTx)
  {
    var s := RemoveChar(line, ',');
    var credit := if CreditAt(s).Some? then DecimalValue(s, CreditAt(s).value) else 0.0;
    var debit := if CreditAt(s).None? && DebitMatch(s) then DecimalValue(s, 0) else 0.0;
    if debit > 0.0 && credit == 0.0 then (debit, ExpenseTx)
    else if credit > 0.0 && debit == 0.0 then (credit, IncomeTx)
    else (if debit > 0.0 then debit else credit, if debit > 0.0 then ExpenseTx else IncomeTx)
  }

  /** The amount is the debit exactly when the line reads `X -` with a
      positive X and does not open with a dash. */
  lemma ExpenseIff(line: string)
    ensures var s := RemoveChar(line, ',');
      DetectAmount(line).1 == ExpenseTx <==> CreditAt(s).None? && DebitMatch(s) && DecimalValue(s, 0) > 0.0
  {
  }

  /** A decimal text found at `n` of `s` is a match there: the digit run
      stops at its point, and the match is the text itself. */
  lemma DecimalAtSlice(s: string, n: nat, t: string)
    requires |t| >= 3 && SplitAt(t, 0, |t| - 3)
    requires n + |t| <= |s| && s[n..n + |t|] == t
    ensures DecimalAt(s, n) && DigitsEnd(s, n) == n + |t| - 3 && DecimalText(s, n) == t
  {
    var j := n + |t| - 3;
    forall k | n <= k < j
      ensures IsDigit(s[k])
    {
      assert s[k] == s[n..n + |t|][k - n];
    }
    assert s[j] == s[n..n + |t|][|t| - 3];
    assert s[j + 1] == s[n..n + |t|][|t| - 2];
    assert s[j + 2] == s[n..n + |t|][|t| - 1];
    DecimalAtSplit(s, n, j);
  }

  /** `t` is the slice of `pre + t + post` where it was set. */
  lemma InfixSlice(pre: string, t: string, post: string)
    ensures (pre + t + post)[|pre|..|pre| + |t|] == t
  {
  }

  /** A decimal text set in any text is a match where it starts. */
  lemma DecimalIn(pre: string, t: string, post: string)
    requires |t| >= 3 && SplitAt(t, 0, |t| - 3)
    ensures var s := pre + t + post;
      DecimalAt(s, |pre|) && DigitsEnd(s, |pre|) == |pre| + |t| - 3 && DecimalText(s, |pre|) == t
  {
    InfixSlice(pre, t, post);
    DecimalAtSlice(pre + t + post, |pre|, t);
  }

  /** A rendered amount is a decimal text. */
  lemma FormatCentsSplits(cents: nat)
    ensures |FormatCents(cents)| >= 3 && SplitAt(FormatCents(cents), 0, |FormatCents(cents)| - 3)
  {
    var w := NatDigits(cents / 100);
    var f := CentsFraction(cents);
    var t := FormatCents(cents);
    ParseFormatCentsShape(cents);
    assert t == w + "." + f;
    assert |t| - 3 == |w|;
    assert forall k :: 0 <= k < |w| ==> t[k] == w[k];
    assert t[|w|] == '.' && t[|w| + 1] == f[0] && t[|w| + 2] == f[1];
  }

  /** `X -` for a decimal text X is a debit amount line matched at 0. */
  lemma DebitShape(t: string)
    requires |t| >= 3 && SplitAt(t, 0, |t| - 3)
    ensures IsAmountLine(t + " -")
    ensures DebitMatch(t + " -") && CreditAt(t + " -").None? && DecimalText(t + " -", 0) == t
  {
    var line := t + " -";
    DecimalIn("", t, " -");
    assert "" + t + " -" == line;
    var m := |t|;
    assert line[m] == ' ' && line[m + 1] == '-';
    assert SpacesEnd(line, m) == m + 1;
    assert IsDigit(line[0]);
    assert line[m..][..2] == " -";
    ContainsAt(line, " -");
  }

  /** `- X` for a decimal text X is a credit amount line whose match
      starts at 2. */
  lemma CreditShape(t: string)
    requires |t| >= 3 && SplitAt(t, 0, |t| - 3)
    ensures IsAmountLine("- " + t)
    ensures CreditAt("- " + t) == Some(2) && DecimalText("- " + t, 2) == t
  {
    var line := "- " + t;
    DecimalIn("- ", t, "");
    assert "- " + t + "" == line;
    assert SpacesEnd(line, 2) == 2;
    assert SpacesEnd(line, 1) == 2;
    assert SearchDecimal(line, 0).Some? by {
      assert !DecimalAt(line, 0) && !DecimalAt(line, 1);
    }
    assert line[0..][..2] == "- ";
    ContainsAt(line, "- ");
  }

  /** A line `X -` whose amount was rendered with two decimals reads back
      as that amount, an expense unless it is zero (so `0.00 -` is an
      income of 0). */
  lemma DebitLineRoundTrip(cents: nat)
    ensures IsAmountLine(FormatCents(cents) + " -")
    ensures DetectAmount(FormatCents(cents) + " -") ==
      (cents as real / 100.0, if cents > 0 then ExpenseTx else IncomeTx)
  {
    var t := FormatCents(cents);
    FormatCentsSplits(cents);
    DebitShape(t);
    RemoveCharKeepsOthers(t + " -", ',');
    ParseFormatCents(cents);
    assert DecimalValue(t + " -", 0) == cents as real / 100.0;
  }

  /** A line `- X` reads back as an income of X. */
  lemma CreditLineRoundTrip(cents: nat)
    ensures IsAmountLine("- " + FormatCents(cents))
    ensures DetectAmount("- " + FormatCents(cents)) == (cents as real / 100.0, IncomeTx)
  {
    var t := FormatCents(cents);
    FormatCentsSplits(cents);
    CreditShape(t);
    RemoveCharKeepsOthers("- " + t, ',');
    ParseFormatCents(cents);
    assert DecimalValue("- " + t, 2) == cents as real / 100.0;
  }
}

=== FILE: amounts.dfy ===
/** `parse_amount` of the statement converter, and the `:.2f` rendering of
    an amount that the generated SQL uses. `float()` is modelled on the plain
    decimal forms (an optional sign, digits, an optional fraction), which
    are all the converter ever hands it. */
module StatementAmounts {
  import opened Wrappers
  import opened Text

  function DigitValue(c: char): nat
    requires IsDigit(c)
  {
    c as int - '0' as int
  }

  predicate AllDigits(s: string) {
    forall i :: 0 <= i < |s| ==> IsDigit(s[i])
  }

  /** The number a run of decimal digits denotes. */
  function DigitsValue(ds: string): nat
    requires AllDigits(ds)
  {
    if |ds| == 0 then 0 else DigitsValue(ds[..|ds| - 1]) * 10 + DigitValue(ds[|ds| - 1])
  }

  /** 10^n, the scale of n decimal places; positive, so dividing by it is
      defined. */
  function Pow10(n: nat): (p: nat)
    ensures p > 0
  {
    if n == 0 then 1 else 10 * Pow10(n - 1)
  }

  /** Position of the first `c` in `s`. */
  function IndexOf(s: string, c: char): (r: Option<nat>)
    ensures r.None? <==> c !in s
    ensures r.Some? ==> r.value < |s| && s[r.value] == c && c !in s[..r.value]
  {
    if |s| == 0 then None
    else if s[0] == c then Some(0)
    else
      var r := IndexOf(s[1..], c);
      if r.None? then None else
        assert s[..r.value + 1] == [s[0]] + s[1..][..r.value];
        Some(r.value + 1)
  }

  /** An unsigned decimal: digits, or digits and a fraction, at least one
      digit in all. */
  function ParseUnsigned(body: string): (r: Result<real, string>)
    ensures r.Success? ==> r.value >= 0.0
  {
    var dot := IndexOf(body, '.');
    if dot.None? then
      if |body| > 0 && AllDigits(body) then Success(DigitsValue(body) as real)
      else Failure("could not convert string to float")
    else
      var whole := body[..dot.value];
      var frac := body[dot.value + 1..];
      if |whole| + |frac| > 0 && AllDigits(whole) && AllDigits(frac) then Success(PointValue(whole, frac))
      else Failure("could not convert string to float")
  }

  /** The value of `whole.frac`. */
  function PointValue(whole: string, frac: string): (v: real)
    requires AllDigits(whole) && AllDigits(frac)
    ensures v >= 0.0
  {
    DigitsValue(whole) as real + (DigitsValue(frac) as real) / (Pow10(|frac|) as real)
  }

  /** `float(s)` on the decimal forms. */
  function ParseDecimal(s: string): (r: Result<real, string>)
    ensures |s| > 0 && s[0] == '-' ==> r == Negate(ParseUnsigned(s[1..]))
    ensures '-' !in s && r.Success? ==> r.value >= 0.0
  {
    if |s| > 0 && s[0] == '-' then Negate(ParseUnsigned(s[1..]))
    else if |s| > 0 && s[0] == '+' then ParseUnsigned(s[1..])
    else ParseUnsigned(s)
  }

  function Negate(r: Result<real, string>): Result<real, string> {
    if r.Success? then Success(-r.value) else r
  }

  /** `parse_amount`: the empty string and a lone dash are zero; otherwise
      the commas are dropped and the rest converted. */
  function ParseAmount(s: string): (r: Result<real, string>)
    ensures s == "" || s == "-" ==> r == Success(0.0)
    ensures s != "" && s != "-" ==> r == ParseDecimal(RemoveChar(s, ','))
  {
    if s == "" || s == "-" then Success(0.0) else ParseDecimal(RemoveChar(s, ','))
  }

  /** `parse_amount` of a digit run, a point and more digits is their
      decimal value. */
  lemma ParseAmountPoint(whole: string, frac: string)
    requires AllDigits(whole) && AllDigits(frac) && |whole| > 0
    ensures ParseAmount(whole + ['.'] + frac) == Success(PointValue(whole, frac))
  {
    var t := whole + ['.'] + frac;
    assert ',' !in t by {
      assert forall k :: 0 <= k < |t| ==> t[k] == '.' || IsDigit(t[k]);
    }
    RemoveCharKeepsOthers(t, ',');
    ParseUnsignedPoint(whole, frac);
  }

  /** A character that is neither a digit nor a point makes an unsigned
      decimal fail. */
  lemma UnsignedRejects(body: string, c: char)
    requires c in body && !IsDigit(c) && c != '.'
    ensures ParseUnsigned(body).Failure?
  {
    var i :| 0 <= i < |body| && body[i] == c;
    var dot := IndexOf(body, '.');
    if dot.Some? {
      var j := dot.value;
      if i < j {
        assert body[..j][i] == c;
      } else {
        assert body[j + 1..][i - j - 1] == c;
      }
    }
  }

  /** `parse_amount` accepts only signs, digits, points and commas: any
      other character, such as an exponent, a letter of `inf` or `nan`, an
      underscore or a space, makes it fail. */
  lemma ParseAmountRejects(s: string, k: nat)
    requires k < |s| && !IsDigit(s[k]) && s[k] !in ".,+-"
    ensures ParseAmount(s).Failure?
  {
    var c := s[k];
    var t := RemoveChar(s, ',');
    RemoveCharKeepsChar(s, ',', c);
    if |t| > 0 && (t[0] == '-' || t[0] == '+') {
      assert c in t[1..] by {
        var i :| 0 <= i < |t| && t[i] == c;
        assert t[1..][i - 1] == c;
      }
      UnsignedRejects(t[1..], c);
    } else {
      UnsignedRejects(t, c);
    }
  }

  /** Thousands separators do not change the amount. */
  lemma CommasIgnored(s: string)
    requires RemoveChar(s, ',') != "" && RemoveChar(s, ',') != "-"
    ensures s != "" && s != "-"
    ensures ParseAmount(s) == ParseAmount(RemoveChar(s, ','))
  {
    RemoveCharKeepsOthers(RemoveChar(s, ','), ',');
  }

  function DigitChar(d: nat): (c: char)
    requires d < 10
    ensures IsDigit(c) && DigitValue(c) == d
  {
    ('0' as int + d) as char
  }

  /** The decimal digits of `n`, without leading zeros. */
  function NatDigits(n: nat): (ds: string)
    ensures |ds| > 0 && AllDigits(ds)
    ensures '.' !in ds && ',' !in ds && '-' !in ds
  {
    if n < 10 then [DigitChar(n)] else NatDigits(n / 10) + [DigitChar(n % 10)]
  }

  lemma {:induction false} NatDigitsValue(n: nat)
    ensures DigitsValue(NatDigits(n)) == n
  {
    if n >= 10 {
      NatDigitsValue(n / 10);
      var ds := NatDigits(n);
      assert ds[..|ds| - 1] == NatDigits(n / 10);
    }
  }

  /** `f"{x:.2f}"` for an amount of `cents` hundredths. */
  function FormatCents(cents: nat): (s: string)
    ensures '-' !in s && ',' !in s
  {
    NatDigits(cents / 100) + "." + CentsFraction(cents)
  }

  lemma {:induction false} IndexOfAfter(w: string, rest: string, c: char)
    requires c !in w
    ensures IndexOf(w + [c] + rest, c) == Some(|w|)
  {
    if |w| > 0 {
      assert (w + [c] + rest)[1..] == w[1..] + [c] + rest;
      IndexOfAfter(w[1..], rest, c);
    }
  }

  lemma CentsSplit(cents: nat)
    ensures (cents / 100) as real + ((cents % 100) as real) / 100.0 == cents as real / 100.0
  {
    assert cents == (cents / 100) * 100 + cents % 100;
  }

  lemma {:induction false} DigitsHaveNoDot(w: string)
    requires AllDigits(w)
    ensures '.' !in w
  {
    if |w| > 0 {
      assert IsDigit(w[0]);
      assert AllDigits(w[1..]);
      DigitsHaveNoDot(w[1..]);
      assert w == [w[0]] + w[1..];
    }
  }

  lemma ParseUnsignedPoint(whole: string, frac: string)
    requires AllDigits(whole) && AllDigits(frac) && |whole| > 0
    ensures ParseUnsigned(whole + ['.'] + frac) == Success(PointValue(whole, frac))
  {
    var body := whole + ['.'] + frac;
    DigitsHaveNoDot(whole);
    IndexOfAfter(whole, frac, '.');
    assert body[..|whole|] == whole;
    assert body[|whole| + 1..] == frac;
  }

  lemma TwoDigitsValue(n: nat)
    requires n < 100
    ensures AllDigits(TwoDigits(n))
    ensures DigitsValue(TwoDigits(n)) == n
  {
    var ds := TwoDigits(n);
    assert ds[..1] == [DigitChar(n / 10)];
    assert [DigitChar(n / 10)][..0] == [];
    assert DigitsValue([DigitChar(n / 10)]) == n / 10;
    assert DigitsValue(ds) == DigitsValue(ds[..1]) * 10 + n % 10;
  }

  /** The two digits after the point of a whole number of cents. */
  function CentsFraction(cents: nat): string {
    TwoDigits(cents % 100)
  }

  function TwoDigits(n: nat): string
    requires n < 100
  {
    [DigitChar(n / 10), DigitChar(n % 10)]
  }

  lemma ParseFormatCentsShape(cents: nat)
    ensures AllDigits(CentsFraction(cents))
    ensures ParseAmount(FormatCents(cents)) == Success(PointValue(NatDigits(cents / 100), CentsFraction(cents)))
  {
    var s := FormatCents(cents);
    var whole := NatDigits(cents / 100);
    var frac := CentsFraction(cents);
    assert s == whole + ['.'] + frac;
    RemoveCharKeepsOthers(s, ',');
    assert s[0] != '-' && s[0] != '+' by {
      assert s[0] == whole[0];
    }
    ParseUnsignedPoint(whole, frac);
  }

  lemma CentsValue(cents: nat)
    ensures AllDigits(CentsFraction(cents))
    ensures PointValue(NatDigits(cents / 100), CentsFraction(cents)) == cents as real / 100.0
  {
    var frac := CentsFraction(cents);
    NatDigitsValue(cents / 100);
    TwoDigitsValue(cents % 100);
    assert |frac| == 2;
    assert Pow10(1) == 10;
    assert Pow10(2) == 100;
    CentsSplit(cents);
  }

  /** Rendering an amount with two decimals and parsing it back gives the
      amount. */
  lemma ParseFormatCents(cents: nat)
    ensures ParseAmount(FormatCents(cents)) == Success(cents as real / 100.0)
  {
    ParseFormatCentsShape(cents);
    CentsValue(cents);
  }
}

=== FILE: analyzer.dfy ===
/** `FinancialAnalyzer.analyzeFinances`: the four analyses over one
    transaction list. The clock is a parameter: `sixMonthCutoff` and
    `oneMonthCutoff` are the day numbers of "six months ago" and "one month
    ago", and `now` is the current month. */
module FinancialAnalyzer {
  import opened Wrappers
  import opened Seqs
  import opened AiTypes
  import opened Patterns
  import opened Anomalies
  import opened Recurring
  import opened Recommendations
  import opened Forecasting

  datatype Analysis = Analysis(
    patterns: seq<SpendingPattern>,
    recommendations: seq<Recommendation>,
    forecast: seq<Forecast>,
    anomalies: seq<Transaction>)

  /** The recommendations are built from the patterns and anomalies of the
      same analysis, and the forecast ignores the patterns it is handed. */
  function AnalyzeFinances(ts: seq<Transaction>, sixMonthCutoff: int, oneMonthCutoff: int, now: MonthKey): (a: Analysis)
    ensures forall c :: HasPatternFor(a.patterns, c) <==> |CategoryExpenses(Recent(ts, sixMonthCutoff), c)| >= 3
    ensures forall t :: t in a.anomalies <==> IsAnomaly(RecentExpenses(ts, oneMonthCutoff), t)
    ensures |a.recommendations| == |Filter(a.patterns, HighSpending)| + |FindRecurringPayments(ts)| + |a.anomalies|
    ensures forall i, j :: 0 <= i < j < |a.recommendations| ==>
      a.recommendations[i].confidence >= a.recommendations[j].confidence
    ensures |a.forecast| == 0 <==> |MonthsOf(ts)| < 3
    ensures |a.forecast| == 0 || |a.forecast| == 3
  {
    var patterns := AnalyzeSpendingPatterns(ts, sixMonthCutoff);
    var anomalies := DetectAnomalies(ts, oneMonthCutoff);
    Analysis(patterns, GenerateRecommendations(patterns, ts, anomalies),
             PredictFutureSpending(ts, now), anomalies)
  }

  /** Every spending alert of an analysis names the category of one of its
      anomalies. */
  lemma AlertsNameAnomalies(ts: seq<Transaction>, sixMonthCutoff: int, oneMonthCutoff: int, now: MonthKey, r: Recommendation)
    requires r in AnalyzeFinances(ts, sixMonthCutoff, oneMonthCutoff, now).recommendations
    requires r.kind == SpendingAlert
    ensures exists t :: IsAnomaly(RecentExpenses(ts, oneMonthCutoff), t) && r.category == Some(t.category)
  {
    var a := AnalyzeFinances(ts, sixMonthCutoff, oneMonthCutoff, now);
    OutputFromRules(a.patterns, ts, a.anomalies, r);
    var t :| t in a.anomalies && r == AlertFor(t);
    assert IsAnomaly(RecentExpenses(ts, oneMonthCutoff), t);
  }
}

=== FILE: anomalies.dfy ===
/** Outlier detection of `FinancialAnalyzer`: `detectAnomalies` with
    `calculateMean` and `calculateStandardDeviation`. */
module Anomalies {
  import opened Seqs
  import opened Stats
  import opened AiTypes

  /** Expenses dated on or after the one-month cutoff day. */
  function RecentExpenses(ts: seq<Transaction>, cutoff: int): seq<Transaction> {
    Filter(ts, (t: Transaction) => t.kind == Expense && t.date.day >= cutoff)
  }

  function InCategory(ts: seq<Transaction>, c: string): seq<Transaction> {
    Filter(ts, (t: Transaction) => t.category == c)
  }

  /** Amount strictly above `mean + 2 * stddev` of its group, with the
      population standard deviation. */
  predicate Outlier(t: Transaction, group: seq<Transaction>)
    requires |group| > 0
  {
    var m := Mean(Amounts(group));
    AboveTwoSigma(t.amount, m, Variance(Amounts(group), m))
  }

  /** `t` is reported: it is a recent expense, its category has at least five
      recent expenses, and it is an outlier among them. */
  ghost predicate IsAnomaly(recent: seq<Transaction>, t: Transaction) {
    var group := InCategory(recent, t.category);
    t in recent && |group| >= 5 && Outlier(t, group)
  }

  /** The members of `group` above the threshold, in input order. */
  function Flagged(group: seq<Transaction>): seq<Transaction>
    requires |group| > 0
  {
    Filter(group, (t: Transaction) => Outlier(t, group))
  }

  /** The loop over the window's categories. */
  function AnomaliesOver(recent: seq<Transaction>, cats: seq<string>): seq<Transaction> {
    if |cats| == 0 then []
    else
      var group := InCategory(recent, cats[0]);
      var rest := AnomaliesOver(recent, cats[1..]);
      if |group| < 5 then rest else Flagged(group) + rest
  }

  lemma {:induction false} AnomaliesOverMembers(recent: seq<Transaction>, cats: seq<string>, t: Transaction)
    ensures t in AnomaliesOver(recent, cats) <==> t.category in cats && IsAnomaly(recent, t)
  {
    if |cats| > 0 {
      AnomaliesOverMembers(recent, cats[1..], t);
      var c := cats[0];
      var group := InCategory(recent, c);
      FilterMembers(recent, (t: Transaction) => t.category == c);
      assert cats == [c] + cats[1..];
      if |group| >= 5 {
        FilterMembers(group, (u: Transaction) => Outlier(u, group));
        if t.category == c {
          assert InCategory(recent, t.category) == group;
        }
      }
    }
  }

  /** Over distinct categories, a transaction is listed as often as it
      occurs in the window when it is an outlier of its category's group of
      at least five, and otherwise not at all. */
  lemma {:induction false} AnomaliesOverCount(recent: seq<Transaction>, cats: seq<string>, t: Transaction)
    requires NoDup(cats)
    ensures var group := InCategory(recent, t.category);
      multiset(AnomaliesOver(recent, cats))[t] ==
        if t.category in cats && |group| >= 5 && Outlier(t, group) then multiset(recent)[t] else 0
  {
    if |cats| > 0 {
      var c := cats[0];
      assert cats == [c] + cats[1..];
      assert NoDup(cats[1..]) by {
        forall i, j | 0 <= i < j < |cats[1..]| ensures cats[1..][i] != cats[1..][j] {
          assert cats[1..][i] == cats[i + 1] && cats[1..][j] == cats[j + 1];
        }
      }
      AnomaliesOverCount(recent, cats[1..], t);
      var group := InCategory(recent, c);
      var p := (u: Transaction) => u.category == c;
      FilterCount(recent, p, t);
      if |group| >= 5 {
        FilterCount(group, (u: Transaction) => Outlier(u, group), t);
      }
      if t.category == c {
        assert c !in cats[1..] by {
          forall i | 0 <= i < |cats[1..]| ensures cats[1..][i] != c {
            assert cats[1..][i] == cats[i + 1];
          }
        }
      }
    }
  }

  /** `detectAnomalies`, with the one-month cutoff passed in as a day
      number: exactly the recent expenses that are outliers of a category
      with at least five recent expenses. */
  function DetectAnomalies(ts: seq<Transaction>, oneMonthCutoff: int): (r: seq<Transaction>)
    ensures forall t :: t in r <==> IsAnomaly(RecentExpenses(ts, oneMonthCutoff), t)
  {
    var recent := RecentExpenses(ts, oneMonthCutoff);
    var cats := CategoriesOf(recent);
    var r := AnomaliesOver(recent, cats);
    forall t ensures t in r <==> IsAnomaly(recent, t) {
      AnomaliesOverMembers(recent, cats, t);
      if t in recent {
        var k :| 0 <= k < |recent| && recent[k] == t;
        assert recent[k].category in cats;
      }
    }
    r
  }

  /** No anomaly is lost or repeated: each is listed exactly as often as
      it occurs among the recent expenses, so the count of alerts built
      from them is the number of flagged expenses. */
  lemma AnomalyMultiplicity(ts: seq<Transaction>, cutoff: int, t: Transaction)
    ensures var recent := RecentExpenses(ts, cutoff);
      multiset(DetectAnomalies(ts, cutoff))[t] == if IsAnomaly(recent, t) then multiset(recent)[t] else 0
  {
    var recent := RecentExpenses(ts, cutoff);
    var cats := CategoriesOf(recent);
    AnomaliesOverCount(recent, cats, t);
    if t in recent {
      var k :| 0 <= k < |recent| && recent[k] == t;
      assert recent[k].category in cats;
    }
  }

  /** Every anomaly is an input expense dated inside the window. */
  lemma AnomalyIsRecentExpense(ts: seq<Transaction>, cutoff: int, t: Transaction)
    requires t in DetectAnomalies(ts, cutoff)
    ensures t in ts && t.kind == Expense && t.date.day >= cutoff
  {
    FilterMembers(ts, (t: Transaction) => t.kind == Expense && t.date.day >= cutoff);
  }

  /** A category with fewer than five recent expenses never yields an
      anomaly, whatever the amounts. */
  lemma SmallCategoryHasNoAnomaly(ts: seq<Transaction>, cutoff: int, t: Transaction)
    requires |InCategory(RecentExpenses(ts, cutoff), t.category)| < 5
    ensures t !in DetectAnomalies(ts, cutoff)
  {
  }

  /** In a category whose recent amounts are all equal nothing is
      flagged. */
  lemma ConstantCategoryHasNoAnomaly(ts: seq<Transaction>, cutoff: int, t: Transaction, c: real)
    requires forall u :: u in InCategory(RecentExpenses(ts, cutoff), t.category) ==> u.amount == c
    ensures t !in DetectAnomalies(ts, cutoff)
  {
    var recent := RecentExpenses(ts, cutoff);
    var group := InCategory(recent, t.category);
    if t in DetectAnomalies(ts, cutoff) {
      FilterMembers(recent, (u: Transaction) => u.category == t.category);
      var amounts := Amounts(group);
      forall i | 0 <= i < |amounts| ensures amounts[i] == c {
        assert group[i] in group;
      }
      ConstantStatistics(amounts, c);
      assert false;
    }
  }

  /** The smallest recent expense of a category is never flagged. */
  lemma MinimumIsNotAnomaly(ts: seq<Transaction>, cutoff: int, t: Transaction)
    requires forall u :: u in InCategory(RecentExpenses(ts, cutoff), t.category) ==> t.amount <= u.amount
    ensures t !in DetectAnomalies(ts, cutoff)
  {
    var recent := RecentExpenses(ts, cutoff);
    var group := InCategory(recent, t.category);
    if t in DetectAnomalies(ts, cutoff) {
      assert IsAnomaly(recent, t);
      FilterMembers(recent, (u: Transaction) => u.category == t.category);
      assert t in group;
      var k :| 0 <= k < |group| && group[k] == t;
      var amounts := Amounts(group);
      forall i | 0 <= i < |amounts| ensures amounts[k] <= amounts[i] {
        assert group[i] in group;
      }
      MinimumAtMostMean(amounts, k);
      assert false;
    }
  }

  /** The threshold is strict: an amount equal to `mean + 2 * stddev` is not
      an outlier, and one above it is. */
  lemma ThresholdIsStrict(t: Transaction, group: seq<Transaction>, sd: real)
    requires |group| > 0
    requires IsRootOf(sd, Variance(Amounts(group), Mean(Amounts(group))))
    ensures Outlier(t, group) <==> t.amount > Mean(Amounts(group)) + 2.0 * sd
  {
    var m := Mean(Amounts(group));
    AboveTwoSigmaMeansAboveThreshold(t.amount, m, Variance(Amounts(group), m), sd);
  }
}

=== FILE: categories.dfy ===
/** `detect_category` and `detect_bank_account` of the statement converter:
    keyword tests on the upper-cased description, in a fixed precedence. */
module Categories {
  import opened Wrappers
  import opened Text

  /** The `transaction_type` the parser assigns. */
  datatype TxType = IncomeTx | ExpenseTx

  /** `CATEGORY_MAPPING` as Python builds it, group by group. The dict
      display lists `'INVESTMENT'` twice, first with 4 among the income
      keywords and then with 15 among the investment keywords; a repeated
      key keeps the position of its first occurrence and takes the value of
      its last, so `'INVESTMENT'` sits fourth with value 15. */
  const IncomeKeywords: seq<(string, int)> :=
    [("SALARY", 1), ("BUSINESS", 2), ("FREELANCE", 3), ("INVESTMENT", 15), ("RETURN", 4)]

  const ExpenseKeywords: seq<(string, int)> :=
    [("GROCERIES", 5), ("SHOPPING", 6), ("DINING", 7), ("RESTAURANT", 7), ("UTILITIES", 8),
     ("WIFI", 9), ("ELECTRICITY", 10), ("GAS", 11), ("ENTERTAINMENT", 12), ("TRANSPORT", 13),
     ("TRANSPORTATION", 13), ("HEALTHCARE", 14), ("MEDICAL", 14)]

  const InvestmentKeywords: seq<(string, int)> := [("SIP", 15), ("MUTUAL", 15)]

  const SavingsKeywords: seq<(string, int)> := [("SAVINGS", 16), ("HOUSE", 16)]

  const TransferKeywords: seq<(string, int)> :=
    [("TRANSFER", 17), ("NEFT", 17), ("UPI", 17), ("IMPS", 17), ("CASH WITHDRAWAL", 17)]

  /** The keywords after the income group, in order. */
  const LaterKeywords: seq<(string, int)> :=
    ExpenseKeywords + (InvestmentKeywords + (SavingsKeywords + TransferKeywords))

  const CategoryMapping: seq<(string, int)> := IncomeKeywords + LaterKeywords

  /** Every category the mapping names is one of the 17 seeded ones. */
  lemma MappingInRange()
    ensures forall i :: 0 <= i < |CategoryMapping| ==> 1 <= CategoryMapping[i].1 <= 17
  {
  }

  /** The value of the first keyword of `m`, in order, that occurs in
      `text`. */
  function FirstKeyword(text: string, m: seq<(string, int)>): (r: Option<int>)
    ensures r.None? <==> forall i :: 0 <= i < |m| ==> !Contains(text, m[i].0)
    ensures r.Some? ==> exists i :: (0 <= i < |m| && Contains(text, m[i].0) && r.value == m[i].1 &&
      forall j :: 0 <= j < i ==> !Contains(text, m[j].0))
  {
    if |m| == 0 then None
    else if Contains(text, m[0].0) then Some(m[0].1)
    else
      var r := FirstKeyword(text, m[1..]);
      if r.Some? then
        ghost var i :| 0 <= i < |m[1..]| && Contains(text, m[1..][i].0) && r.value == m[1..][i].1 &&
          forall j :: 0 <= j < i ==> !Contains(text, m[1..][j].0);
        assert forall j :: 0 <= j < i + 1 ==> !Contains(text, m[j].0) by {
          forall j | 0 <= j < i + 1 ensures !Contains(text, m[j].0) {
            if j > 0 {
              assert m[j] == m[1..][j - 1];
            }
          }
        }
        assert m[i + 1] == m[1..][i];
        r
      else
        assert forall i :: 0 <= i < |m| ==> !Contains(text, m[i].0) by {
          forall i | 0 <= i < |m| ensures !Contains(text, m[i].0) {
            if i > 0 {
              assert m[i] == m[1..][i - 1];
            }
          }
        }
        r
  }

  predicate AnyTransferWord(u: string) {
    Contains(u, "TRANSFER") || Contains(u, "NEFT") || Contains(u, "UPI") || Contains(u, "IMPS")
  }

  /** `detect_category`; the amount it is also passed plays no part. */
  function DetectCategory(description: string, t: TxType): (c: int)
    ensures 1 <= c <= 17
  {
    var u := Upper(description);
    if Contains(u, "SIP") && t == ExpenseTx then 15
    else if Contains(u, "HOUSE") && t == ExpenseTx then 16
    else if Contains(u, "CASH WITHDRAWAL") then 17
    else if AnyTransferWord(u) then 17
    else
      var r := FirstKeyword(u, CategoryMapping);
      if r.Some? then
        MappingInRange();
        r.value
      else if t == IncomeTx then 1 else 6
  }

  /** The precedence of `detect_category`, rule by rule: a SIP expense is
      15; otherwise a HOUSE expense is 16; otherwise a cash withdrawal or
      any transfer word is 17, whatever keyword the mapping would match;
      otherwise the first keyword of the mapping, in its order, that occurs
      decides. */
  lemma Precedence(description: string, t: TxType)
    ensures var u := Upper(description);
      var sip := Contains(u, "SIP") && t == ExpenseTx;
      var house := Contains(u, "HOUSE") && t == ExpenseTx;
      var transfer := Contains(u, "CASH WITHDRAWAL") || AnyTransferWord(u);
      (sip ==> DetectCategory(description, t) == 15) &&
      (!sip && house ==> DetectCategory(description, t) == 16) &&
      (!sip && !house && transfer ==> DetectCategory(description, t) == 17) &&
      (forall i :: 0 <= i < |CategoryMapping| && !sip && !house && !transfer &&
                   Contains(u, CategoryMapping[i].0) &&
                   (forall j :: 0 <= j < i ==> !Contains(u, CategoryMapping[j].0))
                   ==> DetectCategory(description, t) == CategoryMapping[i].1)
  {
    var u := Upper(description);
    forall i | 0 <= i < |CategoryMapping| && Contains(u, CategoryMapping[i].0) &&
      (forall j :: 0 <= j < i ==> !Contains(u, CategoryMapping[j].0))
      ensures FirstKeyword(u, CategoryMapping) == Some(CategoryMapping[i].1)
    {
      FirstKeywordAt(u, CategoryMapping, i);
    }
  }

  /** A transfer word overrides the mapping: `NEFT SALARY` as income is a
      transfer, though `'SALARY'` alone would give 1. */
  lemma NeftSalaryIsTransfer()
    ensures DetectCategory("NEFT SALARY", IncomeTx) == 17
    ensures FirstKeyword("NEFT SALARY", CategoryMapping) == Some(1)
  {
    var d := "NEFT SALARY";
    assert Upper(d) == d;
    assert d[..4] == "NEFT";
    assert Contains(d, "SALARY") by {
      ContainsAt(d, "SALARY");
      assert d[5..][..6] == "SALARY";
    }
    FirstKeywordAt(d, CategoryMapping, 0);
  }

  /** A SIP payment sent over UPI is an investment, not a transfer:
      `UPI/DR/sip` as an expense is 15. */
  lemma UpiSipIsInvestment()
    ensures DetectCategory("UPI/DR/sip", ExpenseTx) == 15
  {
    var u := Upper("UPI/DR/sip");
    assert u == "UPI/DR/SIP";
    ContainsAt(u, "SIP");
    assert u[7..][..3] == "SIP";
  }

  /** Upper-casing the description first changes nothing. */
  lemma CategoryIgnoresCase(description: string, t: TxType)
    ensures DetectCategory(Upper(description), t) == DetectCategory(description, t)
  {
    UpperIdempotent(description);
  }

  /** Category 4 comes only from `'RETURN'`: the duplicate key leaves
      `'INVESTMENT'` yielding 15. */
  lemma OnlyReturnYieldsFour(description: string, t: TxType)
    requires DetectCategory(description, t) == 4
    ensures Contains(Upper(description), "RETURN")
  {
    var u := Upper(description);
    assert FirstKeyword(u, CategoryMapping) == Some(4);
    FirstKeywordAppend(u, IncomeKeywords, LaterKeywords);
    NoLaterFour();
    FourIsReturn();
  }

  /** Among the income keywords only `'RETURN'` maps to 4. */
  lemma FourIsReturn()
    ensures forall i :: 0 <= i < |IncomeKeywords| && IncomeKeywords[i].1 == 4 ==> IncomeKeywords[i].0 == "RETURN"
  {
  }

  /** No keyword after the income group maps to 4. */
  lemma NoLaterFour()
    ensures forall i :: 0 <= i < |LaterKeywords| ==> LaterKeywords[i].1 != 4
  {
  }

  /** An `'INVESTMENT'` description that no earlier rule or keyword
      catches is category 15. */
  lemma InvestmentYieldsFifteen(description: string, t: TxType)
    requires Contains(Upper(description), "INVESTMENT")
    requires !(Contains(Upper(description), "SIP") && t == ExpenseTx)
    requires !(Contains(Upper(description), "HOUSE") && t == ExpenseTx)
    requires !Contains(Upper(description), "CASH WITHDRAWAL") && !AnyTransferWord(Upper(description))
    requires !Contains(Upper(description), "SALARY") && !Contains(Upper(description), "BUSINESS")
    requires !Contains(Upper(description), "FREELANCE")
    ensures DetectCategory(description, t) == 15
  {
    var u := Upper(description);
    FirstKeywordAt(u, IncomeKeywords, 3);
    FirstKeywordAppend(u, IncomeKeywords, LaterKeywords);
  }

  /** The first keyword present decides. */
  lemma FirstKeywordAt(text: string, m: seq<(string, int)>, k: nat)
    requires k < |m| && Contains(text, m[k].0)
    requires forall j :: 0 <= j < k ==> !Contains(text, m[j].0)
    ensures FirstKeyword(text, m) == Some(m[k].1)
  {
    var r := FirstKeyword(text, m);
    var i :| 0 <= i < |m| && Contains(text, m[i].0) && r.value == m[i].1 &&
      forall j :: 0 <= j < i ==> !Contains(text, m[j].0);
    assert !(i < k);
    assert !(k < i);
  }

  /** Keywords are tried group by group. */
  lemma {:induction false} FirstKeywordAppend(text: string, a: seq<(string, int)>, b: seq<(string, int)>)
    ensures FirstKeyword(text, a + b) == if FirstKeyword(text, a).Some? then FirstKeyword(text, a) else FirstKeyword(text, b)
  {
    if |a| > 0 {
      assert (a + b)[0] == a[0];
      assert (a + b)[1..] == a[1..] + b;
      FirstKeywordAppend(text, a[1..], b);
    } else {
      assert a + b == b;
    }
  }

  /** With no keyword at all, incomes fall back to 1 and expenses to 6. */
  lemma Fallback(description: string, t: TxType)
    requires forall i :: 0 <= i < |CategoryMapping| ==> !Contains(Upper(description), CategoryMapping[i].0)
    ensures DetectCategory(description, t) == (if t == IncomeTx then 1 else 6)
  {
    assert Contains(Upper(description), "SIP") == Contains(Upper(description), CategoryMapping[18].0);
    assert Contains(Upper(description), "HOUSE") == Contains(Upper(description), CategoryMapping[21].0);
    assert Contains(Upper(description), "CASH WITHDRAWAL") == Contains(Upper(description), CategoryMapping[26].0);
    assert Contains(Upper(description), "TRANSFER") == Contains(Upper(description), CategoryMapping[22].0);
    assert Contains(Upper(description), "NEFT") == Contains(Upper(description), CategoryMapping[23].0);
    assert Contains(Upper(description), "UPI") == Contains(Upper(description), CategoryMapping[24].0);
    assert Contains(Upper(description), "IMPS") == Contains(Upper(description), CategoryMapping[25].0);
  }

  /** `detect_bank_account`: SBI is checked first, then BARODA, and SBI is
      the default. */
  function DetectBankAccount(description: string): (a: int)
    ensures a == 1 || a == 2
    ensures a == 2 <==> !Contains(Upper(description), "SBI") && Contains(Upper(description), "BARODA")
  {
    var u := Upper(description);
    if Contains(u, "SBI") then 1
    else if Contains(u, "BARODA") then 2
    else 1
  }
}

=== FILE: closing_balances.dfy ===
/** `calculateAndExportBalances`: one chain over all rows in date order,
    seeded with the first row's stored closing balance, compared row by row
    with what is stored. */
module ClosingBalances {
  import opened Wrappers
  import opened Ledger
  import VerifyBalances

  /** One CSV row. `difference` is `original - calculated`. */
  datatype Comparison = Comparison(
    id: int, amount: real, kind: RowType,
    original: Option<real>, calculated: Option<real>, difference: Option<real>)

  /** Reference value of the calculated balance of row `i`: the first
      stored closing balance moved by the net change of rows `1..i`. */
  function Chain(rows: seq<Row>, i: int): Option<real>
    requires 0 <= i < |rows|
  {
    Plus(rows[0].closing, SumSigned(rows[1..i + 1]))
  }

  method CalculateAndExportBalances(rows: seq<Row>) returns (out: seq<Comparison>)
    ensures |out| == |rows|
    ensures forall i :: 0 <= i < |rows| ==>
      out[i].id == rows[i].id && out[i].amount == rows[i].amount &&
      out[i].kind == rows[i].kind && out[i].original == rows[i].closing
    ensures |rows| > 0 ==> out[0].calculated == rows[0].closing && out[0].difference == Some(0.0)
    ensures forall i :: 0 < i < |rows| ==> out[i].calculated == Plus(out[i - 1].calculated, Signed(rows[i]))
    ensures forall i :: 0 <= i < |rows| ==> out[i].calculated == Chain(rows, i)
    ensures forall i :: 0 < i < |rows| ==> out[i].difference == Minus(rows[i].closing, out[i].calculated)
  {
    if |rows| == 0 {
      return [];
    }
    var current := rows[0].closing;
    out := [Comparison(rows[0].id, rows[0].amount, rows[0].kind, rows[0].closing, current, Some(0.0))];
    assert rows[1..1] == [];
    var i := 1;
    while i < |rows|
      invariant 1 <= i <= |rows|
      invariant |out| == i
      invariant current == Chain(rows, i - 1)
      invariant out[0].calculated == rows[0].closing && out[0].difference == Some(0.0)
      invariant forall k :: 0 <= k < i ==>
        out[k].id == rows[k].id && out[k].amount == rows[k].amount &&
        out[k].kind == rows[k].kind && out[k].original == rows[k].closing
      invariant forall k :: 0 <= k < i ==> out[k].calculated == Chain(rows, k)
      invariant forall k :: 0 < k < i ==> out[k].difference == Minus(rows[k].closing, out[k].calculated)
    {
      ChainStep(rows, i);
      var calculated := Plus(current, Signed(rows[i]));
      var original := rows[i].closing;
      out := out + [Comparison(rows[i].id, rows[i].amount, rows[i].kind, original, calculated, Minus(original, calculated))];
      current := calculated;
      i := i + 1;
    }
    forall k | 0 < k < |rows| ensures out[k].calculated == Plus(out[k - 1].calculated, Signed(rows[k])) {
      ChainStep(rows, k);
    }
  }

  /** Each step of the chain adds the signed amount of its row. */
  lemma ChainStep(rows: seq<Row>, i: int)
    requires 0 < i < |rows|
    ensures Chain(rows, i) == Plus(Chain(rows, i - 1), Signed(rows[i]))
  {
    assert rows[1..i + 1] == rows[1..i] + [rows[i]];
    SumSignedAppend(rows[1..i], [rows[i]]);
    assert SumSigned([rows[i]]) == Signed(rows[i]);
  }

  /** The single chain and the per-account replay of the verification
      script compute the same balances over the rows of one account. */
  lemma ChainAgreesWithVerification(rows: seq<Row>, i: int)
    requires 0 <= i < |rows|
    ensures Chain(rows, i) == VerifyBalances.Calculated(rows, i)
  {
    assert rows[..i + 1][1..] == rows[1..i + 1];
  }
}

=== FILE: fix_balances.dfy ===
/** `fixTransactionBalances`: per account, rewind the current balance over
    all of the account's rows to an opening balance, replay the rows forward,
    and rewrite every stored closing balance that is missing or off by more
    than the tolerance. The database is a parameter: `balances` maps each
    existing account to its `current_balance`. */
module FixBalances {
  import opened Wrappers
  import opened Seqs
  import opened Ledger

  /** The rewrite test: a NULL stored balance, or one more than the
      tolerance away from the recomputed one. */
  predicate NeedsFix(stored: Option<real>, calculated: real) {
    stored.None? || Abs(stored.value - calculated) > Tolerance
  }

  /** One `UPDATE transactions SET closing_balance`. */
  datatype Fix = Fix(id: int, closing: real)

  /** One `UPDATE bank_accounts SET current_balance`. */
  datatype AccountUpdate = AccountUpdate(account: int, balance: real)

  datatype FixReport = FixReport(
    fixes: seq<Fix>,
    accountUpdates: seq<AccountUpdate>,
    totalChecked: nat,
    totalFixed: nat,
    warnings: seq<int>)

  /** The opening balance: the current balance less every income and plus
      every other amount of the account. */
  function Opening(rows: seq<Row>, balance: real): real {
    balance - SumSigned(rows)
  }

  /** Reference closing balances: the balance after row `k` is the current
      balance less the net change of the rows after it. */
  function ExpectedClosings(rows: seq<Row>, balance: real): (cs: seq<real>)
    ensures |cs| == |rows|
    ensures forall k :: 0 <= k < |rows| ==> cs[k] == balance - SumSigned(rows[k + 1..])
  {
    seq(|rows|, k requires 0 <= k < |rows| => balance - SumSigned(rows[k + 1..]))
  }

  /** The rewrites for one account, given its closing balances. */
  function Fixes(rows: seq<Row>, cs: seq<real>): (fs: seq<Fix>)
    requires |cs| == |rows|
    ensures |fs| <= |rows|
    ensures forall f :: f in fs <==>
      exists k :: 0 <= k < |rows| && f == Fix(rows[k].id, cs[k]) && NeedsFix(rows[k].closing, cs[k])
  {
    if |rows| == 0 then []
    else
      var n := |rows| - 1;
      var prev := Fixes(rows[..n], cs[..n]);
      var here := if NeedsFix(rows[n].closing, cs[n]) then [Fix(rows[n].id, cs[n])] else [];
      assert forall k :: 0 <= k < n ==> rows[..n][k] == rows[k] && cs[..n][k] == cs[k];
      prev + here
  }

  /** Extending the rows and their closings by one extends the rewrites by
      that row's rewrite, if it needs one. */
  lemma FixesSnoc(rows: seq<Row>, cs: seq<real>, i: nat, c: real)
    requires i < |rows| && |cs| == i
    ensures Fixes(rows[..i + 1], cs + [c])
         == Fixes(rows[..i], cs) + (if NeedsFix(rows[i].closing, c) then [Fix(rows[i].id, c)] else [])
  {
    assert rows[..i + 1][..i] == rows[..i];
    assert (cs + [c])[..i] == cs;
  }

  lemma SumSignedSnoc(rows: seq<Row>, k: nat)
    requires k < |rows|
    ensures SumSigned(rows[..k + 1]) == SumSigned(rows[..k]) + Signed(rows[k])
  {
    SumSignedAppend(rows[..k], [rows[k]]);
    PrefixSnoc(rows, k);
    assert SumSigned([rows[k]]) == Signed(rows[k]);
  }

  /** The reference closing after row `k` is the opening balance plus the
      net change of the rows up to and including `k`. */
  lemma ExpectedFromOpening(rows: seq<Row>, balance: real, k: nat)
    requires k < |rows|
    ensures ExpectedClosings(rows, balance)[k] == Opening(rows, balance) + SumSigned(rows[..k + 1])
  {
    SumSignedSplit(rows, k + 1);
  }

  /** Each reference closing follows from the one before it. */
  lemma ExpectedChain(rows: seq<Row>, balance: real, k: nat)
    requires k < |rows|
    ensures ExpectedClosings(rows, balance)[k]
         == Apply(if k == 0 then Opening(rows, balance) else ExpectedClosings(rows, balance)[k - 1], rows[k])
  {
    ExpectedFromOpening(rows, balance, k);
    SumSignedSnoc(rows, k);
    if k == 0 {
      assert rows[..0] == [];
    } else {
      ExpectedFromOpening(rows, balance, k - 1);
    }
  }

  /** The reference closings start from the opening balance, follow the
      rows one by one, and end at the current balance. */
  lemma ExpectedShape(rows: seq<Row>, balance: real)
    ensures |rows| > 0 ==> ExpectedClosings(rows, balance)[0] == Apply(Opening(rows, balance), rows[0])
    ensures forall k :: 0 < k < |rows| ==>
      ExpectedClosings(rows, balance)[k] == Apply(ExpectedClosings(rows, balance)[k - 1], rows[k])
    ensures |rows| > 0 ==> ExpectedClosings(rows, balance)[|rows| - 1] == balance
    ensures |rows| == 0 ==> Opening(rows, balance) == balance
  {
    forall k | 0 <= k < |rows|
      ensures ExpectedClosings(rows, balance)[k]
           == Apply(if k == 0 then Opening(rows, balance) else ExpectedClosings(rows, balance)[k - 1], rows[k])
    {
      ExpectedChain(rows, balance, k);
    }
    if |rows| > 0 {
      assert rows[|rows|..] == [];
    }
  }

  /** The rewind loop: the current balance less the net change of every row. */
  method Rewind(rows: seq<Row>, balance: real) returns (opening: real)
    ensures opening == Opening(rows, balance)
  {
    opening := balance;
    var j := |rows|;
    while j > 0
      invariant 0 <= j <= |rows|
      invariant opening == balance - SumSigned(rows[j..])
    {
      assert rows[j - 1..][1..] == rows[j..];
      opening := opening - Signed(rows[j - 1]);
      j := j - 1;
    }
    assert rows[0..] == rows;
  }

  /** The rewind loop and the replay loop for one account. */
  method FixAccount(rows: seq<Row>, balance: real) returns (closings: seq<real>, fixes: seq<Fix>, final: real)
    ensures closings == ExpectedClosings(rows, balance)
    ensures |rows| > 0 ==> closings[0] == Apply(Opening(rows, balance), rows[0])
    ensures forall k :: 0 < k < |rows| ==> closings[k] == Apply(closings[k - 1], rows[k])
    ensures fixes == Fixes(rows, closings)
    ensures final == balance
  {
    var running := Rewind(rows, balance);
    ghost var expected := ExpectedClosings(rows, balance);
    closings := [];
    fixes := [];
    var i := 0;
    while i < |rows|
      invariant 0 <= i <= |rows|
      invariant closings == expected[..i]
      invariant running == if i == 0 then Opening(rows, balance) else expected[i - 1]
      invariant fixes == Fixes(rows[..i], closings)
    {
      ExpectedChain(rows, balance, i);
      PrefixSnoc(expected, i);
      running := Apply(running, rows[i]);
      FixesSnoc(rows, closings, i, running);
      if NeedsFix(rows[i].closing, running) {
        fixes := fixes + [Fix(rows[i].id, running)];
      }
      closings := closings + [running];
      i := i + 1;
    }
    assert rows[..|rows|] == rows;
    assert closings == expected;
    ExpectedShape(rows, balance);
    final := running;
  }

  /** The rewrites the whole run performs: each found account's rows
      against the reference closing balances, accounts in group order. */
  function PlannedFixes(gs: seq<AccountRows>, balances: map<int, real>): seq<Fix> {
    if |gs| == 0 then []
    else
      var here := if gs[0].account in balances
        then Fixes(gs[0].rows, ExpectedClosings(gs[0].rows, balances[gs[0].account])) else [];
      here + PlannedFixes(gs[1..], balances)
  }

  /** The rewrites of the run are exactly the rewrites of the found
      accounts: no row of a missing account is touched. */
  lemma {:induction false} PlannedFixesMembers(gs: seq<AccountRows>, balances: map<int, real>, f: Fix)
    ensures f in PlannedFixes(gs, balances) <==>
      exists i :: 0 <= i < |gs| && gs[i].account in balances &&
        f in Fixes(gs[i].rows, ExpectedClosings(gs[i].rows, balances[gs[i].account]))
  {
    if |gs| > 0 {
      PlannedFixesMembers(gs[1..], balances, f);
      if exists i :: 0 <= i < |gs| && gs[i].account in balances &&
          f in Fixes(gs[i].rows, ExpectedClosings(gs[i].rows, balances[gs[i].account])) {
        var i :| 0 <= i < |gs| && gs[i].account in balances &&
          f in Fixes(gs[i].rows, ExpectedClosings(gs[i].rows, balances[gs[i].account]));
        if i > 0 {
          assert gs[1..][i - 1] == gs[i];
        }
      }
      if f in PlannedFixes(gs[1..], balances) {
        var i :| 0 <= i < |gs[1..]| && gs[1..][i].account in balances &&
          f in Fixes(gs[1..][i].rows, ExpectedClosings(gs[1..][i].rows, balances[gs[1..][i].account]));
        assert gs[i + 1] == gs[1..][i];
      }
    }
  }

  /** Rows of accounts that exist. */
  function CheckedRows(gs: seq<AccountRows>, balances: map<int, real>): nat {
    if |gs| == 0 then 0
    else (if gs[0].account in balances then |gs[0].rows| else 0) + CheckedRows(gs[1..], balances)
  }

  /** Rows whose account exists, counted over the query result directly. */
  function FoundRows(rows: seq<Row>, balances: map<int, real>): nat {
    if |rows| == 0 then 0
    else FoundRows(rows[..|rows| - 1], balances) + (if rows[|rows| - 1].account in balances then 1 else 0)
  }

  lemma {:induction false} AddRowChecked(gs: seq<AccountRows>, r: Row, balances: map<int, real>)
    ensures CheckedRows(AddRow(gs, r), balances) == CheckedRows(gs, balances) + (if r.account in balances then 1 else 0)
  {
    if |gs| > 0 && gs[0].account != r.account {
      AddRowChecked(gs[1..], r, balances);
      assert ([gs[0]] + AddRow(gs[1..], r))[1..] == AddRow(gs[1..], r);
    } else if |gs| > 0 {
      assert ([AccountRows(gs[0].account, gs[0].rows + [r])] + gs[1..])[1..] == gs[1..];
    }
  }

  /** The groups of found accounts hold exactly the found rows. */
  lemma {:induction false} CheckedRowsAreFoundRows(rows: seq<Row>, balances: map<int, real>)
    ensures CheckedRows(GroupByAccount(rows), balances) == FoundRows(rows, balances)
  {
    if |rows| > 0 {
      var init := rows[..|rows| - 1];
      CheckedRowsAreFoundRows(init, balances);
      AddRowChecked(GroupByAccount(init), rows[|rows| - 1], balances);
    }
  }

  /** The balance write-backs: each found account gets its current balance
      back, since the replay ends where the rewind started. */
  function WriteBacks(gs: seq<AccountRows>, balances: map<int, real>): seq<AccountUpdate> {
    if |gs| == 0 then []
    else
      (if gs[0].account in balances then [AccountUpdate(gs[0].account, balances[gs[0].account])] else [])
      + WriteBacks(gs[1..], balances)
  }

  lemma {:induction false} WriteBacksMembers(gs: seq<AccountRows>, balances: map<int, real>, u: AccountUpdate)
    ensures u in WriteBacks(gs, balances) <==>
      u.account in balances && u.account in GroupAccounts(gs) && u.balance == balances[u.account]
  {
    if |gs| > 0 {
      WriteBacksMembers(gs[1..], balances, u);
      assert GroupAccounts(gs) == [gs[0].account] + GroupAccounts(gs[1..]);
    }
  }

  /** Every account that exists and has rows gets exactly one write-back of
      its unchanged current balance, and no other account gets one. */
  lemma WriteBackIsUnchanged(rows: seq<Row>, balances: map<int, real>, u: AccountUpdate)
    ensures u in WriteBacks(GroupByAccount(rows), balances) <==>
      u.account in balances && u.account in AccountIds(rows) && u.balance == balances[u.account]
  {
    WriteBacksMembers(GroupByAccount(rows), balances, u);
  }

  lemma {:induction false} PlannedFixesAppend(gs: seq<AccountRows>, g: AccountRows, balances: map<int, real>)
    ensures PlannedFixes(gs + [g], balances) == PlannedFixes(gs, balances) + PlannedFixes([g], balances)
  {
    if |gs| > 0 {
      assert (gs + [g])[1..] == gs[1..] + [g];
      PlannedFixesAppend(gs[1..], g, balances);
    } else {
      assert gs + [g] == [g];
    }
  }

  lemma {:induction false} CheckedRowsAppend(gs: seq<AccountRows>, g: AccountRows, balances: map<int, real>)
    ensures CheckedRows(gs + [g], balances) == CheckedRows(gs, balances) + CheckedRows([g], balances)
  {
    if |gs| > 0 {
      assert (gs + [g])[1..] == gs[1..] + [g];
      CheckedRowsAppend(gs[1..], g, balances);
    } else {
      assert gs + [g] == [g];
    }
  }

  lemma {:induction false} WriteBacksAppend(gs: seq<AccountRows>, g: AccountRows, balances: map<int, real>)
    ensures WriteBacks(gs + [g], balances) == WriteBacks(gs, balances) + WriteBacks([g], balances)
  {
    if |gs| > 0 {
      assert (gs + [g])[1..] == gs[1..] + [g];
      WriteBacksAppend(gs[1..], g, balances);
    } else {
      assert gs + [g] == [g];
    }
  }

  /** The fixed count never exceeds the checked count. */
  lemma {:induction false} PlannedFixesBounded(gs: seq<AccountRows>, balances: map<int, real>)
    ensures |PlannedFixes(gs, balances)| <= CheckedRows(gs, balances)
  {
    if |gs| > 0 {
      PlannedFixesBounded(gs[1..], balances);
    }
  }

  /** The loop over `Object.entries(transactionsByAccount)`. */
  method FixGroups(gs: seq<AccountRows>, balances: map<int, real>) returns (rep: FixReport)
    ensures rep.fixes == PlannedFixes(gs, balances)
    ensures rep.totalChecked == CheckedRows(gs, balances)
    ensures rep.totalFixed == |rep.fixes|
    ensures rep.warnings == []
    ensures rep.accountUpdates == WriteBacks(gs, balances)
  {
    var fixes: seq<Fix> := [];
    var updates: seq<AccountUpdate> := [];
    var checked: nat := 0;
    var warnings: seq<int> := [];
    var k := 0;
    while k < |gs|
      invariant 0 <= k <= |gs|
      invariant fixes == PlannedFixes(gs[..k], balances)
      invariant checked == CheckedRows(gs[..k], balances)
      invariant updates == WriteBacks(gs[..k], balances)
      invariant warnings == []
    {
      var g := gs[k];
      PrefixSnoc(gs, k);
      PlannedFixesAppend(gs[..k], g, balances);
      CheckedRowsAppend(gs[..k], g, balances);
      WriteBacksAppend(gs[..k], g, balances);
      if g.account in balances {
        var balance := balances[g.account];
        var closings, fx, final := FixAccount(g.rows, balance);
        fixes := fixes + fx;
        checked := checked + |g.rows|;
        updates := updates + [AccountUpdate(g.account, final)];
        if Abs(final - balance) > Tolerance {
          warnings := warnings + [g.account];
        }
      }
      k := k + 1;
    }
    assert gs[..|gs|] == gs;
    rep := FixReport(fixes, updates, checked, |fixes|, warnings);
  }

  /** `fixTransactionBalances`. */
  method FixTransactionBalances(rows: seq<Row>, balances: map<int, real>) returns (rep: FixReport)
    ensures |rows| == 0 ==> rep == FixReport([], [], 0, 0, [])
    ensures rep.fixes == PlannedFixes(GroupByAccount(rows), balances)
    ensures rep.totalChecked == FoundRows(rows, balances)
    ensures rep.totalFixed == |rep.fixes| <= rep.totalChecked
    ensures rep.warnings == []
    ensures rep.accountUpdates == WriteBacks(GroupByAccount(rows), balances)
  {
    if |rows| == 0 {
      return FixReport([], [], 0, 0, []);
    }
    var gs := GroupByAccount(rows);
    rep := FixGroups(gs, balances);
    CheckedRowsAreFoundRows(rows, balances);
    PlannedFixesBounded(gs, balances);
  }
}

=== FILE: forecast.dfy ===
/** The forecast of `FinancialAnalyzer`: `groupByMonth` and
    `predictFutureSpending`. */
module Forecasting {
  import opened Seqs
  import opened Stats
  import opened AiTypes

  /** One `YYYY-MM` bucket. */
  datatype MonthTotals = MonthTotals(month: MonthKey, totalIncome: real, totalExpenses: real)

  /** The income a transaction contributes to month `k`. */
  function IncomePart(t: Transaction, k: MonthKey): real {
    if t.date.month == k && t.kind == Income then t.amount else 0.0
  }

  /** The expense a transaction contributes to month `k`: everything that is
      not income counts as expense. */
  function ExpensePart(t: Transaction, k: MonthKey): real {
    if t.date.month == k && t.kind != Income then t.amount else 0.0
  }

  /** Total income of the transactions dated in month `k`. */
  function IncomeIn(ts: seq<Transaction>, k: MonthKey): real {
    if |ts| == 0 then 0.0 else IncomeIn(ts[..|ts| - 1], k) + IncomePart(ts[|ts| - 1], k)
  }

  /** Total expense of the transactions dated in month `k`. */
  function ExpensesIn(ts: seq<Transaction>, k: MonthKey): real {
    if |ts| == 0 then 0.0 else ExpensesIn(ts[..|ts| - 1], k) + ExpensePart(ts[|ts| - 1], k)
  }

  /** The months some transaction is dated in. */
  function MonthsOf(ts: seq<Transaction>): set<MonthKey> {
    set i | 0 <= i < |ts| :: ts[i].date.month
  }

  function KeysOf(bs: seq<MonthTotals>): set<MonthKey> {
    set i | 0 <= i < |bs| :: bs[i].month
  }

  /** Bucket keys strictly ascending, hence unique. */
  ghost predicate Ascending(bs: seq<MonthTotals>) {
    forall i, j :: 0 <= i < j < |bs| ==> MonthBefore(bs[i].month, bs[j].month)
  }

  /** Income recorded under key `k`, or 0 without such a bucket. */
  function IncomeAt(bs: seq<MonthTotals>, k: MonthKey): real {
    if |bs| == 0 then 0.0
    else if bs[0].month == k then bs[0].totalIncome
    else IncomeAt(bs[1..], k)
  }

  function ExpensesAt(bs: seq<MonthTotals>, k: MonthKey): real {
    if |bs| == 0 then 0.0
    else if bs[0].month == k then bs[0].totalExpenses
    else ExpensesAt(bs[1..], k)
  }

  /** Income plus expenses over all buckets. */
  function Total(bs: seq<MonthTotals>): real {
    if |bs| == 0 then 0.0 else bs[0].totalIncome + bs[0].totalExpenses + Total(bs[1..])
  }

  function Fresh(t: Transaction): MonthTotals {
    MonthTotals(t.date.month, IncomePart(t, t.date.month), ExpensePart(t, t.date.month))
  }

  function Add(b: MonthTotals, t: Transaction): MonthTotals {
    MonthTotals(b.month, b.totalIncome + IncomePart(t, b.month), b.totalExpenses + ExpensePart(t, b.month))
  }

  /** One step of the `forEach`: add `t` to the bucket of its month, creating
      it in key order when it is missing. */
  function AddToBuckets(bs: seq<MonthTotals>, t: Transaction): (r: seq<MonthTotals>)
    ensures |r| == |bs| || |r| == |bs| + 1
  {
    var m := t.date.month;
    if |bs| == 0 then [Fresh(t)]
    else if bs[0].month == m then [Add(bs[0], t)] + bs[1..]
    else if MonthBefore(m, bs[0].month) then [Fresh(t)] + bs
    else [bs[0]] + AddToBuckets(bs[1..], t)
  }

  lemma {:induction false} AddToBucketsKeys(bs: seq<MonthTotals>, t: Transaction)
    ensures KeysOf(AddToBuckets(bs, t)) == KeysOf(bs) + {t.date.month}
  {
    if |bs| > 0 {
      AddToBucketsKeys(bs[1..], t);
      var r := AddToBuckets(bs, t);
      assert KeysOf(bs) == {bs[0].month} + KeysOf(bs[1..]) by {
        forall k | k in KeysOf(bs) ensures k in {bs[0].month} + KeysOf(bs[1..]) {
          var i :| 0 <= i < |bs| && bs[i].month == k;
          if i > 0 {
            assert bs[1..][i - 1].month == k;
          }
        }
        forall k | k in KeysOf(bs[1..]) ensures k in KeysOf(bs) {
          var i :| 0 <= i < |bs[1..]| && bs[1..][i].month == k;
          assert bs[i + 1].month == k;
        }
      }
      assert KeysOf(r) == {r[0].month} + KeysOf(r[1..]) by {
        forall k | k in KeysOf(r) ensures k in {r[0].month} + KeysOf(r[1..]) {
          var i :| 0 <= i < |r| && r[i].month == k;
          if i > 0 {
            assert r[1..][i - 1].month == k;
          }
        }
        forall k | k in KeysOf(r[1..]) ensures k in KeysOf(r) {
          var i :| 0 <= i < |r[1..]| && r[1..][i].month == k;
          assert r[i + 1].month == k;
        }
      }
    } else {
      assert KeysOf([Fresh(t)]) == {t.date.month} by {
        assert [Fresh(t)][0].month == t.date.month;
      }
    }
  }

  lemma {:induction false} AddToBucketsAscending(bs: seq<MonthTotals>, t: Transaction)
    requires Ascending(bs)
    ensures Ascending(AddToBuckets(bs, t))
    ensures |bs| > 0 && |AddToBuckets(bs, t)| > 0 ==>
      AddToBuckets(bs, t)[0].month == bs[0].month || AddToBuckets(bs, t)[0].month == t.date.month
  {
    var m := t.date.month;
    if |bs| > 0 && bs[0].month != m && !MonthBefore(m, bs[0].month) {
      var tail := AddToBuckets(bs[1..], t);
      AddToBucketsAscending(bs[1..], t);
      AddToBucketsKeys(bs[1..], t);
      var r := [bs[0]] + tail;
      forall j | 0 <= j < |tail| ensures MonthBefore(bs[0].month, tail[j].month) {
        assert tail[j].month in KeysOf(tail);
        if tail[j].month != m {
          var i :| 0 <= i < |bs[1..]| && bs[1..][i].month == tail[j].month;
          assert bs[i + 1].month == tail[j].month;
        }
      }
      forall i, j | 0 <= i < j < |r| ensures MonthBefore(r[i].month, r[j].month) {
        if i > 0 {
          assert r[i] == tail[i - 1] && r[j] == tail[j - 1];
        } else {
          assert r[j] == tail[j - 1];
        }
      }
    } else if |bs| > 0 && MonthBefore(m, bs[0].month) {
      var r := [Fresh(t)] + bs;
      forall i, j | 0 <= i < j < |r| ensures MonthBefore(r[i].month, r[j].month) {
        if i > 0 {
          assert r[i] == bs[i - 1] && r[j] == bs[j - 1];
        } else {
          assert r[j] == bs[j - 1];
        }
      }
    } else if |bs| > 0 {
      var r := [Add(bs[0], t)] + bs[1..];
      forall i, j | 0 <= i < j < |r| ensures MonthBefore(r[i].month, r[j].month) {
        assert r[j] == bs[j];
        if i > 0 {
          assert r[i] == bs[i];
        }
      }
    }
  }

  /** A key before the first key of an ascending list is absent from it. */
  lemma {:induction false} AbsentKey(bs: seq<MonthTotals>, k: MonthKey)
    requires Ascending(bs)
    requires |bs| == 0 || MonthBefore(k, bs[0].month)
    ensures IncomeAt(bs, k) == 0.0 && ExpensesAt(bs, k) == 0.0
  {
    if |bs| > 1 {
      assert MonthBefore(bs[0].month, bs[1].month);
      AbsentKey(bs[1..], k);
    } else if |bs| == 1 {
      AbsentKey(bs[1..], k);
    }
  }

  lemma {:induction false} AddToBucketsTotals(bs: seq<MonthTotals>, t: Transaction, k: MonthKey)
    requires Ascending(bs)
    ensures IncomeAt(AddToBuckets(bs, t), k) == IncomeAt(bs, k) + IncomePart(t, k)
    ensures ExpensesAt(AddToBuckets(bs, t), k) == ExpensesAt(bs, k) + ExpensePart(t, k)
  {
    var m := t.date.month;
    if |bs| == 0 {
    } else if bs[0].month == m {
      assert ([Add(bs[0], t)] + bs[1..])[1..] == bs[1..];
    } else if MonthBefore(m, bs[0].month) {
      assert ([Fresh(t)] + bs)[1..] == bs;
      if k == m {
        AbsentKey(bs, k);
      }
    } else {
      AddToBucketsTotals(bs[1..], t, k);
      assert ([bs[0]] + AddToBuckets(bs[1..], t))[1..] == AddToBuckets(bs[1..], t);
    }
  }

  lemma {:induction false} AddToBucketsTotal(bs: seq<MonthTotals>, t: Transaction)
    ensures Total(AddToBuckets(bs, t)) == Total(bs) + t.amount
  {
    var m := t.date.month;
    if |bs| == 0 {
    } else if bs[0].month == m {
      assert ([Add(bs[0], t)] + bs[1..])[1..] == bs[1..];
    } else if MonthBefore(m, bs[0].month) {
      assert ([Fresh(t)] + bs)[1..] == bs;
    } else {
      AddToBucketsTotal(bs[1..], t);
      assert ([bs[0]] + AddToBuckets(bs[1..], t))[1..] == AddToBuckets(bs[1..], t);
    }
  }

  /** In an ascending list, each bucket is the one the lookup finds. */
  lemma {:induction false} LookupFindsBucket(bs: seq<MonthTotals>, i: int)
    requires Ascending(bs)
    requires 0 <= i < |bs|
    ensures IncomeAt(bs, bs[i].month) == bs[i].totalIncome
    ensures ExpensesAt(bs, bs[i].month) == bs[i].totalExpenses
  {
    if i > 0 {
      assert MonthBefore(bs[0].month, bs[i].month);
      LookupFindsBucket(bs[1..], i - 1);
    }
  }

  /** `groupByMonth`: the monthly buckets, in ascending key order. */
  function GroupByMonth(ts: seq<Transaction>): (bs: seq<MonthTotals>)
    ensures Ascending(bs)
    ensures KeysOf(bs) == MonthsOf(ts)
    ensures forall k :: IncomeAt(bs, k) == IncomeIn(ts, k) && ExpensesAt(bs, k) == ExpensesIn(ts, k)
    ensures Total(bs) == Sum(Amounts(ts))
  {
    if |ts| == 0 then
      assert KeysOf([]) == {};
      []
    else
      var init := ts[..|ts| - 1];
      var t := ts[|ts| - 1];
      var prev := GroupByMonth(init);
      AddToBucketsAscending(prev, t);
      AddToBucketsKeys(prev, t);
      AddToBucketsTotal(prev, t);
      forall k ensures IncomeAt(AddToBuckets(prev, t), k) == IncomeIn(ts, k)
                    && ExpensesAt(AddToBuckets(prev, t), k) == ExpensesIn(ts, k) {
        AddToBucketsTotals(prev, t, k);
      }
      MonthsOfSnoc(ts);
      AmountsSumSnoc(ts);
      AddToBuckets(prev, t)
  }

  /** The months of a history are those of all but its last transaction
      plus the last one's. */
  lemma MonthsOfSnoc(ts: seq<Transaction>)
    requires |ts| > 0
    ensures MonthsOf(ts) == MonthsOf(ts[..|ts| - 1]) + {ts[|ts| - 1].date.month}
  {
    var init := ts[..|ts| - 1];
    forall k | k in MonthsOf(ts) ensures k in MonthsOf(init) + {ts[|ts| - 1].date.month} {
      var i :| 0 <= i < |ts| && ts[i].date.month == k;
      if i < |ts| - 1 {
        assert init[i].date.month == k;
      }
    }
    forall k | k in MonthsOf(init) ensures k in MonthsOf(ts) {
      var i :| 0 <= i < |init| && init[i].date.month == k;
      assert ts[i].date.month == k;
    }
  }

  lemma AmountsSumSnoc(ts: seq<Transaction>)
    requires |ts| > 0
    ensures Sum(Amounts(ts)) == Sum(Amounts(ts[..|ts| - 1])) + ts[|ts| - 1].amount
  {
    assert Amounts(ts) == Amounts(ts[..|ts| - 1]) + [ts[|ts| - 1].amount];
    SumAppend(Amounts(ts[..|ts| - 1]), [ts[|ts| - 1].amount]);
  }

  /** Every bucket holds exactly the income and the expenses of its month. */
  lemma BucketTotals(ts: seq<Transaction>, i: int)
    requires 0 <= i < |GroupByMonth(ts)|
    ensures GroupByMonth(ts)[i].totalIncome == IncomeIn(ts, GroupByMonth(ts)[i].month)
    ensures GroupByMonth(ts)[i].totalExpenses == ExpensesIn(ts, GroupByMonth(ts)[i].month)
  {
    LookupFindsBucket(GroupByMonth(ts), i);
  }

  /** There is one bucket per distinct month. */
  lemma BucketCount(ts: seq<Transaction>)
    ensures |GroupByMonth(ts)| == |MonthsOf(ts)|
  {
    var bs := GroupByMonth(ts);
    var keys := seq(|bs|, i requires 0 <= i < |bs| => bs[i].month);
    assert NoDup(keys) by {
      forall i, j | 0 <= i < j < |keys| ensures keys[i] != keys[j] {
        assert MonthBefore(bs[i].month, bs[j].month);
      }
    }
    NoDupCardinality(keys);
    assert (set x | x in keys) == KeysOf(bs) by {
      forall x | x in keys ensures x in KeysOf(bs) {
        var i :| 0 <= i < |keys| && keys[i] == x;
        assert bs[i].month == x;
      }
      forall x | x in KeysOf(bs) ensures x in keys {
        var i :| 0 <= i < |bs| && bs[i].month == x;
        assert keys[i] == x;
      }
    }
  }

  /** The month `i` months after `k`, as `setMonth(getMonth() + i)` followed
      by the `YYYY-MM` prefix gives it (months numbered 1 to 12). */
  function MonthAfter(k: MonthKey, i: int): (r: MonthKey)
    ensures 1 <= r.month <= 12
  {
    var idx := k.year * 12 + (k.month - 1) + i;
    MonthKey(idx / 12, idx % 12 + 1)
  }

  lemma MonthAfterAdvances(k: MonthKey, i: int)
    requires 1 <= k.month <= 12
    ensures MonthIndex(MonthAfter(k, i)) == MonthIndex(k) + i
  {
  }

  /** Growth factors and confidences of the three forecast months. */
  function IncomeGrowth(i: int): real {
    1.0 + (i as real) * 0.02
  }

  function ExpenseGrowth(i: int): real {
    1.0 + (i as real) * 0.01
  }

  function ForecastConfidence(i: int): (c: real)
    ensures c >= 0.7
  {
    var c := 1.0 - (i as real) * 0.1;
    if c < 0.7 then 0.7 else c
  }

  /** Average income and expenses of the last three buckets. */
  function AverageIncome(bs: seq<MonthTotals>): real
    requires |bs| >= 3
  {
    (bs[|bs| - 3].totalIncome + bs[|bs| - 2].totalIncome + bs[|bs| - 1].totalIncome) / 3.0
  }

  function AverageExpenses(bs: seq<MonthTotals>): real
    requires |bs| >= 3
  {
    (bs[|bs| - 3].totalExpenses + bs[|bs| - 2].totalExpenses + bs[|bs| - 1].totalExpenses) / 3.0
  }

  /** The three extrapolated months. */
  function Projection(now: MonthKey, avgIncome: real, avgExpense: real): (fs: seq<Forecast>)
    ensures |fs| == 3
    ensures forall i :: 0 <= i < 3 ==>
      fs[i].month == MonthAfter(now, i + 1) &&
      fs[i].predictedIncome == avgIncome * IncomeGrowth(i + 1) &&
      fs[i].predictedExpenses == avgExpense * ExpenseGrowth(i + 1) &&
      fs[i].confidence == ForecastConfidence(i + 1)
  {
    seq(3, i requires 0 <= i < 3 =>
      Forecast(MonthAfter(now, i + 1), avgIncome * IncomeGrowth(i + 1),
               avgExpense * ExpenseGrowth(i + 1), ForecastConfidence(i + 1)))
  }

  /** `predictFutureSpending`, with the current month passed in: nothing
      below three months of history, otherwise three months extrapolated from
      the average of the last three buckets. */
  function PredictFutureSpending(ts: seq<Transaction>, now: MonthKey): (fs: seq<Forecast>)
    ensures |fs| == 0 <==> |MonthsOf(ts)| < 3
    ensures |fs| == 0 || |fs| == 3
    ensures |fs| == 3 ==>
      |GroupByMonth(ts)| >= 3 &&
      fs == Projection(now, AverageIncome(GroupByMonth(ts)), AverageExpenses(GroupByMonth(ts)))
  {
    var bs := GroupByMonth(ts);
    BucketCount(ts);
    if |bs| < 3 then []
    else Projection(now, AverageIncome(bs), AverageExpenses(bs))
  }

  /** Forecast months follow the current month, and the confidence steps
      down 0.9, 0.8, 0.7, never below the 0.7 floor. */
  lemma ForecastShape(ts: seq<Transaction>, now: MonthKey)
    requires 1 <= now.month <= 12
    ensures forall i :: 0 <= i < |PredictFutureSpending(ts, now)| ==>
      MonthIndex(PredictFutureSpending(ts, now)[i].month) == MonthIndex(now) + i + 1
    ensures forall i, j :: 0 <= i < j < |PredictFutureSpending(ts, now)| ==>
      PredictFutureSpending(ts, now)[i].confidence > PredictFutureSpending(ts, now)[j].confidence
    ensures forall i :: 0 <= i < |PredictFutureSpending(ts, now)| ==>
      0.7 <= PredictFutureSpending(ts, now)[i].confidence <= 0.9
  {
    var fs := PredictFutureSpending(ts, now);
    forall i | 0 <= i < |fs| ensures MonthIndex(fs[i].month) == MonthIndex(now) + i + 1 {
      MonthAfterAdvances(now, i + 1);
    }
  }

  /** The forecast confidences are 0.9, 0.8 and 0.7. */
  lemma ForecastConfidences(ts: seq<Transaction>, now: MonthKey)
    requires |MonthsOf(ts)| >= 3
    ensures PredictFutureSpending(ts, now)[0].confidence == 0.9
    ensures PredictFutureSpending(ts, now)[1].confidence == 0.8
    ensures PredictFutureSpending(ts, now)[2].confidence == 0.7
  {
    BucketCount(ts);
  }

  /** With non-negative averages, predicted income and expenses never shrink
      from one forecast month to the next. */
  lemma ForecastGrows(ts: seq<Transaction>, now: MonthKey, i: int)
    requires NonNegativeAmounts(ts)
    requires |MonthsOf(ts)| >= 3
    requires 0 <= i < 2
    ensures PredictFutureSpending(ts, now)[i].predictedIncome <= PredictFutureSpending(ts, now)[i + 1].predictedIncome
    ensures PredictFutureSpending(ts, now)[i].predictedExpenses <= PredictFutureSpending(ts, now)[i + 1].predictedExpenses
  {
    BucketCount(ts);
    AveragesNonNegative(ts);
    ProjectionGrows(now, AverageIncome(GroupByMonth(ts)), AverageExpenses(GroupByMonth(ts)), i);
  }

  /** With non-negative amounts, the averages of the last three buckets are
      non-negative. */
  lemma AveragesNonNegative(ts: seq<Transaction>)
    requires NonNegativeAmounts(ts)
    requires |GroupByMonth(ts)| >= 3
    ensures AverageIncome(GroupByMonth(ts)) >= 0.0 && AverageExpenses(GroupByMonth(ts)) >= 0.0
  {
    var bs := GroupByMonth(ts);
    forall j | |bs| - 3 <= j < |bs| ensures bs[j].totalIncome >= 0.0 && bs[j].totalExpenses >= 0.0 {
      BucketTotals(ts, j);
      PartsNonNegative(ts, bs[j].month);
    }
  }

  /** With non-negative averages, each projected month predicts at least as
      much as the one before. */
  lemma ProjectionGrows(now: MonthKey, avgIncome: real, avgExpense: real, i: int)
    requires avgIncome >= 0.0 && avgExpense >= 0.0
    requires 0 <= i < 2
    ensures Projection(now, avgIncome, avgExpense)[i].predictedIncome
         <= Projection(now, avgIncome, avgExpense)[i + 1].predictedIncome
    ensures Projection(now, avgIncome, avgExpense)[i].predictedExpenses
         <= Projection(now, avgIncome, avgExpense)[i + 1].predictedExpenses
  {
    var fs := Projection(now, avgIncome, avgExpense);
    assert fs[i + 1].predictedIncome - fs[i].predictedIncome == avgIncome * 0.02;
    assert fs[i + 1].predictedExpenses - fs[i].predictedExpenses == avgExpense * 0.01;
  }

  lemma {:induction false} PartsNonNegative(ts: seq<Transaction>, k: MonthKey)
    requires NonNegativeAmounts(ts)
    ensures IncomeIn(ts, k) >= 0.0 && ExpensesIn(ts, k) >= 0.0
  {
    if |ts| > 0 {
      PartsNonNegative(ts[..|ts| - 1], k);
    }
  }
}

=== FILE: ledger.dfy ===
/** The transaction rows the maintenance scripts read back from the
    database, in query order, and the running-balance arithmetic they share:
    an income row adds its amount and every other type subtracts it. */
module Ledger {
  import opened Wrappers
  import opened Seqs

  /** The `type` column. */
  datatype RowType = IncomeRow | ExpenseRow | TransferRow

  /** One row of `transactions`; `closing` is `None` when the column is
      NULL. */
  datatype Row = Row(id: int, account: int, amount: real, kind: RowType, closing: Option<real>)

  /** The largest difference between two balances the scripts accept as
      equal. */
  const Tolerance: real := 0.01

  function Abs(x: real): (y: real)
    ensures y >= 0.0
    ensures y == x || y == -x
  {
    if x < 0.0 then -x else x
  }

  /** A `number` that `parseFloat` may have made NaN is an `Option<real>`,
      `None` standing for NaN: NaN propagates through arithmetic and every
      comparison with it is false. `Plus` is `x + d` on such a number. */
  function Plus(x: Option<real>, d: real): (y: Option<real>)
    ensures y.Some? <==> x.Some?
    ensures y.Some? ==> y.value == x.value + d
  {
    if x.None? then None else Some(x.value + d)
  }

  /** `a - b` on numbers that may be NaN. */
  function Minus(a: Option<real>, b: Option<real>): (y: Option<real>)
    ensures y.Some? <==> a.Some? && b.Some?
    ensures y.Some? ==> y.value == a.value - b.value
  {
    if a.None? || b.None? then None else Some(a.value - b.value)
  }

  /** The change a row makes to its account's balance. */
  function Signed(r: Row): real {
    if r.kind == IncomeRow then r.amount else -r.amount
  }

  /** The balance after `r`, from the balance before it. */
  function Apply(balance: real, r: Row): (b: real)
    ensures r.kind == IncomeRow ==> b == balance + r.amount
    ensures r.kind != IncomeRow ==> b == balance - r.amount
  {
    balance + Signed(r)
  }

  /** The net change a run of rows makes. */
  function SumSigned(rs: seq<Row>): real {
    if |rs| == 0 then 0.0 else Signed(rs[0]) + SumSigned(rs[1..])
  }

  lemma {:induction false} SumSignedAppend(a: seq<Row>, b: seq<Row>)
    ensures SumSigned(a + b) == SumSigned(a) + SumSigned(b)
  {
    if |a| > 0 {
      assert (a + b)[1..] == a[1..] + b;
      SumSignedAppend(a[1..], b);
    } else {
      assert a + b == b;
    }
  }

  /** Splitting a run at `k`. */
  lemma SumSignedSplit(rs: seq<Row>, k: int)
    requires 0 <= k <= |rs|
    ensures SumSigned(rs) == SumSigned(rs[..k]) + SumSigned(rs[k..])
  {
    assert rs == rs[..k] + rs[k..];
    SumSignedAppend(rs[..k], rs[k..]);
  }

  /** The running balance after every row, starting from `opening`: the
      left fold every script performs. */
  function Fold(opening: real, rs: seq<Row>): real
    decreases |rs|
  {
    if |rs| == 0 then opening else Fold(Apply(opening, rs[0]), rs[1..])
  }

  lemma {:induction false} FoldIsNetChange(opening: real, rs: seq<Row>)
    ensures Fold(opening, rs) == opening + SumSigned(rs)
    decreases |rs|
  {
    if |rs| > 0 {
      FoldIsNetChange(Apply(opening, rs[0]), rs[1..]);
    }
  }

  /** The rows of one account, in query order. */
  datatype AccountRows = AccountRows(account: int, rows: seq<Row>)

  function AccountIds(rows: seq<Row>): (ids: seq<int>)
    ensures |ids| == |rows|
    ensures forall i :: 0 <= i < |rows| ==> ids[i] == rows[i].account
  {
    seq(|rows|, i requires 0 <= i < |rows| => rows[i].account)
  }

  function GroupAccounts(gs: seq<AccountRows>): (ids: seq<int>)
    ensures |ids| == |gs|
    ensures forall i :: 0 <= i < |gs| ==> ids[i] == gs[i].account
  {
    seq(|gs|, i requires 0 <= i < |gs| => gs[i].account)
  }

  /** The rows of account `a`, in query order. */
  function OfAccount(rows: seq<Row>, a: int): seq<Row> {
    if |rows| == 0 then []
    else OfAccount(rows[..|rows| - 1], a) + (if rows[|rows| - 1].account == a then [rows[|rows| - 1]] else [])
  }

  /** The rows of the first group of account `a`, or none. */
  function RowsAt(gs: seq<AccountRows>, a: int): seq<Row> {
    if |gs| == 0 then []
    else if gs[0].account == a then gs[0].rows
    else RowsAt(gs[1..], a)
  }

  /** How many rows the groups hold. */
  function RowCount(gs: seq<AccountRows>): nat {
    if |gs| == 0 then 0 else |gs[0].rows| + RowCount(gs[1..])
  }

  /** One step of the `forEach`: push `r` onto its account's group, opening
      a new group at the end for an account not seen before. */
  function AddRow(gs: seq<AccountRows>, r: Row): (r': seq<AccountRows>)
    ensures |r'| == |gs| || |r'| == |gs| + 1
  {
    if |gs| == 0 then [AccountRows(r.account, [r])]
    else if gs[0].account == r.account then [AccountRows(gs[0].account, gs[0].rows + [r])] + gs[1..]
    else [gs[0]] + AddRow(gs[1..], r)
  }

  lemma GroupAccountsCons(g: AccountRows, gs: seq<AccountRows>)
    ensures GroupAccounts([g] + gs) == [g.account] + GroupAccounts(gs)
  {
    var a := GroupAccounts([g] + gs);
    var b := [g.account] + GroupAccounts(gs);
    assert |a| == |b|;
    forall i | 0 <= i < |a| ensures a[i] == b[i] {
      if i > 0 {
        assert ([g] + gs)[i] == gs[i - 1];
      }
    }
  }

  lemma {:induction false} AddRowAccounts(gs: seq<AccountRows>, r: Row)
    ensures GroupAccounts(AddRow(gs, r)) ==
      if r.account in GroupAccounts(gs) then GroupAccounts(gs) else GroupAccounts(gs) + [r.account]
  {
    if |gs| == 0 {
      assert GroupAccounts([AccountRows(r.account, [r])]) == [r.account];
    } else if gs[0].account == r.account {
      var r' := AddRow(gs, r);
      assert GroupAccounts(gs)[0] == r.account;
      assert GroupAccounts(r') == GroupAccounts(gs) by {
        forall i | 0 <= i < |gs| ensures GroupAccounts(r')[i] == GroupAccounts(gs)[i] {
          if i > 0 {
            assert r'[i] == gs[1..][i - 1] == gs[i];
          }
        }
      }
    } else {
      var tail := AddRow(gs[1..], r);
      AddRowAccounts(gs[1..], r);
      GroupAccountsCons(gs[0], tail);
      GroupAccountsCons(gs[0], gs[1..]);
      assert [gs[0]] + gs[1..] == gs;
      assert r.account in GroupAccounts(gs) <==> r.account in GroupAccounts(gs[1..]);
    }
  }

  lemma {:induction false} AddRowLookup(gs: seq<AccountRows>, r: Row, a: int)
    ensures RowsAt(AddRow(gs, r), a) == RowsAt(gs, a) + (if r.account == a then [r] else [])
  {
    if |gs| > 0 && gs[0].account != r.account {
      AddRowLookup(gs[1..], r, a);
      assert ([gs[0]] + AddRow(gs[1..], r))[1..] == AddRow(gs[1..], r);
    } else if |gs| > 0 {
      assert ([AccountRows(gs[0].account, gs[0].rows + [r])] + gs[1..])[1..] == gs[1..];
    }
  }

  lemma {:induction false} AddRowCount(gs: seq<AccountRows>, r: Row)
    ensures RowCount(AddRow(gs, r)) == RowCount(gs) + 1
  {
    if |gs| > 0 && gs[0].account != r.account {
      AddRowCount(gs[1..], r);
      assert ([gs[0]] + AddRow(gs[1..], r))[1..] == AddRow(gs[1..], r);
    } else if |gs| > 0 {
      assert ([AccountRows(gs[0].account, gs[0].rows + [r])] + gs[1..])[1..] == gs[1..];
    }
  }

  lemma {:induction false} AddRowNonEmpty(gs: seq<AccountRows>, r: Row)
    requires forall i :: 0 <= i < |gs| ==> |gs[i].rows| > 0
    ensures forall i :: 0 <= i < |AddRow(gs, r)| ==> |AddRow(gs, r)[i].rows| > 0
  {
    if |gs| > 0 && gs[0].account != r.account {
      AddRowNonEmpty(gs[1..], r);
      var r' := AddRow(gs, r);
      forall i | 0 <= i < |r'| ensures |r'[i].rows| > 0 {
        if i > 0 {
          assert r'[i] == AddRow(gs[1..], r)[i - 1];
        }
      }
    } else if |gs| > 0 {
      var r' := AddRow(gs, r);
      forall i | 0 <= i < |r'| ensures |r'[i].rows| > 0 {
        if i > 0 {
          assert r'[i] == gs[i];
        }
      }
    }
  }

  /** The `transactionsByAccount` object, as the pairs `Object.entries`
      yields: one group per account in the order the accounts first appear
      (the query sorts by account, so this is also ascending id order). */
  function GroupByAccount(rows: seq<Row>): (gs: seq<AccountRows>)
    ensures GroupAccounts(gs) == Distinct(AccountIds(rows))
    ensures forall a :: RowsAt(gs, a) == OfAccount(rows, a)
    ensures RowCount(gs) == |rows|
    ensures forall i :: 0 <= i < |gs| ==> |gs[i].rows| > 0
  {
    if |rows| == 0 then []
    else
      var init := rows[..|rows| - 1];
      var r := rows[|rows| - 1];
      var prev := GroupByAccount(init);
      AddRowAccounts(prev, r);
      AddRowCount(prev, r);
      AddRowNonEmpty(prev, r);
      forall a ensures RowsAt(AddRow(prev, r), a) == OfAccount(rows, a) {
        AddRowLookup(prev, r, a);
      }
      assert AccountIds(rows)[..|rows| - 1] == AccountIds(init);
      AddRow(prev, r)
  }

  /** With distinct accounts, every group holds what the lookup finds. */
  lemma {:induction false} LookupFindsGroup(gs: seq<AccountRows>, i: int)
    requires NoDup(GroupAccounts(gs))
    requires 0 <= i < |gs|
    ensures RowsAt(gs, gs[i].account) == gs[i].rows
  {
    if i > 0 {
      assert GroupAccounts(gs)[0] != GroupAccounts(gs)[i];
      assert GroupAccounts(gs[1..]) == GroupAccounts(gs)[1..];
      LookupFindsGroup(gs[1..], i - 1);
    }
  }

  /** The grouping is a partition: accounts are distinct, each group is
      exactly its account's rows in query order, and together the groups
      hold every row once. */
  lemma GroupingPartitions(rows: seq<Row>)
    ensures NoDup(GroupAccounts(GroupByAccount(rows)))
    ensures forall i :: 0 <= i < |GroupByAccount(rows)| ==>
      GroupByAccount(rows)[i].rows == OfAccount(rows, GroupByAccount(rows)[i].account)
    ensures forall i :: 0 <= i < |rows| ==> rows[i].account in GroupAccounts(GroupByAccount(rows))
    ensures RowCount(GroupByAccount(rows)) == |rows|
  {
    var gs := GroupByAccount(rows);
    forall i | 0 <= i < |gs| ensures gs[i].rows == OfAccount(rows, gs[i].account) {
      LookupFindsGroup(gs, i);
    }
    forall i | 0 <= i < |rows| ensures rows[i].account in GroupAccounts(gs) {
      assert AccountIds(rows)[i] == rows[i].account;
    }
  }

  /** `Object.entries` walks integer keys in ascending order. The rows
      arrive sorted by account (`ORDER BY t.bank_account_id`), so the
      first-appearance order of the groups is that ascending order. */
  lemma GroupsAscend(rows: seq<Row>)
    requires forall i, j :: 0 <= i < j < |rows| ==> rows[i].account <= rows[j].account
    ensures forall i, j :: 0 <= i < j < |GroupByAccount(rows)| ==>
      GroupByAccount(rows)[i].account < GroupByAccount(rows)[j].account
  {
    var ids := AccountIds(rows);
    DistinctAscends(ids);
    var gs := GroupByAccount(rows);
    forall i, j | 0 <= i < j < |gs| ensures gs[i].account < gs[j].account {
      assert GroupAccounts(gs)[i] == gs[i].account;
      assert GroupAccounts(gs)[j] == gs[j].account;
    }
  }

  /** Out of account order the two differ: rows of account 2 before a row
      of account 1 give the groups 2, 1, where `Object.entries` would walk
      1, 2. */
  lemma UnsortedGroupsKeepArrivalOrder(a: Row, b: Row)
    requires a.account == 2 && b.account == 1
    ensures GroupAccounts(GroupByAccount([a, b])) == [2, 1]
  {
  }
}

=== FILE: patterns.dfy ===
/** Pattern analysis of `FinancialAnalyzer`: `analyzeSpendingPatterns` with
    its helpers `calculateFrequency` and `analyzeTrend`. */
module Patterns {
  import opened Wrappers
  import opened Seqs
  import opened Stats
  import opened AiTypes

  /** Transactions dated on or after the cutoff day (the window start is
      inclusive). */
  function Recent(ts: seq<Transaction>, cutoff: int): seq<Transaction> {
    Filter(ts, (t: Transaction) => t.date.day >= cutoff)
  }

  /** The expenses of one category, in input order. */
  function CategoryExpenses(ts: seq<Transaction>, c: string): seq<Transaction> {
    Filter(ts, (t: Transaction) => t.category == c && t.kind == Expense)
  }

  /** `Math.min(1, n / 10)`. */
  function Confidence(n: nat): (c: real)
    ensures n > 0 ==> 0.0 < c <= 1.0
    ensures c == 1.0 <==> n >= 10
  {
    if (n as real) / 10.0 < 1.0 then (n as real) / 10.0 else 1.0
  }

  /** Calendar months between the earliest and the latest transaction:
      `(last.year - first.year) * 12 + (last.month - first.month)`. */
  function MonthSpan(ts: seq<Transaction>): int
    requires |ts| > 0
  {
    MonthIndex(ts[LatestIndex(ts)].date.month) - MonthIndex(ts[EarliestIndex(ts)].date.month)
  }

  /** `calculateFrequency`: transactions per month, where a span of zero or
      one month counts as one month. */
  function CalculateFrequency(ts: seq<Transaction>): (f: real)
    requires |ts| > 0
    ensures 0.0 < f <= |ts| as real
    ensures f == |ts| as real <==> MonthSpan(ts) <= 1
  {
    var span := MonthSpan(ts);
    if span <= 1 then |ts| as real
    else
      assert (|ts| as real) / (span as real) < |ts| as real;
      (|ts| as real) / (span as real)
  }

  /** The sort key of `analyzeTrend`: chronological order. */
  function ByDate(t: Transaction): real {
    t.date.day as real
  }

  /** The classification of `analyzeTrend` given the two half means, with
      `change = (second - first) / first * 100`. A zero first-half mean
      divides by zero: a positive second mean gives +Infinity (increasing),
      a negative one -Infinity (decreasing), and zero gives NaN, which passes
      neither comparison (stable). */
  function ClassifyChange(first: real, second: real): Trend {
    if first == 0.0 then
      if second > 0.0 then Increasing
      else if second < 0.0 then Decreasing
      else Stable
    else
      var change := (second - first) / first * 100.0;
      if change > 10.0 then Increasing
      else if change < -10.0 then Decreasing
      else Stable
  }

  lemma ScaleMonotone(a: real, b: real, f: real)
    requires f > 0.0
    ensures a < b <==> a * f < b * f
  {
    if a < b {
      ProductPositive(b - a, f);
    } else {
      ProductNonNegative(a - b, f);
    }
  }

  /** For a positive first-half mean the classification is a 10% band
      around it. */
  lemma ClassifyChangeBand(first: real, second: real)
    requires first > 0.0
    ensures ClassifyChange(first, second) == Increasing <==> second > 1.1 * first
    ensures ClassifyChange(first, second) == Decreasing <==> second < 0.9 * first
    ensures ClassifyChange(first, second) == Stable <==> 0.9 * first <= second <= 1.1 * first
  {
    var change := (second - first) / first * 100.0;
    assert change * first == (second - first) * 100.0;
    ScaleMonotone(10.0, change, first);
    ScaleMonotone(change, -10.0, first);
  }

  /** For a negative first-half mean the band is mirrored: dividing by a
      negative mean turns a rise into a negative change. */
  lemma ClassifyChangeNegativeBand(first: real, second: real)
    requires first < 0.0
    ensures ClassifyChange(first, second) == Increasing <==> second < 1.1 * first
    ensures ClassifyChange(first, second) == Decreasing <==> second > 0.9 * first
  {
    var change := (second - first) / first * 100.0;
    var g := -first;
    assert change * g == (first - second) * 100.0;
    assert change > 10.0 <==> second < 1.1 * first by {
      ScaleMonotone(10.0, change, g);
      assert 10.0 * g == -10.0 * first;
      assert 10.0 < change <==> -10.0 * first < (first - second) * 100.0;
      assert 10.0 < change <==> 100.0 * second < 110.0 * first;
    }
    assert change < -10.0 <==> second > 0.9 * first by {
      ScaleMonotone(change, -10.0, g);
      assert change < -10.0 <==> change * g < -10.0 * g;
      assert -10.0 * g == 10.0 * first;
      assert change < -10.0 <==> (first - second) * 100.0 < 10.0 * first;
      assert change < -10.0 <==> 90.0 * first < 100.0 * second;
    }
  }

  /** Halves of `sorted` split at `floor(n / 2)`. */
  function HalfMeans(sorted: seq<Transaction>): (means: (real, real))
    requires |sorted| >= 2
  {
    var half := |sorted| / 2;
    (Mean(Amounts(sorted[..half])), Mean(Amounts(sorted[half..])))
  }

  /** `analyzeTrend`: fewer than six transactions are stable; otherwise the
      chronologically sorted list is split in halves and the half means are
      compared. */
  function AnalyzeTrend(ts: seq<Transaction>): (tr: Trend)
    ensures |ts| < 6 ==> tr == Stable
  {
    if |ts| < 6 then Stable
    else
      var means := HalfMeans(SortBy(ts, ByDate));
      ClassifyChange(means.0, means.1)
  }

  /** `analyzeTrend` on six or more transactions: the date-sorted list is
      split after its first `floor(n / 2)` entries, and the second half's
      mean is set against the first's in a 10% band; a first-half mean of
      zero leaves only the sign of the second. */
  lemma AnalyzeTrendHalves(ts: seq<Transaction>)
    requires |ts| >= 6
    ensures var sorted := SortBy(ts, ByDate);
      var first := Mean(Amounts(sorted[..|ts| / 2]));
      var second := Mean(Amounts(sorted[|ts| / 2..]));
      && (first > 0.0 ==>
          && (AnalyzeTrend(ts) == Increasing <==> second > 1.1 * first)
          && (AnalyzeTrend(ts) == Decreasing <==> second < 0.9 * first))
      && (first < 0.0 ==>
          && (AnalyzeTrend(ts) == Increasing <==> second < 1.1 * first)
          && (AnalyzeTrend(ts) == Decreasing <==> second > 0.9 * first))
      && (first == 0.0 ==>
          && (AnalyzeTrend(ts) == Increasing <==> second > 0.0)
          && (AnalyzeTrend(ts) == Decreasing <==> second < 0.0)
          && (AnalyzeTrend(ts) == Stable <==> second == 0.0))
  {
    var means := HalfMeans(SortBy(ts, ByDate));
    assert AnalyzeTrend(ts) == ClassifyChange(means.0, means.1);
    if means.0 > 0.0 {
      ClassifyChangeBand(means.0, means.1);
    } else if means.0 < 0.0 {
      ClassifyChangeNegativeBand(means.0, means.1);
    }
  }

  lemma {:induction false} ConstantSlice(ts: seq<Transaction>, c: real)
    requires forall i :: 0 <= i < |ts| ==> ts[i].amount == c
    ensures forall i :: 0 <= i < |Amounts(ts)| ==> Amounts(ts)[i] == c
  {
  }

  /** A category whose amounts are all equal has no trend. */
  lemma ConstantAmountsAreStable(ts: seq<Transaction>, c: real)
    requires forall i :: 0 <= i < |ts| ==> ts[i].amount == c
    ensures AnalyzeTrend(ts) == Stable
  {
    if |ts| >= 6 {
      var sorted := SortBy(ts, ByDate);
      SortedStaysConstant(ts, sorted, c);
      ConstantHalves(sorted, c);
      assert ClassifyChange(c, c) == Stable;
    }
  }

  lemma SortedStaysConstant(ts: seq<Transaction>, sorted: seq<Transaction>, c: real)
    requires multiset(sorted) == multiset(ts)
    requires forall i :: 0 <= i < |ts| ==> ts[i].amount == c
    ensures forall i :: 0 <= i < |sorted| ==> sorted[i].amount == c
  {
    forall i | 0 <= i < |sorted| ensures sorted[i].amount == c {
      assert sorted[i] in multiset(sorted);
      assert sorted[i] in multiset(ts);
      var k := PositionOf(ts, sorted[i]);
    }
  }

  lemma ConstantHalves(sorted: seq<Transaction>, c: real)
    requires |sorted| >= 2
    requires forall i :: 0 <= i < |sorted| ==> sorted[i].amount == c
    ensures HalfMeans(sorted) == (c, c)
  {
    var half := |sorted| / 2;
    ConstantSlice(sorted[..half], c);
    ConstantSlice(sorted[half..], c);
    ConstantStatistics(Amounts(sorted[..half]), c);
    ConstantStatistics(Amounts(sorted[half..]), c);
  }

  /** The fields `analyzeSpendingPatterns` computes for a category whose
      expenses in the window are `ct`. */
  ghost predicate DescribesCategory(p: SpendingPattern, ct: seq<Transaction>) {
    && |ct| >= 3
    && p.averageAmount == Mean(Amounts(ct))
    && p.frequency == CalculateFrequency(ct)
    && p.trend == AnalyzeTrend(ct)
    && p.confidence == Confidence(|ct|)
    && p.categoryName == p.category
  }

  function MakePattern(c: string, ct: seq<Transaction>): (p: SpendingPattern)
    requires |ct| >= 3
    ensures p.category == c
    ensures DescribesCategory(p, ct)
  {
    SpendingPattern(c, Mean(Amounts(ct)), CalculateFrequency(ct), AnalyzeTrend(ct), Confidence(|ct|), c)
  }

  /** The loop over the window's categories: one pattern per category with
      at least three expenses, in category order. */
  function PatternsOver(recent: seq<Transaction>, cats: seq<string>): (ps: seq<SpendingPattern>)
    ensures |ps| <= |cats|
    ensures forall i :: 0 <= i < |ps| ==> ps[i].category in cats
  {
    if |cats| == 0 then []
    else
      var ct := CategoryExpenses(recent, cats[0]);
      var rest := PatternsOver(recent, cats[1..]);
      if |ct| < 3 then rest
      else [MakePattern(cats[0], ct)] + rest
  }

  lemma {:induction false} PatternsOverSound(recent: seq<Transaction>, cats: seq<string>)
    ensures forall i :: 0 <= i < |PatternsOver(recent, cats)| ==>
      DescribesCategory(PatternsOver(recent, cats)[i], CategoryExpenses(recent, PatternsOver(recent, cats)[i].category))
  {
    if |cats| > 0 {
      PatternsOverSound(recent, cats[1..]);
      var ps := PatternsOver(recent, cats);
      var rest := PatternsOver(recent, cats[1..]);
      if |CategoryExpenses(recent, cats[0])| >= 3 {
        assert forall i :: 0 < i < |ps| ==> ps[i] == rest[i - 1];
      }
    }
  }

  lemma {:induction false} PatternsOverComplete(recent: seq<Transaction>, cats: seq<string>, c: string)
    requires c in cats
    requires |CategoryExpenses(recent, c)| >= 3
    ensures HasPatternFor(PatternsOver(recent, cats), c)
  {
    var ps := PatternsOver(recent, cats);
    var ct := CategoryExpenses(recent, cats[0]);
    var rest := PatternsOver(recent, cats[1..]);
    if c == cats[0] {
      assert ps == [MakePattern(cats[0], ct)] + rest;
      assert ps[0].category == c;
    } else {
      assert cats == [cats[0]] + cats[1..];
      assert c in cats[1..];
      PatternsOverComplete(recent, cats[1..], c);
      var k :| 0 <= k < |rest| && rest[k].category == c;
      if |ct| >= 3 {
        assert ps[k + 1] == rest[k];
      }
    }
  }

  lemma {:induction false} PatternsOverUnique(recent: seq<Transaction>, cats: seq<string>)
    requires NoDup(cats)
    ensures forall i, j :: 0 <= i < j < |PatternsOver(recent, cats)| ==>
      PatternsOver(recent, cats)[i].category != PatternsOver(recent, cats)[j].category
  {
    if |cats| > 0 {
      var ps := PatternsOver(recent, cats);
      var rest := PatternsOver(recent, cats[1..]);
      NoDupTail(cats);
      PatternsOverUnique(recent, cats[1..]);
      if |CategoryExpenses(recent, cats[0])| >= 3 {
        var p := MakePattern(cats[0], CategoryExpenses(recent, cats[0]));
        assert ps == [p] + rest;
        ConsUnique(p, rest, cats);
      }
    }
  }

  lemma ConsUnique(p: SpendingPattern, rest: seq<SpendingPattern>, cats: seq<string>)
    requires |cats| > 0 && p.category == cats[0] && cats[0] !in cats[1..]
    requires forall i :: 0 <= i < |rest| ==> rest[i].category in cats[1..]
    requires forall i, j :: 0 <= i < j < |rest| ==> rest[i].category != rest[j].category
    ensures forall i, j :: 0 <= i < j < |[p] + rest| ==> ([p] + rest)[i].category != ([p] + rest)[j].category
  {
    var ps := [p] + rest;
    forall i, j | 0 <= i < j < |ps| ensures ps[i].category != ps[j].category {
      assert ps[j] == rest[j - 1];
      if i > 0 {
        assert ps[i] == rest[i - 1];
      }
    }
  }

  /** Whether a category has enough expenses in the window for a pattern. */
  function QualifyingIn(recent: seq<Transaction>): string -> bool {
    (c: string) => |CategoryExpenses(recent, c)| >= 3
  }

  /** The categories of a run of patterns, in order. */
  function PatternCategories(ps: seq<SpendingPattern>): (cs: seq<string>)
    ensures |cs| == |ps|
  {
    if |ps| == 0 then [] else [ps[0].category] + PatternCategories(ps[1..])
  }

  /** The patterns follow the order of the categories they are drawn from. */
  lemma {:induction false} PatternsOverOrder(recent: seq<Transaction>, cats: seq<string>)
    ensures PatternCategories(PatternsOver(recent, cats)) == Filter(cats, QualifyingIn(recent))
  {
    if |cats| > 0 {
      PatternsOverOrder(recent, cats[1..]);
      var ct := CategoryExpenses(recent, cats[0]);
      if |ct| >= 3 {
        var ps := PatternsOver(recent, cats);
        assert ps[1..] == PatternsOver(recent, cats[1..]);
      }
    }
  }

  /** Some pattern names category `c`. */
  ghost predicate HasPatternFor(ps: seq<SpendingPattern>, c: string) {
    exists i :: 0 <= i < |ps| && ps[i].category == c
  }

  /** `analyzeSpendingPatterns`, with the six-month cutoff passed in as a
      day number. */
  function AnalyzeSpendingPatterns(ts: seq<Transaction>, sixMonthCutoff: int): (ps: seq<SpendingPattern>)
    ensures forall c :: HasPatternFor(ps, c) <==> |CategoryExpenses(Recent(ts, sixMonthCutoff), c)| >= 3
    ensures forall i :: 0 <= i < |ps| ==>
      DescribesCategory(ps[i], CategoryExpenses(Recent(ts, sixMonthCutoff), ps[i].category))
    ensures forall i :: 0 <= i < |ps| ==> 0.0 < ps[i].confidence <= 1.0
    ensures forall i, j :: 0 <= i < j < |ps| ==> ps[i].category != ps[j].category
  {
    var recent := Recent(ts, sixMonthCutoff);
    var cats := CategoriesOf(recent);
    var ps := PatternsOver(recent, cats);
    forall c | |CategoryExpenses(recent, c)| >= 3 ensures HasPatternFor(ps, c) {
      var ct := CategoryExpenses(recent, c);
      FilterMembers(recent, (t: Transaction) => t.category == c && t.kind == Expense);
      assert ct[0] in recent;
      var k :| 0 <= k < |recent| && recent[k] == ct[0];
      assert recent[k].category in cats;
      PatternsOverComplete(recent, cats, c);
    }
    PatternsOverUnique(recent, cats);
    PatternsOverSound(recent, cats);
    ps
  }

  /** `Array.from(patterns.values())` lists the patterns in the order their
      categories first appear among the window's transactions, skipping the
      categories with fewer than three expenses. */
  lemma PatternOrder(ts: seq<Transaction>, sixMonthCutoff: int)
    ensures PatternCategories(AnalyzeSpendingPatterns(ts, sixMonthCutoff))
         == Filter(CategoriesOf(Recent(ts, sixMonthCutoff)), QualifyingIn(Recent(ts, sixMonthCutoff)))
  {
    PatternsOverOrder(Recent(ts, sixMonthCutoff), CategoriesOf(Recent(ts, sixMonthCutoff)));
  }

  /** Every transaction a pattern describes is a recent expense of its
      category. */
  lemma PatternMembersQualify(ts: seq<Transaction>, cutoff: int, c: string, t: Transaction)
    requires t in CategoryExpenses(Recent(ts, cutoff), c)
    ensures t in ts && t.kind == Expense && t.category == c && t.date.day >= cutoff
  {
    FilterMembers(Recent(ts, cutoff), (t: Transaction) => t.category == c && t.kind == Expense);
    FilterMembers(ts, (t: Transaction) => t.date.day >= cutoff);
  }
}

=== FILE: recommendations.dfy ===
/** Recommendation assembly of `FinancialAnalyzer`:
    `generateRecommendations`. Three independent rules are concatenated and
    the result is stably sorted by descending confidence. */
module Recommendations {
  import opened Wrappers
  import opened Seqs
  import opened AiTypes
  import opened Recurring

  /** Rule 1 applies to a pattern that is both expensive and frequent. */
  predicate HighSpending(p: SpendingPattern) {
    p.averageAmount > 5000.0 && p.frequency > 4.0
  }

  /** A 15% cut of the average amount, at the pattern's confidence. */
  function SavingFor(p: SpendingPattern): Recommendation {
    Recommendation(SavingOpportunity, p.confidence, Some(p.averageAmount * 0.15), Some(p.category))
  }

  function SubscriptionFor(c: RecurringPayment): Recommendation {
    Recommendation(SubscriptionFinder, 0.8, None, None)
  }

  function AlertFor(t: Transaction): Recommendation {
    Recommendation(SpendingAlert, 0.9, None, Some(t.category))
  }

  function SavingOpportunities(ps: seq<SpendingPattern>): (rs: seq<Recommendation>)
    ensures |rs| == |Filter(ps, HighSpending)|
  {
    var high := Filter(ps, HighSpending);
    seq(|high|, i requires 0 <= i < |high| => SavingFor(high[i]))
  }

  function Subscriptions(cs: seq<RecurringPayment>): (rs: seq<Recommendation>)
    ensures |rs| == |cs|
  {
    seq(|cs|, i requires 0 <= i < |cs| => SubscriptionFor(cs[i]))
  }

  function Alerts(anomalies: seq<Transaction>): (rs: seq<Recommendation>)
    ensures |rs| == |anomalies|
  {
    seq(|anomalies|, i requires 0 <= i < |anomalies| => AlertFor(anomalies[i]))
  }

  /** The recommendations in generation order, before sorting. */
  function Generated(ps: seq<SpendingPattern>, ts: seq<Transaction>, anomalies: seq<Transaction>): seq<Recommendation> {
    SavingOpportunities(ps) + Subscriptions(FindRecurringPayments(ts)) + Alerts(anomalies)
  }

  /** The sort key: ascending `Rank` is descending confidence, matching the
      comparator `(a, b) => b.confidence - a.confidence`. */
  function Rank(r: Recommendation): real {
    -r.confidence
  }

  /** `generateRecommendations` over the patterns, the whole transaction set
      (for the recurring-payment rule) and the anomalies. */
  function GenerateRecommendations(ps: seq<SpendingPattern>, ts: seq<Transaction>, anomalies: seq<Transaction>): (rs: seq<Recommendation>)
    ensures |rs| == |Filter(ps, HighSpending)| + |FindRecurringPayments(ts)| + |anomalies|
    ensures multiset(rs) == multiset(Generated(ps, ts, anomalies))
    ensures forall i, j :: 0 <= i < j < |rs| ==> rs[i].confidence >= rs[j].confidence
  {
    var rs := SortBy(Generated(ps, ts, anomalies), Rank);
    assert forall i, j :: 0 <= i < j < |rs| ==> Rank(rs[i]) <= Rank(rs[j]);
    rs
  }

  /** Ties keep their generation order: for every confidence value, the
      recommendations carrying it appear in the order they were generated. */
  lemma TiesKeepGenerationOrder(ps: seq<SpendingPattern>, ts: seq<Transaction>, anomalies: seq<Transaction>, c: real)
    ensures WithKey(GenerateRecommendations(ps, ts, anomalies), Rank, -c)
         == WithKey(Generated(ps, ts, anomalies), Rank, -c)
  {
    RankedStable(Generated(ps, ts, anomalies), c);
  }

  lemma RankedStable(g: seq<Recommendation>, c: real)
    ensures WithKey(SortBy(g, Rank), Rank, -c) == WithKey(g, Rank, -c)
  {
    SortByStable(g, Rank, -c);
  }

  /** Where each recommendation comes from. */
  ghost predicate FromRule(r: Recommendation, ps: seq<SpendingPattern>, anomalies: seq<Transaction>) {
    || (exists p :: p in ps && HighSpending(p) && r == SavingFor(p))
    || r == Recommendation(SubscriptionFinder, 0.8, None, None)
    || (exists t :: t in anomalies && r == AlertFor(t))
  }

  lemma GeneratedFromRules(ps: seq<SpendingPattern>, ts: seq<Transaction>, anomalies: seq<Transaction>, r: Recommendation)
    requires r in Generated(ps, ts, anomalies)
    ensures FromRule(r, ps, anomalies)
  {
    var s := SavingOpportunities(ps);
    var high := Filter(ps, HighSpending);
    FilterMembers(ps, HighSpending);
    if r in s {
      var i :| 0 <= i < |s| && s[i] == r;
      assert high[i] in high;
    } else if r in Alerts(anomalies) {
      var i :| 0 <= i < |anomalies| && Alerts(anomalies)[i] == r;
      assert anomalies[i] in anomalies;
    }
  }

  /** Every output recommendation is produced by one of the three rules,
      with that rule's confidence. */
  lemma OutputFromRules(ps: seq<SpendingPattern>, ts: seq<Transaction>, anomalies: seq<Transaction>, r: Recommendation)
    requires r in GenerateRecommendations(ps, ts, anomalies)
    ensures FromRule(r, ps, anomalies)
    ensures r.kind == SpendingAlert ==> r.confidence == 0.9
    ensures r.kind == SubscriptionFinder ==> r.confidence == 0.8
    ensures r.kind != BudgetAdjustment
  {
    assert r in multiset(GenerateRecommendations(ps, ts, anomalies));
    GeneratedFromRules(ps, ts, anomalies, r);
  }

  /** A consequence of the fixed confidences: every spending alert is listed
      before every subscription finding. */
  lemma AlertsBeforeSubscriptions(ps: seq<SpendingPattern>, ts: seq<Transaction>, anomalies: seq<Transaction>, i: int, j: int)
    requires 0 <= i < |GenerateRecommendations(ps, ts, anomalies)|
    requires 0 <= j < |GenerateRecommendations(ps, ts, anomalies)|
    requires GenerateRecommendations(ps, ts, anomalies)[i].kind == SpendingAlert
    requires GenerateRecommendations(ps, ts, anomalies)[j].kind == SubscriptionFinder
    ensures i < j
  {
    var rs := GenerateRecommendations(ps, ts, anomalies);
    OutputFromRules(ps, ts, anomalies, rs[i]);
    OutputFromRules(ps, ts, anomalies, rs[j]);
  }
}

=== FILE: recurring.dfy ===
/** Recurring-payment detection of `FinancialAnalyzer`:
    `findRecurringPayments` and `calculateFrequencyDays`. */
module Recurring {
  import opened Wrappers
  import opened Seqs
  import opened Stats
  import opened AiTypes

  /** A subscription-like merchant group. A transaction without a merchant
      belongs to the group of the `undefined` merchant, here `None`. */
  datatype RecurringPayment = RecurringPayment(
    merchant: Option<string>,
    amount: real,
    frequencyDays: real,
    transactionCount: nat)

  /** The merchants of `ts` in order of first appearance. */
  function MerchantsOf(ts: seq<Transaction>): (ms: seq<Option<string>>)
    ensures NoDup(ms)
    ensures forall i :: 0 <= i < |ts| ==> ts[i].merchant in ms
  {
    var all := seq(|ts|, i requires 0 <= i < |ts| => ts[i].merchant);
    assert forall i :: 0 <= i < |ts| ==> all[i] == ts[i].merchant;
    Distinct(all)
  }

  function ByMerchant(ts: seq<Transaction>, m: Option<string>): seq<Transaction> {
    Filter(ts, (t: Transaction) => t.merchant == m)
  }

  function DayOf(t: Transaction): int {
    t.date.day
  }

  function AsReal(d: int): real {
    d as real
  }

  /** Differences of consecutive entries. */
  function Gaps(ds: seq<int>): (g: seq<real>)
    requires |ds| >= 1
    ensures |g| == |ds| - 1
    ensures forall i :: 0 <= i < |g| ==> g[i] == (ds[i + 1] - ds[i]) as real
  {
    if |ds| == 1 then [] else [(ds[1] - ds[0]) as real] + Gaps(ds[1..])
  }

  /** The gaps of a list telescope to its last entry minus its first. */
  lemma {:induction false} GapsTelescope(ds: seq<int>)
    requires |ds| >= 1
    ensures Sum(Gaps(ds)) == (ds[|ds| - 1] - ds[0]) as real
  {
    if |ds| > 1 {
      GapsTelescope(ds[1..]);
      assert Gaps(ds)[1..] == Gaps(ds[1..]);
    }
  }

  function DaysOf(ts: seq<Transaction>): (ds: seq<int>)
    ensures |ds| == |ts|
    ensures forall i :: 0 <= i < |ts| ==> ds[i] == ts[i].date.day
  {
    seq(|ts|, i requires 0 <= i < |ts| => ts[i].date.day)
  }

  /** `calculateFrequencyDays`: the mean gap in days between the sorted
      dates, or 30 when there is no gap. */
  function CalculateFrequencyDays(ts: seq<Transaction>): (days: real)
    ensures |ts| < 2 ==> days == 30.0
    ensures days >= 0.0
  {
    var ds := SortedDays(ts);
    if |ds| < 2 then 30.0
    else
      MeanOfGaps(ds, |ds| - 1, ds[|ds| - 1] - ds[0]);
      Mean(Gaps(ds))
  }

  /** The mean gap telescopes: it is the distance from the earliest to the
      latest date divided by the number of gaps. */
  lemma FrequencyDaysIsSpread(ts: seq<Transaction>)
    requires |ts| >= 2
    ensures CalculateFrequencyDays(ts) == (DaySpan(ts) as real) / ((|ts| - 1) as real)
  {
    var ds := SortedDays(ts);
    MeanOfGaps(ds, |ts| - 1, DaySpan(ts));
    assert CalculateFrequencyDays(ts) == Mean(Gaps(ds));
  }

  /** Days from the earliest to the latest transaction. */
  function DaySpan(ts: seq<Transaction>): (span: int)
    requires |ts| > 0
    ensures span >= 0
  {
    ts[LatestIndex(ts)].date.day - ts[EarliestIndex(ts)].date.day
  }

  /** The mean gap of a list is its spread divided by the number of gaps. */
  lemma MeanOfGaps(ds: seq<int>, gaps: int, spread: int)
    requires |ds| >= 2
    requires gaps == |ds| - 1
    requires spread == ds[|ds| - 1] - ds[0]
    requires spread >= 0
    ensures Mean(Gaps(ds)) == (spread as real) / (gaps as real)
    ensures Mean(Gaps(ds)) >= 0.0
  {
    var g := Gaps(ds);
    GapsTelescope(ds);
    QuotientOfProduct(Mean(g), gaps as real, spread as real);
  }

  /** A factor of a product is the product divided by the other factor. */
  lemma QuotientOfProduct(m: real, d: real, s: real)
    requires d > 0.0 && s >= 0.0
    requires m * d == s
    ensures m == s / d
    ensures m >= 0.0
  {
  }

  /** The day numbers of `ts` in ascending order: the first is the
      earliest day and the last the latest. */
  function SortedDays(ts: seq<Transaction>): (ds: seq<int>)
    ensures |ds| == |ts|
    ensures SortedBy(ds, AsReal)
    ensures |ts| > 0 ==> ds[0] == ts[EarliestIndex(ts)].date.day
    ensures |ts| > 0 ==> ds[|ts| - 1] == ts[LatestIndex(ts)].date.day
  {
    if |ts| == 0 then []
    else
      DaysAboveEarliest(ts);
      DaysBelowLatest(ts);
      SortedFirstIsLeast(DaysOf(ts), EarliestIndex(ts));
      SortedLastIsGreatest(DaysOf(ts), LatestIndex(ts));
      SortBy(DaysOf(ts), AsReal)
  }

  lemma DaysAboveEarliest(ts: seq<Transaction>)
    requires |ts| >= 1
    ensures forall i :: 0 <= i < |ts| ==> DaysOf(ts)[EarliestIndex(ts)] <= DaysOf(ts)[i]
  {
  }

  lemma DaysBelowLatest(ts: seq<Transaction>)
    requires |ts| >= 1
    ensures forall i :: 0 <= i < |ts| ==> DaysOf(ts)[i] <= DaysOf(ts)[LatestIndex(ts)]
  {
  }

  lemma SortedFirstIsLeast(ds: seq<int>, lo: nat)
    requires lo < |ds|
    requires forall i :: 0 <= i < |ds| ==> ds[lo] <= ds[i]
    ensures SortBy(ds, AsReal)[0] == ds[lo]
  {
    SortByBounds(ds, AsReal, lo);
    SortByEndsIn(ds, AsReal);
    var a := PositionOf(ds, SortBy(ds, AsReal)[0]);
    assert ds[lo] <= ds[a];
  }

  lemma SortedLastIsGreatest(ds: seq<int>, hi: nat)
    requires hi < |ds|
    requires forall i :: 0 <= i < |ds| ==> ds[i] <= ds[hi]
    ensures SortBy(ds, AsReal)[|ds| - 1] == ds[hi]
  {
    SortByBounds(ds, AsReal, hi);
    SortByEndsIn(ds, AsReal);
    var b := PositionOf(ds, SortBy(ds, AsReal)[|ds| - 1]);
    assert ds[b] <= ds[hi];
  }

  /** The amount test of `findRecurringPayments`: the coefficient of
      variation of the group's amounts is below 0.2. */
  predicate Regular(group: seq<Transaction>)
    requires |group| > 0
  {
    var m := Mean(Amounts(group));
    LowVariation(m, Variance(Amounts(group), m))
  }

  /** What `findRecurringPayments` reports for a merchant group. */
  ghost predicate DescribesGroup(p: RecurringPayment, group: seq<Transaction>) {
    && |group| >= 3
    && Regular(group)
    && p.amount == Mean(Amounts(group))
    && p.frequencyDays == CalculateFrequencyDays(group)
    && p.transactionCount == |group|
  }

  /** The candidate `findRecurringPayments` reports for merchant `m`, if
      its group qualifies. */
  function CandidateFor(ts: seq<Transaction>, m: Option<string>): (c: Option<RecurringPayment>)
    ensures c.Some? <==> |ByMerchant(ts, m)| >= 3 && Regular(ByMerchant(ts, m))
    ensures c.Some? ==> DescribesGroup(c.value, ByMerchant(ts, m)) && c.value.merchant == m
  {
    var group := ByMerchant(ts, m);
    if |group| >= 3 && Regular(group) then
      Some(RecurringPayment(m, Mean(Amounts(group)), CalculateFrequencyDays(group), |group|))
    else None
  }

  function CandidatesOver(ts: seq<Transaction>, ms: seq<Option<string>>): (ps: seq<RecurringPayment>)
    ensures |ps| <= |ms|
    ensures forall i :: 0 <= i < |ps| ==> ps[i].merchant in ms
  {
    if |ms| == 0 then []
    else
      var rest := CandidatesOver(ts, ms[1..]);
      MerchantsFromTail(rest, ms);
      match CandidateFor(ts, ms[0])
      case Some(p) => MerchantsCons(p, rest, ms); [p] + rest
      case None => rest
  }

  lemma MerchantsFromTail(ps: seq<RecurringPayment>, ms: seq<Option<string>>)
    requires |ms| > 0
    requires forall i :: 0 <= i < |ps| ==> ps[i].merchant in ms[1..]
    ensures forall i :: 0 <= i < |ps| ==> ps[i].merchant in ms
  {
    assert ms == [ms[0]] + ms[1..];
  }

  lemma MerchantsCons(p: RecurringPayment, ps: seq<RecurringPayment>, ms: seq<Option<string>>)
    requires |ms| > 0 && p.merchant == ms[0]
    requires forall i :: 0 <= i < |ps| ==> ps[i].merchant in ms
    ensures forall i :: 0 <= i < |[p] + ps| ==> ([p] + ps)[i].merchant in ms
  {
    forall i | 0 <= i < |[p] + ps| ensures ([p] + ps)[i].merchant in ms {
      if i > 0 {
        assert ([p] + ps)[i] == ps[i - 1];
      }
    }
  }

  ghost predicate HasCandidateFor(ps: seq<RecurringPayment>, m: Option<string>) {
    exists i :: 0 <= i < |ps| && ps[i].merchant == m
  }

  lemma {:induction false} CandidatesOverSound(ts: seq<Transaction>, ms: seq<Option<string>>)
    ensures forall i :: 0 <= i < |CandidatesOver(ts, ms)| ==>
      DescribesGroup(CandidatesOver(ts, ms)[i], ByMerchant(ts, CandidatesOver(ts, ms)[i].merchant))
  {
    if |ms| > 0 {
      CandidatesOverSound(ts, ms[1..]);
      var rest := CandidatesOver(ts, ms[1..]);
      var c := CandidateFor(ts, ms[0]);
      if c.Some? {
        ConsSound(ts, c.value, rest);
      }
    }
  }

  lemma ConsSound(ts: seq<Transaction>, p: RecurringPayment, rest: seq<RecurringPayment>)
    requires DescribesGroup(p, ByMerchant(ts, p.merchant))
    requires forall i :: 0 <= i < |rest| ==> DescribesGroup(rest[i], ByMerchant(ts, rest[i].merchant))
    ensures forall i :: 0 <= i < |[p] + rest| ==> DescribesGroup(([p] + rest)[i], ByMerchant(ts, ([p] + rest)[i].merchant))
  {
    var ps := [p] + rest;
    forall i | 0 <= i < |ps| ensures DescribesGroup(ps[i], ByMerchant(ts, ps[i].merchant)) {
      if i > 0 {
        assert ps[i] == rest[i - 1];
      }
    }
  }

  lemma {:induction false} CandidatesOverComplete(ts: seq<Transaction>, ms: seq<Option<string>>, m: Option<string>)
    requires m in ms
    requires |ByMerchant(ts, m)| >= 3 && Regular(ByMerchant(ts, m))
    ensures HasCandidateFor(CandidatesOver(ts, ms), m)
  {
    if m == ms[0] {
      assert CandidatesOver(ts, ms)[0].merchant == m;
    } else {
      var k := PositionOf(ms, m);
      assert ms[1..][k - 1] == m;
      CandidatesOverComplete(ts, ms[1..], m);
      CandidateKept(ts, ms, m);
    }
  }

  /** A candidate found in the tail of the merchant list stays a candidate. */
  lemma CandidateKept(ts: seq<Transaction>, ms: seq<Option<string>>, m: Option<string>)
    requires |ms| > 0
    requires HasCandidateFor(CandidatesOver(ts, ms[1..]), m)
    ensures HasCandidateFor(CandidatesOver(ts, ms), m)
  {
    var ps := CandidatesOver(ts, ms);
    var rest := CandidatesOver(ts, ms[1..]);
    if |ps| > |rest| {
      assert ps == [ps[0]] + rest;
      CandidateCons(ps[0], rest, m);
    } else {
      assert ps == rest;
    }
  }

  lemma CandidateCons(p: RecurringPayment, rest: seq<RecurringPayment>, m: Option<string>)
    requires HasCandidateFor(rest, m)
    ensures HasCandidateFor([p] + rest, m)
  {
    var k :| 0 <= k < |rest| && rest[k].merchant == m;
    assert ([p] + rest)[k + 1] == rest[k];
  }

  lemma {:induction false} CandidatesOverUnique(ts: seq<Transaction>, ms: seq<Option<string>>)
    requires NoDup(ms)
    ensures forall i, j :: 0 <= i < j < |CandidatesOver(ts, ms)| ==>
      CandidatesOver(ts, ms)[i].merchant != CandidatesOver(ts, ms)[j].merchant
  {
    if |ms| > 0 {
      var ps := CandidatesOver(ts, ms);
      var rest := CandidatesOver(ts, ms[1..]);
      NoDupTail(ms);
      CandidatesOverUnique(ts, ms[1..]);
      if |ps| > |rest| {
        assert ps == [ps[0]] + rest;
        ConsUniqueMerchant(ps[0], rest, ms);
      }
    }
  }

  lemma ConsUniqueMerchant(p: RecurringPayment, rest: seq<RecurringPayment>, ms: seq<Option<string>>)
    requires |ms| > 0 && p.merchant == ms[0] && ms[0] !in ms[1..]
    requires forall i :: 0 <= i < |rest| ==> rest[i].merchant in ms[1..]
    requires forall i, j :: 0 <= i < j < |rest| ==> rest[i].merchant != rest[j].merchant
    ensures forall i, j :: 0 <= i < j < |[p] + rest| ==> ([p] + rest)[i].merchant != ([p] + rest)[j].merchant
  {
    var ps := [p] + rest;
    forall i, j | 0 <= i < j < |ps| ensures ps[i].merchant != ps[j].merchant {
      assert ps[j] == rest[j - 1];
      if i > 0 {
        assert ps[i] == rest[i - 1];
      }
    }
  }

  /** `findRecurringPayments` over the whole, unwindowed history: one
      candidate per merchant with at least three transactions (income and
      expense alike) whose amounts vary by less than 20% of their mean. */
  function FindRecurringPayments(ts: seq<Transaction>): (ps: seq<RecurringPayment>)
    ensures forall m :: HasCandidateFor(ps, m) <==>
      |ByMerchant(ts, m)| >= 3 && Regular(ByMerchant(ts, m))
    ensures forall i :: 0 <= i < |ps| ==> DescribesGroup(ps[i], ByMerchant(ts, ps[i].merchant))
    ensures forall i, j :: 0 <= i < j < |ps| ==> ps[i].merchant != ps[j].merchant
  {
    var ms := MerchantsOf(ts);
    var ps := CandidatesOver(ts, ms);
    forall m | |ByMerchant(ts, m)| >= 3 && Regular(ByMerchant(ts, m)) ensures HasCandidateFor(ps, m) {
      var group := ByMerchant(ts, m);
      FilterMembers(ts, (t: Transaction) => t.merchant == m);
      assert group[0] in ts;
      var k :| 0 <= k < |ts| && ts[k] == group[0];
      assert ts[k].merchant in ms;
      CandidatesOverComplete(ts, ms, m);
    }
    CandidatesOverSound(ts, ms);
    CandidatesOverUnique(ts, ms);
    ps
  }

  /** A group whose mean amount is zero is never reported (0/0 is NaN). */
  lemma ZeroMeanNeverReported(ts: seq<Transaction>, m: Option<string>)
    requires |ByMerchant(ts, m)| >= 3
    requires Mean(Amounts(ByMerchant(ts, m))) == 0.0
    ensures !HasCandidateFor(FindRecurringPayments(ts), m)
  {
  }

  /** With non-negative amounts, a group that passes the amount test has a
      positive mean and a standard deviation below a fifth of it. */
  lemma RegularGroupHasSmallRatio(group: seq<Transaction>, sd: real)
    requires NonNegativeAmounts(group)
    requires |group| > 0 && Regular(group)
    requires IsRootOf(sd, Variance(Amounts(group), Mean(Amounts(group))))
    ensures Mean(Amounts(group)) > 0.0
    ensures sd / Mean(Amounts(group)) < 0.2
  {
    var amounts := Amounts(group);
    SumNonNegative(amounts);
    LowVariationMeansSmallRatio(Mean(amounts), Variance(amounts, Mean(amounts)), sd);
  }
}

=== FILE: seqs.dfy ===
/** Generic sequence operations used by the analysis engine and the scripts:
    filtering, first-occurrence de-duplication (the `[...new Set(xs)]` idiom)
    and a stable sort by a real-valued key (the `Array.prototype.sort` of the
    JavaScript engine, which is stable). */
module Seqs {

  /** The elements of `s` that satisfy `p`, in their original order. */
  function Filter<T>(s: seq<T>, p: T -> bool): (r: seq<T>)
    ensures |r| <= |s|
  {
    if |s| == 0 then []
    else if p(s[0]) then [s[0]] + Filter(s[1..], p)
    else Filter(s[1..], p)
  }

  /** Everything kept satisfies the predicate and comes from the input, and
      everything in the input that satisfies it is kept. */
  lemma {:induction false} FilterMembers<T>(s: seq<T>, p: T -> bool)
    ensures forall x :: x in Filter(s, p) <==> x in s && p(x)
  {
    if |s| > 0 {
      FilterMembers(s[1..], p);
      assert s == [s[0]] + s[1..];
    }
  }

  /** A filter keeps every copy of an element that satisfies the predicate
      and no copy of one that does not. */
  lemma {:induction false} FilterCount<T>(s: seq<T>, p: T -> bool, x: T)
    ensures multiset(Filter(s, p))[x] == if p(x) then multiset(s)[x] else 0
  {
    if |s| > 0 {
      FilterCount(s[1..], p, x);
      assert s == [s[0]] + s[1..];
    }
  }

  lemma FilterAppend<T>(a: seq<T>, b: seq<T>, p: T -> bool)
    ensures Filter(a + b, p) == Filter(a, p) + Filter(b, p)
  {
    if |a| > 0 {
      assert (a + b)[1..] == a[1..] + b;
      FilterAppend(a[1..], b, p);
    } else {
      assert a + b == b;
    }
  }

  /** No element occurs twice. */
  ghost predicate NoDup<T>(s: seq<T>) {
    forall i, j :: 0 <= i < j < |s| ==> s[i] != s[j]
  }

  /** A prefix grown by the next element is the longer prefix. */
  lemma PrefixSnoc<T>(s: seq<T>, i: nat)
    requires i < |s|
    ensures s[..i] + [s[i]] == s[..i + 1]
  {
  }

  /** The elements of `[x] + xs` after the first are those of `xs`. */
  lemma ConsIndex<T>(x: T, xs: seq<T>, k: nat)
    requires 0 < k <= |xs|
    ensures ([x] + xs)[k] == xs[k - 1]
  {
  }

  /** Without repeats, the head does not recur in the tail, and the tail has
      no repeats either. */
  lemma NoDupTail<T>(s: seq<T>)
    requires NoDup(s) && |s| > 0
    ensures NoDup(s[1..]) && s[0] !in s[1..]
  {
    forall i, j | 0 <= i < j < |s[1..]| ensures s[1..][i] != s[1..][j] {
      assert s[1..][i] == s[i + 1] && s[1..][j] == s[j + 1];
    }
    forall k | 0 <= k < |s[1..]| ensures s[1..][k] != s[0] {
      assert s[1..][k] == s[k + 1];
    }
  }

  /** The distinct elements of `s` in the order of their first occurrence:
      what `[...new Set(s)]` yields. */
  function Distinct<T(==)>(s: seq<T>): (r: seq<T>)
    ensures NoDup(r)
    ensures forall i :: 0 <= i < |r| ==> r[i] in s
    ensures forall i :: 0 <= i < |s| ==> s[i] in r
    ensures |r| <= |s|
  {
    if |s| == 0 then []
    else
      var r' := Distinct(s[..|s| - 1]);
      var x := s[|s| - 1];
      assert s == s[..|s| - 1] + [x];
      if x in r' then r' else r' + [x]
  }

  /** The distinct elements of an ascending list are strictly ascending. */
  lemma {:induction false} DistinctAscends(s: seq<int>)
    requires forall i, j :: 0 <= i < j < |s| ==> s[i] <= s[j]
    ensures forall i, j :: 0 <= i < j < |Distinct(s)| ==> Distinct(s)[i] < Distinct(s)[j]
  {
    if |s| > 0 {
      var init := s[..|s| - 1];
      var x := s[|s| - 1];
      DistinctAscends(init);
      var r' := Distinct(init);
      forall i | 0 <= i < |r'| ensures r'[i] <= x {
        var k :| 0 <= k < |init| && init[k] == r'[i];
      }
    }
  }

  /** A duplicate-free sequence has as many distinct elements as positions. */
  lemma {:induction false} NoDupCardinality<T>(s: seq<T>)
    requires NoDup(s)
    ensures |set x | x in s| == |s|
  {
    if |s| > 0 {
      var t := s[1..];
      NoDupCardinality(t);
      assert (set x | x in s) == (set x | x in t) + {s[0]};
      assert s[0] !in t;
    } else {
      assert (set x | x in s) == {};
    }
  }

  /** `s` is ordered by non-decreasing `key`. */
  ghost predicate SortedBy<T>(s: seq<T>, key: T -> real) {
    forall i, j :: 0 <= i < j < |s| ==> key(s[i]) <= key(s[j])
  }

  /** The elements of `s` whose key equals `k`, in their original order.
      A sort is stable exactly when it keeps every such subsequence. */
  function WithKey<T>(s: seq<T>, key: T -> real, k: real): (r: seq<T>)
    ensures |r| <= |s|
  {
    if |s| == 0 then []
    else if key(s[0]) == k then [s[0]] + WithKey(s[1..], key, k)
    else WithKey(s[1..], key, k)
  }

  /** Inserts `x` in front of the first element whose key is not smaller
      than its own, so that `x` precedes the equal keys it preceded before. */
  function Insert<T>(x: T, s: seq<T>, key: T -> real): (r: seq<T>)
    ensures |r| == |s| + 1
    ensures multiset(r) == multiset(s) + multiset{x}
  {
    if |s| == 0 || key(x) <= key(s[0]) then [x] + s
    else
      assert s == [s[0]] + s[1..];
      [s[0]] + Insert(x, s[1..], key)
  }

  lemma {:induction false} InsertSorted<T>(x: T, s: seq<T>, key: T -> real)
    requires SortedBy(s, key)
    ensures SortedBy(Insert(x, s, key), key)
  {
    if |s| > 0 && key(x) > key(s[0]) {
      var tail := Insert(x, s[1..], key);
      InsertSorted(x, s[1..], key);
      forall j | 0 <= j < |tail| ensures key(s[0]) <= key(tail[j]) {
        assert tail[j] in multiset(tail);
        assert tail[j] in multiset(s[1..]) || tail[j] == x;
        if tail[j] != x {
          var m :| 0 <= m < |s[1..]| && s[1..][m] == tail[j];
          assert s[m + 1] == tail[j];
        }
      }
      var r := [s[0]] + tail;
      forall i, j | 0 <= i < j < |r| ensures key(r[i]) <= key(r[j]) {
        if i > 0 {
          assert r[i] == tail[i - 1] && r[j] == tail[j - 1];
        } else {
          assert r[j] == tail[j - 1];
        }
      }
    }
  }

  /** Stable insertion sort by ascending key. */
  function SortBy<T>(s: seq<T>, key: T -> real): (r: seq<T>)
    ensures |r| == |s|
    ensures multiset(r) == multiset(s)
    ensures SortedBy(r, key)
  {
    if |s| == 0 then []
    else
      var rest := SortBy(s[1..], key);
      assert s == [s[0]] + s[1..];
      InsertSorted(s[0], rest, key);
      Insert(s[0], rest, key)
  }

  /** The first element of a sorted result has the smallest key of the input
      and the last element the largest, and both come from the input. */
  lemma SortByEnds<T>(s: seq<T>, key: T -> real)
    requires |s| > 0
    ensures forall i :: 0 <= i < |s| ==> key(SortBy(s, key)[0]) <= key(s[i])
    ensures forall i :: 0 <= i < |s| ==> key(s[i]) <= key(SortBy(s, key)[|s| - 1])
    ensures SortBy(s, key)[0] in s
    ensures SortBy(s, key)[|s| - 1] in s
  {
    forall i | 0 <= i < |s| ensures key(SortBy(s, key)[0]) <= key(s[i]) <= key(SortBy(s, key)[|s| - 1]) {
      SortByBounds(s, key, i);
    }
    SortByEndsIn(s, key);
  }

  /** Every input key lies between the first and the last key of the sorted
      result. */
  lemma SortByBounds<T>(s: seq<T>, key: T -> real, i: nat)
    requires i < |s|
    ensures key(SortBy(s, key)[0]) <= key(s[i]) <= key(SortBy(s, key)[|s| - 1])
  {
    SortedPermutationBounds(s, SortBy(s, key), key, i);
  }

  /** In a sorted permutation of `s`, every key of `s` lies between the
      first key and the last. */
  lemma SortedPermutationBounds<T>(s: seq<T>, r: seq<T>, key: T -> real, i: nat)
    requires i < |s| == |r|
    requires multiset(r) == multiset(s) && SortedBy(r, key)
    ensures key(r[0]) <= key(s[i]) <= key(r[|s| - 1])
  {
    assert s[i] in multiset(s);
    var k := PositionOf(r, s[i]);
    SortedBounds(r, key, k);
  }

  /** The ends of the sorted result come from the input. */
  lemma SortByEndsIn<T>(s: seq<T>, key: T -> real)
    requires |s| > 0
    ensures SortBy(s, key)[0] in s
    ensures SortBy(s, key)[|s| - 1] in s
  {
    var r := SortBy(s, key);
    assert r[0] in multiset(s);
    assert r[|s| - 1] in multiset(s);
  }

  /** A position of an element of a permutation of `r`. */
  ghost function PositionOf<T>(r: seq<T>, x: T): (k: nat)
    requires x in r
    ensures k < |r| && r[k] == x
  {
    if r[0] == x then 0 else 1 + PositionOf(r[1..], x)
  }

  /** In a sorted sequence the first key is the least and the last the
      greatest. */
  lemma SortedBounds<T>(r: seq<T>, key: T -> real, k: nat)
    requires SortedBy(r, key) && k < |r|
    ensures key(r[0]) <= key(r[k]) <= key(r[|r| - 1])
  {
    if 0 < k {
      assert key(r[0]) <= key(r[k]);
    }
    if k < |r| - 1 {
      assert key(r[k]) <= key(r[|r| - 1]);
    }
  }

  lemma {:induction false} InsertStable<T>(x: T, s: seq<T>, key: T -> real, k: real)
    requires SortedBy(s, key)
    ensures WithKey(Insert(x, s, key), key, k) == WithKey([x] + s, key, k)
  {
    if |s| == 0 || key(x) <= key(s[0]) {
    } else {
      var tail := Insert(x, s[1..], key);
      InsertStable(x, s[1..], key, k);
      assert ([s[0]] + tail)[1..] == tail;
      assert ([x] + s)[1..] == s;
      assert ([x] + s[1..])[1..] == s[1..];
      assert s[1..] == s[1..];
      assert ([s[0]] + s[1..])[1..] == s[1..];
      assert s == [s[0]] + s[1..];
    }
  }

  /** The sort is stable: among elements with equal keys, the input order is
      kept. */
  lemma {:induction false} SortByStable<T>(s: seq<T>, key: T -> real, k: real)
    ensures WithKey(SortBy(s, key), key, k) == WithKey(s, key, k)
  {
    if |s| > 0 {
      var rest := SortBy(s[1..], key);
      SortByStable(s[1..], key, k);
      InsertStable(s[0], rest, key, k);
      assert ([s[0]] + rest)[1..] == rest;
      assert s == [s[0]] + s[1..];
    }
  }

  /** Sorting an already sorted sequence changes nothing. */
  lemma {:induction false} SortBySorted<T>(s: seq<T>, key: T -> real)
    requires SortedBy(s, key)
    ensures SortBy(s, key) == s
  {
    if |s| > 0 {
      assert SortedBy(s[1..], key);
      SortBySorted(s[1..], key);
      assert s == [s[0]] + s[1..];
    }
  }
}

=== FILE: sql.dfy ===
/** `generate_sql_insert`: the literal each column of the INSERT gets. Text
    columns are single-quoted with embedded quotes doubled; amounts are
    rendered with two decimals. */
module SqlInsert {
  import opened Wrappers
  import opened Text
  import opened StatementAmounts
  import opened Categories
  import opened StatementParser

  /** `s.replace("'", "''")`. */
  function Escape(s: string): (r: string)
    ensures |r| >= |s|
    ensures '\'' !in s ==> r == s
  {
    if |s| == 0 then ""
    else (if s[0] == '\'' then "''" else [s[0]]) + Escape(s[1..])
  }

  /** A quoted SQL string literal. */
  function Quote(s: string): string {
    "'" + Escape(s) + "'"
  }

  /** How SQL reads the inside of a string literal: up to the first quote
      that is not doubled. The result is the text and what follows the
      closing quote. */
  function ReadBody(t: string): (r: Option<(string, string)>)
    decreases |t|
  {
    if |t| == 0 then None
    else if t[0] == '\'' then
      if |t| > 1 && t[1] == '\'' then
        match ReadBody(t[2..])
        case None => None
        case Some((s, rest)) => Some(("'" + s, rest))
      else Some(("", t[1..]))
    else
      match ReadBody(t[1..])
      case None => None
      case Some((s, rest)) => Some(([t[0]] + s, rest))
  }

  /** Reads one string literal at the start of `t`. */
  function ReadLiteral(t: string): Option<(string, string)> {
    if |t| > 0 && t[0] == '\'' then ReadBody(t[1..]) else None
  }

  lemma {:induction false} ReadEscaped(s: string, rest: string)
    requires |rest| == 0 || rest[0] != '\''
    ensures ReadBody(Escape(s) + "'" + rest) == Some((s, rest))
  {
    if |s| > 0 {
      ReadEscaped(s[1..], rest);
      ReadEscapedStep(s, rest);
    } else {
      assert Escape(s) + "'" + rest == "'" + rest;
    }
  }

  /** One step of `ReadEscaped`: reading the escaped head in front of a
      tail that reads back. */
  lemma ReadEscapedStep(s: string, rest: string)
    requires |s| > 0
    requires ReadBody(Escape(s[1..]) + "'" + rest) == Some((s[1..], rest))
    ensures ReadBody(Escape(s) + "'" + rest) == Some((s, rest))
  {
    if s[0] == '\'' {
      ReadEscapedQuote(s, rest);
    } else {
      ReadEscapedChar(s, rest);
    }
  }

  lemma ReadEscapedQuote(s: string, rest: string)
    requires |s| > 0 && s[0] == '\''
    requires ReadBody(Escape(s[1..]) + "'" + rest) == Some((s[1..], rest))
    ensures ReadBody(Escape(s) + "'" + rest) == Some((s, rest))
  {
    var tail := Escape(s[1..]) + "'" + rest;
    assert Escape(s) == "''" + Escape(s[1..]);
    AppendAssoc("''", Escape(s[1..]), "'", rest);
    ReadsDoubledQuote(tail, s[1..], rest);
    assert "'" + s[1..] == s;
  }

  lemma ReadEscapedChar(s: string, rest: string)
    requires |s| > 0 && s[0] != '\''
    requires ReadBody(Escape(s[1..]) + "'" + rest) == Some((s[1..], rest))
    ensures ReadBody(Escape(s) + "'" + rest) == Some((s, rest))
  {
    var tail := Escape(s[1..]) + "'" + rest;
    assert Escape(s) == [s[0]] + Escape(s[1..]);
    AppendAssoc([s[0]], Escape(s[1..]), "'", rest);
    ReadsPlainChar(s[0], tail, s[1..], rest);
    assert [s[0]] + s[1..] == s;
  }

  lemma AppendAssoc(a: string, b: string, c: string, d: string)
    ensures a + b + c + d == a + (b + c + d)
  {
  }

  /** A doubled quote reads as one quote of the text. */
  lemma ReadsDoubledQuote(tail: string, s: string, rest: string)
    requires ReadBody(tail) == Some((s, rest))
    ensures ReadBody("''" + tail) == Some(("'" + s, rest))
  {
    assert ("''" + tail)[2..] == tail;
  }

  /** Any other character reads as itself. */
  lemma ReadsPlainChar(c: char, tail: string, s: string, rest: string)
    requires c != '\'' && ReadBody(tail) == Some((s, rest))
    ensures ReadBody([c] + tail) == Some(([c] + s, rest))
  {
    assert ([c] + tail)[1..] == tail;
  }

  /** Quoting round-trips: SQL reads back exactly the text, whatever
      quotes it holds, provided the literal is not directly followed by
      another quote. */
  lemma QuoteRoundTrip(s: string, rest: string)
    requires |rest| == 0 || rest[0] != '\''
    ensures ReadLiteral(Quote(s) + rest) == Some((s, rest))
  {
    ReadEscaped(s, rest);
    AppendAssoc("'", Escape(s), "'", rest);
    assert (Quote(s) + rest)[1..] == Escape(s) + "'" + rest;
  }

  /** The decimal text of an integer, as `str` writes it. */
  function IntText(n: int): string {
    if n < 0 then "-" + NatDigits(-n) else NatDigits(n)
  }

  /** `x * 100` rounded to the nearest integer, ties to even. */
  function RoundCents(x: real): (n: int)
    ensures -0.5 <= x * 100.0 - n as real <= 0.5
  {
    var f := (x * 100.0).Floor;
    var d := x * 100.0 - f as real;
    if d > 0.5 then f + 1
    else if d < 0.5 then f
    else if f % 2 == 0 then f else f + 1
  }

  /** `f"{x:.2f}"`. */
  function Fixed2(x: real): string {
    var n := RoundCents(x);
    if x < 0.0 then "-" + FormatCents(-n) else FormatCents(n)
  }

  /** An amount in whole cents renders exactly and parses back. */
  lemma Fixed2RoundTrip(cents: nat)
    ensures Fixed2(cents as real / 100.0) == FormatCents(cents)
    ensures ParseAmount(Fixed2(cents as real / 100.0)) == Success(cents as real / 100.0)
  {
    var x := cents as real / 100.0;
    assert x * 100.0 == cents as real;
    assert (x * 100.0).Floor == cents;
    ParseFormatCents(cents);
  }

  /** The merchant column: NULL for a missing or empty merchant. */
  function MerchantValue(m: Option<string>): (v: string)
    ensures v == "NULL" <==> m.None? || m.value == ""
  {
    if m.None? || m.value == "" then "NULL"
    else
      assert Quote(m.value)[0] != "NULL"[0];
      Quote(m.value)
  }

  /** The categories counted as investments. */
  const InvestmentCategories: set<int> := {15, 16, 4}

  /** The `is_investment` column. */
  function InvestmentValue(category: int): (v: string)
    ensures v == "true" <==> category in InvestmentCategories
    ensures v == "true" || v == "false"
  {
    if category in InvestmentCategories then "true" else "false"
  }

  /** The investment flag of a converted record follows its description: a
      SIP or house expense is flagged, and a cash withdrawal or transfer
      that is not one is not. */
  lemma InvestmentFlag(text: string, date: string, amountLine: string, balanceLine: string,
                       merchant: Option<string>)
    ensures var r := MakeRecord(text, date, amountLine, balanceLine, merchant);
      var u := Upper(text);
      var sipOrHouse := r.kind == ExpenseTx && (Contains(u, "SIP") || Contains(u, "HOUSE"));
      && (sipOrHouse ==> Values(r)[10] == "true")
      && (!sipOrHouse && (Contains(u, "CASH WITHDRAWAL") || AnyTransferWord(u)) ==> Values(r)[10] == "false")
  {
  }

  function KindText(k: TxType): string {
    if k == IncomeTx then "income" else "expense"
  }

  /** The columns of the INSERT, in order. */
  const Columns: seq<string> := [
    "bank_account_id", "category_id", "transaction_date", "amount", "type", "description",
    "merchant", "closing_balance", "notes", "is_recurring", "is_investment", "created_at",
    "transaction_owner"]

  /** The VALUES of the INSERT for one record, one per column. */
  function Values(r: Record): (vs: seq<string>)
    ensures |vs| == |Columns|
  {
    [IntText(r.bankAccount), IntText(r.category), "'" + r.date + "'", Fixed2(r.amount),
     "'" + KindText(r.kind) + "'", Quote(r.description), MerchantValue(r.merchant),
     Fixed2(r.closing), Quote(r.notes), "false", InvestmentValue(r.category),
     "CURRENT_TIMESTAMP", "NULL"]
  }

  /** The text columns read back as the record's own text, and the merchant
      column as the merchant or NULL. */
  lemma ValuesReadBack(r: Record)
    ensures ReadLiteral(Values(r)[5]) == Some((r.description, ""))
    ensures ReadLiteral(Values(r)[8]) == Some((r.notes, ""))
    ensures r.merchant.Some? && r.merchant.value != "" ==> ReadLiteral(Values(r)[6]) == Some((r.merchant.value, ""))
    ensures (r.merchant.None? || r.merchant.value == "") <==> Values(r)[6] == "NULL"
    ensures Values(r)[10] == "true" <==> r.category in InvestmentCategories
  {
    QuoteReads(r.description);
    QuoteReads(r.notes);
    if r.merchant.Some? && r.merchant.value != "" {
      QuoteReads(r.merchant.value);
    }
  }

  /** A quoted literal standing alone reads back as its text. */
  lemma QuoteReads(s: string)
    ensures ReadLiteral(Quote(s)) == Some((s, ""))
  {
    QuoteRoundTrip(s, "");
    assert Quote(s) + "" == Quote(s);
  }
}

=== FILE: statement.dfy ===
/** `clean_description` and the line-oriented `parse_transactions` of the
    statement converter. A record starts at a line opening with a date
    (`\d{2} \w{3} \d{4}`), collects description lines up to the first
    amount line, and takes the line after that as its balance line. The
    merchant extraction and `datetime.strptime` are parameters. */
module StatementParser {
  import opened Wrappers
  import opened Text
  import opened StatementAmounts
  import opened Categories
  import opened AmountLines
  import opened Seqs

  /** The longest description the converter keeps. */
  const MaxDescription: nat := 100

  /** A normal text cut short and marked with `...` stays normal. */
  lemma {:induction false} TruncatedNormal(d: string)
    requires Normal(d) && |d| > MaxDescription
    ensures Normal(d[..97] + "...")
  {
    var t := d[..97] + "...";
    forall i | 0 <= i < |t| && IsSpace(t[i])
      ensures t[i] == ' ' && 0 < i < |t| - 1 && !IsSpace(t[i - 1]) && !IsSpace(t[i + 1])
    {
      if i >= 97 {
        assert false;
      }
      assert t[i] == d[i];
      assert t[i - 1] == d[i - 1];
      if i + 1 < 97 {
        assert t[i + 1] == d[i + 1];
      } else {
        assert t[i + 1] == '.';
      }
    }
  }

  /** `clean_description`: whitespace collapsed, and a text longer than
      100 characters cut to its first 97 and `...`. */
  function CleanDescription(description: string): (r: string)
    ensures |r| <= MaxDescription
    ensures Normal(r)
    ensures |Collapse(description)| <= MaxDescription ==> r == Collapse(description)
    ensures |Collapse(description)| > MaxDescription ==>
      |r| == MaxDescription && r[..97] == Collapse(description)[..97] && r[97..] == "..."
  {
    var d := Collapse(description);
    CollapseIsNormal(description);
    if |d| > MaxDescription then
      TruncatedNormal(d);
      d[..97] + "..."
    else d
  }

  /** Cleaning a cleaned description changes nothing. */
  lemma CleanIdempotent(description: string)
    ensures CleanDescription(CleanDescription(description)) == CleanDescription(description)
  {
    NormalFixed(CleanDescription(description));
  }

  /** `\w` on the ASCII range. */
  predicate IsWordChar(c: char) {
    'a' <= c <= 'z' || 'A' <= c <= 'Z' || IsDigit(c) || c == '_'
  }

  /** `re.match(r'(\d{2} \w{3} \d{4})', line)` succeeds. */
  predicate IsDateLine(line: string) {
    |line| >= 11 && IsDigit(line[0]) && IsDigit(line[1]) && line[2] == ' ' &&
    IsWordChar(line[3]) && IsWordChar(line[4]) && IsWordChar(line[5]) && line[6] == ' ' &&
    IsDigit(line[7]) && IsDigit(line[8]) && IsDigit(line[9]) && IsDigit(line[10])
  }

  /** `raw_data.strip().split('\n')`, each line stripped: the parser only
      ever reads a line through `.strip()`. */
  function Lines(raw: string): seq<string> {
    StripEach(SplitOn(Strip(raw), '\n'))
  }

  function StripEach(ls: seq<string>): (r: seq<string>)
    ensures |r| == |ls|
  {
    if |ls| == 0 then [] else [Strip(ls[0])] + StripEach(ls[1..])
  }

  /** The number of date lines among the first `n` lines. */
  function DateLines(lines: seq<string>, n: nat): nat
    requires n <= |lines|
  {
    if n == 0 then 0
    else DateLines(lines, n - 1) + (if IsDateLine(lines[n - 1]) then 1 else 0)
  }

  lemma {:induction false} DateLinesMonotone(lines: seq<string>, m: nat, n: nat)
    requires m <= n <= |lines|
    ensures DateLines(lines, m) <= DateLines(lines, n)
    decreases n - m
  {
    if m < n {
      DateLinesMonotone(lines, m, n - 1);
    }
  }

  /** A date line adds one to every later count. */
  lemma DateLineCounts(lines: seq<string>, d: nat, n: nat)
    requires d < n <= |lines| && IsDateLine(lines[d])
    ensures DateLines(lines, d) + 1 <= DateLines(lines, n)
  {
    DateLinesMonotone(lines, d + 1, n);
  }

  /** The date text of date line `d`. */
  function DateText(lines: seq<string>, d: nat): string
    requires d < |lines| && IsDateLine(lines[d])
  {
    lines[d][..11]
  }

  /** The description of the record whose date line is `d` and whose
      amount line is `a`: the rest of the date line and the lines between,
      each stripped, joined with spaces. */
  function BodyText(lines: seq<string>, d: nat, a: nat): string
    requires d < a <= |lines| && IsDateLine(lines[d])
  {
    Strip(Join([Strip(lines[d][11..])] + lines[d + 1..a], " "))
  }

  /** The line after amount line `a`, or nothing at the end of input. */
  function BalanceLine(lines: seq<string>, a: nat): string {
    if a + 1 < |lines| then lines[a + 1] else ""
  }

  /** The closing balance read from a balance line: the first decimal in
      it, or 0 when there is none. */
  function BalanceOf(line: string): (b: real)
    ensures b >= 0.0
    ensures SearchDecimal(line, 0).None? ==> b == 0.0
    ensures SearchDecimal(line, 0).Some? ==> ParseAmount(DecimalText(line, SearchDecimal(line, 0).value)) == Success(b)
  {
    match SearchDecimal(line, 0)
    case None => 0.0
    case Some(i) => DecimalValue(line, i)
  }

  /** No `\d+\.\d{2}` match starts in a digit run that a comma ends, nor
      at the comma. */
  lemma NoDecimalBeforeComma(s: string, n: nat)
    requires n < |s| && s[n] == ','
    requires forall k :: 0 <= k < n ==> IsDigit(s[k])
    ensures forall j :: 0 <= j <= n ==> !DecimalAt(s, j)
  {
    forall j | 0 <= j < n ensures DigitsEnd(s, j) == n {
      var m := DigitsEnd(s, j);
      assert m <= n;
    }
  }

  /** The search finds a match that no earlier position has. */
  lemma SearchFindsFirst(s: string, i: nat)
    requires DecimalAt(s, i)
    requires forall j :: 0 <= j < i ==> !DecimalAt(s, j)
    ensures SearchDecimal(s, 0) == Some(i)
  {
  }

  /** In `high,low.cents` the leftmost match is `low.cents`. */
  lemma CommaGroupedMatch(high: string, low: string, cents: string)
    requires |high| > 0 && AllDigits(high) && |low| > 0 && AllDigits(low)
    requires |cents| == 2 && AllDigits(cents)
    ensures var s := high + [','] + low + ['.'] + cents;
      SearchDecimal(s, 0) == Some(|high| + 1) && DecimalAt(s, |high| + 1) &&
      DecimalText(s, |high| + 1) == low + ['.'] + cents
  {
    var pre := high + [','];
    var t := low + ['.'] + cents;
    var s := pre + t;
    assert s == high + [','] + low + ['.'] + cents;
    assert SplitAt(t, 0, |t| - 3);
    DecimalIn(pre, t, []);
    assert pre + t + [] == s;
    NoDecimalBeforeComma(s, |high|);
    SearchFindsFirst(s, |pre|);
  }

  /** The balance line is searched with its thousands separator still in
      place, so a comma-grouped balance reads as the group after the
      comma: `high,low.cents` gives `low.cents`. */
  lemma CommaGroupedBalance(high: string, low: string, cents: string)
    requires |high| > 0 && AllDigits(high) && |low| > 0 && AllDigits(low)
    requires |cents| == 2 && AllDigits(cents)
    ensures BalanceOf(high + [','] + low + ['.'] + cents) == PointValue(low, cents)
  {
    CommaGroupedMatch(high, low, cents);
    ParseAmountPoint(low, cents);
  }

  /** The closing balance `45,412.18` is read as 412.18. */
  lemma CommaBalanceMisread()
    ensures BalanceOf("45,412.18") == 412.18
  {
    CommaGroupedBalance("45", "412", "18");
    assert "45,412.18" == "45" + [','] + "412" + ['.'] + "18";
    SampleDigits();
  }

  lemma SampleDigits()
    ensures PointValue("412", "18") == 412.18
  {
    assert "412"[..2] == "41" && "41"[..1] == "4" && "4"[..0] == "";
    assert DigitsValue("412") == 412;
    assert "18"[..1] == "1" && "1"[..0] == "";
    assert DigitsValue("18") == 18;
    assert Pow10(2) == 100;
  }

  /** One converted transaction. */
  datatype Record = Record(
    bankAccount: int,
    category: int,
    date: string,
    amount: real,
    kind: TxType,
    description: string,
    merchant: Option<string>,
    closing: real,
    notes: string)

  /** The record built from a description text, a converted date, the
      amount line and the balance line. */
  function MakeRecord(text: string, date: string, amountLine: string, balanceLine: string,
                      merchant: Option<string>): Record {
    var (amount, kind) := DetectAmount(amountLine);
    Record(DetectBankAccount(text), DetectCategory(text, kind), date, amount, kind,
           CleanDescription(text), merchant, BalanceOf(balanceLine), "Original: " + text)
  }

  /** Record `r` is the one read from date line `d` through amount line
      `a`, the first amount line after `d`. */
  ghost predicate Reads(r: Record, lines: seq<string>, d: nat, a: nat,
                        strptime: string -> Option<string>, merchantOf: string -> Option<string>) {
    d < a < |lines| && IsDateLine(lines[d]) && IsAmountLine(lines[a]) &&
    (forall j :: d < j < a ==> !IsAmountLine(lines[j])) &&
    strptime(DateText(lines, d)).Some? &&
    r == MakeRecord(BodyText(lines, d, a), strptime(DateText(lines, d)).value, lines[a],
                    BalanceLine(lines, a), merchantOf(BodyText(lines, d, a)))
  }

  lemma ReadsIntro(lines: seq<string>, d: nat, a: nat,
                   strptime: string -> Option<string>, merchantOf: string -> Option<string>)
    requires d < a < |lines| && IsDateLine(lines[d]) && IsAmountLine(lines[a])
    requires forall j :: d < j < a ==> !IsAmountLine(lines[j])
    requires strptime(DateText(lines, d)).Some?
    ensures Reads(MakeRecord(BodyText(lines, d, a), strptime(DateText(lines, d)).value, lines[a],
                    BalanceLine(lines, a), merchantOf(BodyText(lines, d, a))), lines, d, a, strptime, merchantOf)
  {
  }

  /** The inner loop's search: the first amount line at or after
      `start`, if there is one. */
  method ScanBody(lines: seq<string>, start: nat) returns (amountAt: Option<nat>)
    requires start <= |lines|
    ensures amountAt.Some? ==> start <= amountAt.value < |lines| && IsAmountLine(lines[amountAt.value])
    ensures forall j :: start <= j < (if amountAt.Some? then amountAt.value else |lines|) ==>
      !IsAmountLine(lines[j])
  {
    var i := start;
    while i < |lines|
      invariant start <= i <= |lines|
      invariant forall j :: start <= j < i ==> !IsAmountLine(lines[j])
    {
      if IsAmountLine(lines[i]) {
        return Some(i);
      }
      i := i + 1;
    }
    return None;
  }

  /** Some date line and amount line produced `r`. */
  ghost predicate ReadFrom(r: Record, lines: seq<string>,
                           strptime: string -> Option<string>, merchantOf: string -> Option<string>) {
    exists d, a :: Reads(r, lines, d, a, strptime, merchantOf)
  }

  /** Every record of `rs` was read from the lines. */
  ghost predicate AllRead(rs: seq<Record>, lines: seq<string>,
                          strptime: string -> Option<string>, merchantOf: string -> Option<string>) {
    forall k :: 0 <= k < |rs| ==> ReadFrom(rs[k], lines, strptime, merchantOf)
  }

  lemma AllReadCons(r: Record, rs: seq<Record>, lines: seq<string>, d: nat, a: nat,
                    strptime: string -> Option<string>, merchantOf: string -> Option<string>)
    requires Reads(r, lines, d, a, strptime, merchantOf) && AllRead(rs, lines, strptime, merchantOf)
    ensures AllRead([r] + rs, lines, strptime, merchantOf)
  {
    var t := [r] + rs;
    forall k | 0 <= k < |t|
      ensures ReadFrom(t[k], lines, strptime, merchantOf)
    {
      if k == 0 {
        assert Reads(t[k], lines, d, a, strptime, merchantOf);
      } else {
        ConsIndex(r, rs, k);
      }
    }
  }

  /** What the lines from one date line on give. */
  datatype Step =
    | Emitted(record: Record, amountAt: nat)   // a record, and its amount line
    | NoAmount                             // no amount line follows: the input ends
    | BadDate                              // the date text was rejected

  /** The body of the outer loop at date line `d`. */
  method ReadRecord(lines: seq<string>, d: nat, strptime: string -> Option<string>, merchantOf: string -> Option<string>)
    returns (step: Step)
    requires d < |lines| && IsDateLine(lines[d])
    ensures step.Emitted? ==> d < step.amountAt < |lines|
    ensures step.Emitted? ==> Reads(step.record, lines, d, step.amountAt, strptime, merchantOf)
    ensures step.NoAmount? <==> forall j :: d < j < |lines| ==> !IsAmountLine(lines[j])
    ensures step.BadDate? ==> strptime(DateText(lines, d)).None?
  {
    var line := lines[d];
    var amountAt := ScanBody(lines, d + 1);
    if amountAt.None? {
      return NoAmount;
    }
    var a := amountAt.value;
    var date := strptime(line[..11]);
    if date.None? {
      return BadDate;
    }
    var body := [Strip(line[11..])] + lines[d + 1..a];
    var text := Strip(Join(body, " "));
    ReadsIntro(lines, d, a, strptime, merchantOf);
    assert text == BodyText(lines, d, a);
    return Emitted(MakeRecord(text, date.value, lines[a], BalanceLine(lines, a), merchantOf(text)), a);
  }

  /** The message of the `ValueError` a rejected date raises. */
  const BadDateMessage: string := "time data does not match format '%d %b %Y'"

  /** The first date line at or after `i`. */
  function NextDateLine(lines: seq<string>, i: nat): (d: Option<nat>)
    requires i <= |lines|
    ensures d.Some? ==> i <= d.value < |lines| && IsDateLine(lines[d.value])
    ensures forall j :: i <= j < (if d.Some? then d.value else |lines|) ==> !IsDateLine(lines[j])
    decreases |lines| - i
  {
    if i == |lines| then None
    else if IsDateLine(lines[i]) then Some(i)
    else NextDateLine(lines, i + 1)
  }

  /** The first amount line at or after `i`. */
  function NextAmountLine(lines: seq<string>, i: nat): (a: Option<nat>)
    requires i <= |lines|
    ensures a.Some? ==> i <= a.value < |lines| && IsAmountLine(lines[a.value])
    ensures forall j :: i <= j < (if a.Some? then a.value else |lines|) ==> !IsAmountLine(lines[j])
    decreases |lines| - i
  {
    if i == |lines| then None
    else if IsAmountLine(lines[i]) then Some(i)
    else NextAmountLine(lines, i + 1)
  }

  /** `rec` in front of the records of a conversion that went on. */
  function Prepend(rec: Record, rest: Result<seq<Record>, string>): Result<seq<Record>, string> {
    if rest.Failure? then rest else Success([rec] + rest.value)
  }

  /** Where the outer loop resumes after the record whose amount line is
      `a`: past the balance line, or at the end of the input. */
  function Resume(lines: seq<string>, a: nat): (next: nat)
    requires a < |lines|
    ensures a < next <= |lines|
  {
    if a + 2 < |lines| then a + 2 else |lines|
  }

  /** The records `parse_transactions` emits from line `i` on, one record at
      a time from the next date line. */
  function RecordsFrom(lines: seq<string>, i: nat,
                       strptime: string -> Option<string>, merchantOf: string -> Option<string>)
    : Result<seq<Record>, string>
    requires i <= |lines|
    decreases |lines| - i, 1
  {
    match NextDateLine(lines, i)
    case None => Success([])
    case Some(d) => RecordsAt(lines, d, strptime, merchantOf)
  }

  /** The records emitted from date line `d` on: the first amount line after
      it, the record they make, and the records from the line after the
      balance line. Date lines between the two are part of the description.
      The conversion ends when no amount line follows, and fails when the
      date text is rejected. */
  function RecordsAt(lines: seq<string>, d: nat,
                     strptime: string -> Option<string>, merchantOf: string -> Option<string>)
    : Result<seq<Record>, string>
    requires d < |lines| && IsDateLine(lines[d])
    decreases |lines| - d, 0
  {
    match NextAmountLine(lines, d + 1)
    case None => Success([])
    case Some(a) =>
      var date := strptime(DateText(lines, d));
      if date.None? then Failure(BadDateMessage)
      else Prepend(RecordOf(lines, d, a, date.value, merchantOf),
                   RecordsFrom(lines, Resume(lines, a), strptime, merchantOf))
  }

  /** The record of date line `d` and amount line `a`, with its date
      converted to `date`. */
  function RecordOf(lines: seq<string>, d: nat, a: nat, date: string,
                    merchantOf: string -> Option<string>): Record
    requires d < a < |lines| && IsDateLine(lines[d])
  {
    var text := BodyText(lines, d, a);
    MakeRecord(text, date, lines[a], BalanceLine(lines, a), merchantOf(text))
  }

  /** `records` in front of the records of a conversion that went on. */
  function After(records: seq<Record>, rest: Result<seq<Record>, string>): Result<seq<Record>, string> {
    if rest.Failure? then rest else Success(records + rest.value)
  }

  /** A line that opens no record is skipped. */
  lemma RecordsSkip(lines: seq<string>, i: nat,
                    strptime: string -> Option<string>, merchantOf: string -> Option<string>)
    requires i < |lines| && !IsDateLine(lines[i])
    ensures RecordsFrom(lines, i, strptime, merchantOf) == RecordsFrom(lines, i + 1, strptime, merchantOf)
  {
    assert NextDateLine(lines, i) == NextDateLine(lines, i + 1);
  }

  /** A date line opens the next record. */
  lemma RecordsFromDate(lines: seq<string>, d: nat,
                        strptime: string -> Option<string>, merchantOf: string -> Option<string>)
    requires d < |lines| && IsDateLine(lines[d])
    ensures RecordsFrom(lines, d, strptime, merchantOf) == RecordsAt(lines, d, strptime, merchantOf)
  {
    assert NextDateLine(lines, d) == Some(d);
  }

  /** The first amount line is the only one with no amount line before it. */
  lemma FirstAmountLine(lines: seq<string>, i: nat, a: nat)
    requires i <= a < |lines| && IsAmountLine(lines[a])
    requires forall j :: i <= j < a ==> !IsAmountLine(lines[j])
    ensures NextAmountLine(lines, i) == Some(a)
  {
  }

  /** A date line with no amount line after it ends the conversion. */
  lemma RecordsAtNoAmount(lines: seq<string>, d: nat,
                          strptime: string -> Option<string>, merchantOf: string -> Option<string>)
    requires d < |lines| && IsDateLine(lines[d])
    requires forall j :: d < j < |lines| ==> !IsAmountLine(lines[j])
    ensures RecordsAt(lines, d, strptime, merchantOf) == Success([])
  {
  }

  /** A rejected date at a date line with an amount line after it fails
      the conversion. */
  lemma RecordsAtBadDate(lines: seq<string>, d: nat,
                         strptime: string -> Option<string>, merchantOf: string -> Option<string>)
    requires d < |lines| && IsDateLine(lines[d])
    requires exists j :: d < j < |lines| && IsAmountLine(lines[j])
    requires strptime(DateText(lines, d)).None?
    ensures RecordsAt(lines, d, strptime, merchantOf) == Failure(BadDateMessage)
  {
  }

  /** The record of a date line and its first amount line comes first. */
  lemma RecordsAtRead(lines: seq<string>, d: nat, a: nat, date: string,
                      strptime: string -> Option<string>, merchantOf: string -> Option<string>)
    requires d < a < |lines| && IsDateLine(lines[d]) && IsAmountLine(lines[a])
    requires forall j :: d < j < a ==> !IsAmountLine(lines[j])
    requires strptime(DateText(lines, d)) == Some(date)
    ensures RecordsAt(lines, d, strptime, merchantOf)
         == Prepend(RecordOf(lines, d, a, date, merchantOf),
                    RecordsFrom(lines, Resume(lines, a), strptime, merchantOf))
  {
    FirstAmountLine(lines, d + 1, a);
  }

  /** The loop's account of the records still to come, carried past a
      record read at date line `d`. */
  lemma EmitStep(lines: seq<string>, d: nat, a: nat, rec: Record, records: seq<Record>,
                 strptime: string -> Option<string>, merchantOf: string -> Option<string>)
    requires Reads(rec, lines, d, a, strptime, merchantOf)
    ensures After(records, RecordsFrom(lines, d, strptime, merchantOf))
         == After(records + [rec], RecordsFrom(lines, Resume(lines, a), strptime, merchantOf))
  {
    RecordsFromDate(lines, d, strptime, merchantOf);
    var date := strptime(DateText(lines, d)).value;
    assert rec == RecordOf(lines, d, a, date, merchantOf);
    RecordsAtRead(lines, d, a, date, strptime, merchantOf);
    AfterPrepend(records, rec, RecordsFrom(lines, Resume(lines, a), strptime, merchantOf));
  }

  lemma AfterNothing(rest: Result<seq<Record>, string>)
    ensures After([], rest) == rest
  {
    if rest.Success? {
      assert [] + rest.value == rest.value;
    }
  }

  lemma AfterPrepend(records: seq<Record>, rec: Record, rest: Result<seq<Record>, string>)
    ensures After(records + [rec], rest) == After(records, Prepend(rec, rest))
  {
    if rest.Success? {
      assert records + [rec] + rest.value == records + ([rec] + rest.value);
    }
  }

  /** Every record the conversion emits from line `i` on was read from a
      date line at or after `i` and its first amount line, there are no
      more of them than date lines, and a failure names a rejected date. */
  lemma {:induction false} RecordsFromSound(lines: seq<string>, i: nat,
                                            strptime: string -> Option<string>, merchantOf: string -> Option<string>)
    requires i <= |lines|
    ensures var r := RecordsFrom(lines, i, strptime, merchantOf);
      r.Success? ==> |r.value| + DateLines(lines, i) <= DateLines(lines, |lines|) && AllRead(r.value, lines, strptime, merchantOf)
    ensures var r := RecordsFrom(lines, i, strptime, merchantOf);
      r.Failure? ==> exists d :: i <= d < |lines| && IsDateLine(lines[d]) && strptime(DateText(lines, d)).None?
    decreases |lines| - i
  {
    DateLinesMonotone(lines, i, |lines|);
    match NextDateLine(lines, i)
    case None =>
    case Some(d) =>
      DateLinesMonotone(lines, i, d);
      match NextAmountLine(lines, d + 1)
      case None =>
      case Some(a) =>
        var date := strptime(DateText(lines, d));
        if date.Some? {
          var next := Resume(lines, a);
          RecordsFromSound(lines, next, strptime, merchantOf);
          DateLineCounts(lines, d, next);
          var rest := RecordsFrom(lines, next, strptime, merchantOf);
          if rest.Success? {
            var rec := RecordOf(lines, d, a, date.value, merchantOf);
            ReadsIntro(lines, d, a, strptime, merchantOf);
            assert Reads(rec, lines, d, a, strptime, merchantOf);
            AllReadCons(rec, rest.value, lines, d, a, strptime, merchantOf);
          }
        }
  }

  /** The outer loop of `parse_transactions` over the stripped lines: it
      emits exactly the records of `RecordsFrom`, each read from a date
      line and its first amount line. */
  method ParseLines(lines: seq<string>, strptime: string -> Option<string>, merchantOf: string -> Option<string>)
    returns (r: Result<seq<Record>, string>)
    ensures r == RecordsFrom(lines, 0, strptime, merchantOf)
    ensures r.Success? ==> |r.value| <= DateLines(lines, |lines|)
    ensures r.Success? ==> forall k :: 0 <= k < |r.value| ==> ReadFrom(r.value[k], lines, strptime, merchantOf)
    ensures r.Failure? ==> exists d :: (0 <= d < |lines| && IsDateLine(lines[d]) &&
      strptime(DateText(lines, d)).None?)
  {
    var records: seq<Record> := [];
    var i := 0;
    AfterNothing(RecordsFrom(lines, 0, strptime, merchantOf));
    while i < |lines|
      invariant i <= |lines|
      invariant After(records, RecordsFrom(lines, i, strptime, merchantOf)) == RecordsFrom(lines, 0, strptime, merchantOf)
    {
      if IsDateLine(lines[i]) {
        var step := ReadRecord(lines, i, strptime, merchantOf);
        match step
        case BadDate =>
          RecordsFromDate(lines, i, strptime, merchantOf);
          RecordsAtBadDate(lines, i, strptime, merchantOf);
          RecordsFromSound(lines, 0, strptime, merchantOf);
          return Failure(BadDateMessage);
        case NoAmount =>
          RecordsFromDate(lines, i, strptime, merchantOf);
          RecordsAtNoAmount(lines, i, strptime, merchantOf);
          i := |lines|;
        case Emitted(rec, a) =>
          EmitStep(lines, i, a, rec, records, strptime, merchantOf);
          records := records + [rec];
          i := Resume(lines, a);
      } else {
        RecordsSkip(lines, i, strptime, merchantOf);
        i := i + 1;
      }
    }
    assert records + [] == records;
    RecordsFromSound(lines, 0, strptime, merchantOf);
    return Success(records);
  }

  /** `parse_transactions`. A record is emitted only when an amount line
      follows its date line; a date the `strptime` parameter rejects
      aborts the whole conversion, as the raised `ValueError` does. */
  method ParseTransactions(raw: string, strptime: string -> Option<string>, merchantOf: string -> Option<string>)
    returns (r: Result<seq<Record>, string>)
    ensures r == RecordsFrom(Lines(raw), 0, strptime, merchantOf)
    ensures r.Success? ==> |r.value| <= DateLines(Lines(raw), |Lines(raw)|)
    ensures r.Success? ==> forall k :: 0 <= k < |r.value| ==> ReadFrom(r.value[k], Lines(raw), strptime, merchantOf)
    ensures r.Failure? ==> exists d :: (0 <= d < |Lines(raw)| && IsDateLine(Lines(raw)[d]) &&
      strptime(DateText(Lines(raw), d)).None?)
  {
    r := ParseLines(Lines(raw), strptime, merchantOf);
  }
}

=== FILE: stats.dfy ===
/** The statistical helpers of the analysis engine (`calculateAverage`,
    `calculateStandardDeviation`) over exact reals. Square roots never
    appear: every comparison against a standard deviation is stated on the
    variance, and the lemmas below show the squared forms agree with the
    comparison against any non-negative square root of the variance. */
module Stats {

  function Sum(xs: seq<real>): real {
    if |xs| == 0 then 0.0 else xs[0] + Sum(xs[1..])
  }

  lemma {:induction false} SumAppend(a: seq<real>, b: seq<real>)
    ensures Sum(a + b) == Sum(a) + Sum(b)
  {
    if |a| > 0 {
      assert (a + b)[1..] == a[1..] + b;
      SumAppend(a[1..], b);
    } else {
      assert a + b == b;
    }
  }

  /** `calculateAverage`: the arithmetic mean. Every caller in the engine
      passes a non-empty list. */
  function Mean(xs: seq<real>): (m: real)
    requires |xs| > 0
    ensures m * (|xs| as real) == Sum(xs)
  {
    Sum(xs) / (|xs| as real)
  }

  lemma SquareNonNegative(a: real)
    ensures a * a >= 0.0
  {
    if a < 0.0 {
      assert a * a == (-a) * (-a);
    }
  }

  lemma ProductPositive(a: real, b: real)
    requires a > 0.0 && b > 0.0
    ensures a * b > 0.0
  {
  }

  lemma ProductNonNegative(a: real, b: real)
    requires a >= 0.0 && b >= 0.0
    ensures a * b >= 0.0
  {
  }

  /** Sum of squared deviations from `m`. */
  function SquaredDeviations(xs: seq<real>, m: real): (r: real)
    ensures r >= 0.0
  {
    if |xs| == 0 then 0.0
    else
      SquareNonNegative(xs[0] - m);
      (xs[0] - m) * (xs[0] - m) + SquaredDeviations(xs[1..], m)
  }

  /** The population variance (division by N, not N - 1): the square of
      `calculateStandardDeviation`. */
  function Variance(xs: seq<real>, m: real): (v: real)
    requires |xs| > 0
    ensures v >= 0.0
    ensures v * (|xs| as real) == SquaredDeviations(xs, m)
  {
    SquaredDeviations(xs, m) / (|xs| as real)
  }

  /** `sd` is a standard deviation belonging to variance `v`. */
  ghost predicate IsRootOf(sd: real, v: real) {
    sd >= 0.0 && sd * sd == v
  }

  /** `x > m + 2 * sqrt(v)`, stated without the square root. */
  predicate AboveTwoSigma(x: real, m: real, v: real) {
    x - m > 0.0 && (x - m) * (x - m) > 4.0 * v
  }

  /** Squaring is strictly monotone on the non-negative reals. */
  lemma SquareMonotone(a: real, b: real)
    requires 0.0 <= a
    requires 0.0 <= b
    ensures a < b <==> a * a < b * b
  {
    if a < b {
      assert b * b - a * a == (b - a) * (b + a);
      ProductPositive(b - a, b + a);
    } else {
      assert a * a - b * b == (a - b) * (a + b);
      ProductNonNegative(a - b, a + b);
    }
  }

  lemma AboveTwoSigmaMeansAboveThreshold(x: real, m: real, v: real, sd: real)
    requires IsRootOf(sd, v)
    ensures AboveTwoSigma(x, m, v) <==> x > m + 2.0 * sd
  {
    var d := x - m;
    var t := 2.0 * sd;
    assert 4.0 * v == t * t;
    if d > 0.0 {
      SquareMonotone(t, d);
    }
  }

  /** `sqrt(v) / m < 0.2` (the coefficient-of-variation test) with the
      JavaScript outcomes of a zero mean: 0/0 is NaN and sd/0 is +Infinity,
      and neither is below 0.2. A negative mean makes the quotient
      non-positive, hence below 0.2. */
  predicate LowVariation(m: real, v: real) {
    m < 0.0 || (m > 0.0 && v < 0.04 * m * m)
  }

  lemma LowVariationMeansSmallRatio(m: real, v: real, sd: real)
    requires IsRootOf(sd, v)
    requires m != 0.0
    ensures LowVariation(m, v) <==> sd / m < 0.2
  {
    if m > 0.0 {
      var t := 0.2 * m;
      // sd / m < 0.2 <==> sd < t, and sd * sd < t * t <==> sd < t for sd, t >= 0
      assert sd / m < 0.2 <==> sd < t;
      assert 0.04 * m * m == t * t;
      SquareMonotone(sd, t);
    } else {
      assert sd / m <= 0.0;
    }
  }

  /** The smallest value of a list is never above the list's mean. */
  lemma {:induction false} SumAtLeast(xs: seq<real>, lo: real)
    requires forall i :: 0 <= i < |xs| ==> lo <= xs[i]
    ensures Sum(xs) >= lo * (|xs| as real)
  {
    if |xs| > 0 {
      SumAtLeast(xs[1..], lo);
    }
  }

  lemma MinimumAtMostMean(xs: seq<real>, k: int)
    requires 0 <= k < |xs|
    requires forall i :: 0 <= i < |xs| ==> xs[k] <= xs[i]
    ensures xs[k] <= Mean(xs)
  {
    SumAtLeast(xs, xs[k]);
  }

  /** A constant list has that constant as its mean and zero variance. */
  lemma {:induction false} ConstantSum(xs: seq<real>, c: real)
    requires forall i :: 0 <= i < |xs| ==> xs[i] == c
    ensures Sum(xs) == c * (|xs| as real)
    ensures SquaredDeviations(xs, c) == 0.0
  {
    if |xs| > 0 {
      ConstantSum(xs[1..], c);
    }
  }

  lemma ConstantStatistics(xs: seq<real>, c: real)
    requires |xs| > 0
    requires forall i :: 0 <= i < |xs| ==> xs[i] == c
    ensures Mean(xs) == c
    ensures Variance(xs, Mean(xs)) == 0.0
  {
    ConstantSum(xs, c);
  }

  /** A sum of non-negative values is non-negative. */
  lemma SumNonNegative(xs: seq<real>)
    requires forall i :: 0 <= i < |xs| ==> xs[i] >= 0.0
    ensures Sum(xs) >= 0.0
  {
    SumAtLeast(xs, 0.0);
  }
}

=== FILE: text.dfy ===
/** Character and string helpers with Python's `str` semantics where the
    statement parser relies on them: `isspace`, `split()`, `' '.join`,
    `strip()`, `split('\n')`, `upper()`, and the substring test `in`. Case
    mapping covers ASCII letters only. */
module Text {

  /** The characters `str.isspace` (and the regex class `\s`) accept. */
  predicate IsSpace(c: char) {
    var n := c as int;
    || (9 <= n <= 13) || (28 <= n <= 32) || n == 0x85 || n == 0xA0 || n == 0x1680
    || (0x2000 <= n <= 0x200A) || n == 0x2028 || n == 0x2029 || n == 0x202F
    || n == 0x205F || n == 0x3000
  }

  predicate IsDigit(c: char) {
    '0' <= c <= '9'
  }

  function UpperChar(c: char): char {
    if 'a' <= c <= 'z' then (c as int - 'a' as int + 'A' as int) as char else c
  }

  function LowerChar(c: char): char {
    if 'A' <= c <= 'Z' then (c as int - 'A' as int + 'a' as int) as char else c
  }

  /** `s.upper()` on ASCII letters. */
  function Upper(s: string): (r: string)
    ensures |r| == |s|
    ensures forall i :: 0 <= i < |s| ==> r[i] == UpperChar(s[i])
  {
    seq(|s|, i requires 0 <= i < |s| => UpperChar(s[i]))
  }

  /** `s.toLowerCase()` / `s.lower()` on ASCII letters. */
  function Lower(s: string): (r: string)
    ensures |r| == |s|
    ensures forall i :: 0 <= i < |s| ==> r[i] == LowerChar(s[i])
  {
    seq(|s|, i requires 0 <= i < |s| => LowerChar(s[i]))
  }

  lemma UpperIdempotent(s: string)
    ensures Upper(Upper(s)) == Upper(s)
  {
  }

  /** `sub in s`. */
  predicate Contains(s: string, sub: string)
    decreases |s|
  {
    |sub| <= |s| && (s[..|sub|] == sub || Contains(s[1..], sub))
  }

  /** `sub in s` holds exactly when `sub` occurs at some position. */
  lemma {:induction false} ContainsAt(s: string, sub: string)
    ensures Contains(s, sub) <==> exists i :: 0 <= i <= |s| - |sub| && s[i..][..|sub|] == sub
    decreases |s|
  {
    if |sub| <= |s| && s[..|sub|] != sub && |s| > 0 {
      ContainsAt(s[1..], sub);
      if exists i :: 0 <= i <= |s| - |sub| && s[i..][..|sub|] == sub {
        var i :| 0 <= i <= |s| - |sub| && s[i..][..|sub|] == sub;
        assert i > 0;
        assert s[1..][i - 1..] == s[i..];
      }
      if exists i :: 0 <= i <= |s[1..]| - |sub| && s[1..][i..][..|sub|] == sub {
        var i :| 0 <= i <= |s[1..]| - |sub| && s[1..][i..][..|sub|] == sub;
        assert s[1..][i..] == s[i + 1..];
      }
    } else if |sub| <= |s| && s[..|sub|] == sub {
      assert s[0..] == s;
    }
  }

  /** Length of the maximal run of non-space characters at the start. */
  function WordLength(s: string): (n: nat)
    ensures n <= |s|
    ensures forall i :: 0 <= i < n ==> !IsSpace(s[i])
    ensures n < |s| ==> IsSpace(s[n])
  {
    if |s| == 0 || IsSpace(s[0]) then 0 else 1 + WordLength(s[1..])
  }

  predicate IsWord(w: string) {
    |w| > 0 && forall i :: 0 <= i < |w| ==> !IsSpace(w[i])
  }

  /** `s.split()`: the maximal runs of non-space characters. */
  function Split(s: string): (ws: seq<string>)
    ensures forall k :: 0 <= k < |ws| ==> IsWord(ws[k])
    decreases |s|
  {
    if |s| == 0 then []
    else if IsSpace(s[0]) then Split(s[1..])
    else
      var n := WordLength(s);
      [s[..n]] + Split(s[n..])
  }

  /** `sep.join(ws)`. */
  function Join(ws: seq<string>, sep: string): string {
    if |ws| == 0 then ""
    else if |ws| == 1 then ws[0]
    else ws[0] + sep + Join(ws[1..], sep)
  }

  lemma {:induction false} WordLengthOfWord(w: string, t: string)
    requires forall i :: 0 <= i < |w| ==> !IsSpace(w[i])
    requires |t| == 0 || IsSpace(t[0])
    ensures WordLength(w + t) == |w|
  {
    if |w| > 0 {
      assert (w + t)[1..] == w[1..] + t;
      WordLengthOfWord(w[1..], t);
    } else {
      assert w + t == t;
    }
  }

  /** Splitting undoes joining with one space. */
  lemma {:induction false} SplitJoin(ws: seq<string>)
    requires forall k :: 0 <= k < |ws| ==> IsWord(ws[k])
    ensures Split(Join(ws, " ")) == ws
  {
    if |ws| == 1 {
      var w := ws[0];
      WordLengthOfWord(w, "");
      assert w + "" == w;
      assert w[|w|..] == "";
      assert w[..|w|] == w;
    } else if |ws| > 1 {
      var w := ws[0];
      var rest := Join(ws[1..], " ");
      var s := w + " " + rest;
      assert s == w + (" " + rest);
      WordLengthOfWord(w, " " + rest);
      assert s[..|w|] == w;
      assert s[|w|..] == " " + rest;
      assert (" " + rest)[1..] == rest;
      SplitJoin(ws[1..]);
      assert ws == [w] + ws[1..];
    }
  }

  /** `' '.join(s.split())`: whitespace runs collapsed to one space, ends
      trimmed. */
  function Collapse(s: string): string {
    Join(Split(s), " ")
  }

  lemma CollapseIdempotent(s: string)
    ensures Collapse(Collapse(s)) == Collapse(s)
  {
    SplitJoin(Split(s));
  }

  /** A collapsed text: the only whitespace is single spaces between
      non-space characters. */
  ghost predicate Normal(t: string) {
    forall i :: 0 <= i < |t| && IsSpace(t[i]) ==>
      t[i] == ' ' && 0 < i < |t| - 1 && !IsSpace(t[i - 1]) && !IsSpace(t[i + 1])
  }

  lemma {:induction false} JoinNormal(ws: seq<string>)
    requires forall k :: 0 <= k < |ws| ==> IsWord(ws[k])
    ensures Normal(Join(ws, " "))
    ensures |ws| > 0 ==> |Join(ws, " ")| > 0 && !IsSpace(Join(ws, " ")[0])
    ensures |ws| > 0 ==> !IsSpace(Join(ws, " ")[|Join(ws, " ")| - 1])
  {
    if |ws| > 1 {
      var w := ws[0];
      var rest := Join(ws[1..], " ");
      JoinNormal(ws[1..]);
      var t := w + " " + rest;
      forall i | 0 <= i < |t| && IsSpace(t[i])
        ensures t[i] == ' ' && 0 < i < |t| - 1 && !IsSpace(t[i - 1]) && !IsSpace(t[i + 1])
      {
        if i > |w| {
          assert t[i] == rest[i - |w| - 1];
        }
      }
    }
  }

  /** A collapsed text is left alone by collapsing. */
  lemma {:induction false} NormalFixed(t: string)
    requires Normal(t)
    ensures Collapse(t) == t
    decreases |t|
  {
    if |t| > 0 {
      assert !IsSpace(t[0]);
      var n := WordLength(t);
      if n == |t| {
        assert t[n..] == "";
        assert t[..n] == t;
        assert Split(t) == [t[..n]] + Split(t[n..]);
      } else {
        var u := t[n + 1..];
        NormalAfterWord(t, n);
        NormalFixed(u);
        CollapseAfterWord(t, n);
      }
    }
  }

  /** What follows the first word of a collapsed text and its space is
      collapsed again. */
  lemma NormalAfterWord(t: string, n: nat)
    requires Normal(t) && |t| > 0 && n == WordLength(t) && n < |t|
    ensures t[n] == ' ' && |t[n + 1..]| > 0 && Normal(t[n + 1..]) && !IsSpace(t[n + 1])
  {
    var u := t[n + 1..];
    forall i | 0 <= i < |u| && IsSpace(u[i])
      ensures u[i] == ' ' && 0 < i < |u| - 1 && !IsSpace(u[i - 1]) && !IsSpace(u[i + 1])
    {
      assert u[i] == t[n + 1 + i];
    }
  }

  /** Collapsing a collapsed text keeps its first word and its space in
      front of what collapsing the rest gives. */
  lemma CollapseAfterWord(t: string, n: nat)
    requires |t| > 0 && !IsSpace(t[0]) && n == WordLength(t) && n + 1 < |t|
    requires t[n] == ' ' && !IsSpace(t[n + 1])
    requires Collapse(t[n + 1..]) == t[n + 1..]
    ensures Collapse(t) == t
  {
    var u := t[n + 1..];
    SplitAfterWord(t, n);
    JoinCons(t[..n], Split(u), " ");
    SplitAround(t, n);
  }

  lemma JoinCons(w: string, ws: seq<string>, sep: string)
    requires |ws| > 0
    ensures Join([w] + ws, sep) == w + sep + Join(ws, sep)
  {
    assert ([w] + ws)[1..] == ws;
  }

  /** A text is what comes before position `n`, the character there and
      what comes after. */
  lemma SplitAround(t: string, n: nat)
    requires n < |t|
    ensures t == t[..n] + [t[n]] + t[n + 1..]
  {
  }

  /** Splitting a text that opens with a word and a single space in front
      of more words. */
  lemma SplitAfterWord(t: string, n: nat)
    requires |t| > 0 && !IsSpace(t[0]) && n == WordLength(t) && n + 1 < |t|
    requires t[n] == ' ' && !IsSpace(t[n + 1])
    ensures Split(t) == [t[..n]] + Split(t[n + 1..])
    ensures |Split(t[n + 1..])| > 0
  {
    var u := t[n + 1..];
    assert t[n..][1..] == u;
    assert Split(u) == [u[..WordLength(u)]] + Split(u[WordLength(u)..]);
  }

  lemma CollapseIsNormal(s: string)
    ensures Normal(Collapse(s))
  {
    JoinNormal(Split(s));
  }

  function StripStart(s: string): (r: string)
    ensures |r| == 0 || !IsSpace(r[0])
    ensures |r| <= |s| && r == s[|s| - |r|..]
  {
    if |s| > 0 && IsSpace(s[0]) then StripStart(s[1..]) else s
  }

  function StripEnd(s: string): (r: string)
    ensures |r| == 0 || !IsSpace(r[|r| - 1])
    ensures |r| <= |s| && r == s[..|r|]
  {
    if |s| > 0 && IsSpace(s[|s| - 1]) then StripEnd(s[..|s| - 1]) else s
  }

  /** `s.strip()`. */
  function Strip(s: string): (r: string)
    ensures |r| == 0 || (!IsSpace(r[0]) && !IsSpace(r[|r| - 1]))
    ensures |r| <= |s|
  {
    StripEnd(StripStart(s))
  }

  /** `s.split(c)`: the pieces between occurrences of `c`; never empty. */
  function SplitOn(s: string, c: char): (ps: seq<string>)
    ensures |ps| > 0
    ensures forall k :: 0 <= k < |ps| ==> c !in ps[k]
  {
    if |s| == 0 then [""]
    else
      var rest := SplitOn(s[1..], c);
      if s[0] == c then [""] + rest else [[s[0]] + rest[0]] + rest[1..]
  }

  /** Joining the pieces with `c` gives back the text. */
  lemma {:induction false} SplitOnJoin(s: string, c: char)
    ensures Join(SplitOn(s, c), [c]) == s
  {
    if |s| > 0 {
      var rest := SplitOn(s[1..], c);
      SplitOnJoin(s[1..], c);
      if s[0] == c {
        assert s == [c] + s[1..];
      } else {
        var ps := [[s[0]] + rest[0]] + rest[1..];
        if |rest| == 1 {
          assert s == [s[0]] + s[1..];
        } else {
          assert ps[1..] == rest[1..];
          assert Join(rest, [c]) == rest[0] + [c] + Join(rest[1..], [c]);
          assert s == [s[0]] + s[1..];
        }
      }
    }
  }

  /** `s.replace(c, '')`. */
  function RemoveChar(s: string, c: char): (r: string)
    ensures c !in r
    ensures |r| <= |s|
  {
    if |s| == 0 then ""
    else (if s[0] == c then "" else [s[0]]) + RemoveChar(s[1..], c)
  }

  lemma {:induction false} RemoveCharKeepsOthers(s: string, c: char)
    requires c !in s
    ensures RemoveChar(s, c) == s
  {
    if |s| > 0 {
      RemoveCharKeepsOthers(s[1..], c);
    }
  }

  /** Removing `c` keeps every other character. */
  lemma {:induction false} RemoveCharKeepsChar(s: string, c: char, d: char)
    requires d in s && d != c
    ensures d in RemoveChar(s, c)
  {
    if s[0] != d {
      assert d in s[1..];
      RemoveCharKeepsChar(s[1..], c, d);
    }
  }
}

=== FILE: transaction_post.dfy ===
/** The `POST` handler of the transactions route as one state transition of
    the database: look up the account, insert the transaction with the
    account's new balance as its closing balance, move the account balance,
    and credit the house savings goal when the notes mention a house. The
    database is the part of it the handler touches. */
module TransactionPost {
  import opened Wrappers
  import opened Text
  import opened Ledger
  import FixBalances

  datatype Goal = Goal(name: string, currentAmount: real)

  /** The request body. */
  datatype Request = Request(
    account: int, category: int, date: string, amount: real, kind: RowType,
    description: string, merchant: Option<string>, notes: Option<string>)

  /** An inserted `transactions` row. */
  datatype Stored = Stored(id: int, request: Request, closing: real)

  datatype Db = Db(balances: map<int, real>, transactions: seq<Stored>, goals: seq<Goal>, nextId: int)

  /** Status 201 with the inserted row, or status 500 after a rollback. */
  datatype Response = Created(row: Stored) | ServerError

  const HouseGoal: string := "House Down Payment"

  /** `notes && notes.toLowerCase().includes('house')`. */
  predicate MentionsHouse(notes: Option<string>) {
    notes.Some? && |notes.value| > 0 && Contains(Lower(notes.value), "house")
  }

  /** `UPDATE savings_goals SET current_amount = current_amount + $1 WHERE
      name = 'House Down Payment'`. */
  function CreditHouseGoals(goals: seq<Goal>, amount: real): (gs: seq<Goal>)
    ensures |gs| == |goals|
    ensures forall i :: 0 <= i < |goals| ==> gs[i].name == goals[i].name
    ensures forall i :: 0 <= i < |goals| ==>
      gs[i].currentAmount == goals[i].currentAmount + (if goals[i].name == HouseGoal then amount else 0.0)
  {
    seq(|goals|, i requires 0 <= i < |goals| =>
      if goals[i].name == HouseGoal then Goal(goals[i].name, goals[i].currentAmount + amount) else goals[i])
  }

  /** Two credits of the house goals add up to one credit of their sum, so
      the house goal holds the total of every house-mentioning post. */
  lemma CreditsAdd(goals: seq<Goal>, x: real, y: real)
    ensures CreditHouseGoals(CreditHouseGoals(goals, x), y) == CreditHouseGoals(goals, x + y)
  {
    var a := CreditHouseGoals(CreditHouseGoals(goals, x), y);
    var b := CreditHouseGoals(goals, x + y);
    assert forall i :: 0 <= i < |goals| ==> a[i] == b[i];
  }

  function Post(db: Db, req: Request): (out: (Db, Response))
    ensures out.1.ServerError? <==> req.account !in db.balances
    ensures out.1.ServerError? ==> out.0 == db
    ensures out.1.Created? ==>
      var balance := db.balances[req.account];
      var newBalance := if req.kind == IncomeRow then balance + req.amount else balance - req.amount;
      && out.0.balances == db.balances[req.account := newBalance]
      && out.1.row == Stored(db.nextId, req, newBalance)
      && out.0.transactions == db.transactions + [out.1.row]
      && out.0.nextId == db.nextId + 1
      && (MentionsHouse(req.notes) ==> out.0.goals == CreditHouseGoals(db.goals, req.amount))
      && (!MentionsHouse(req.notes) ==> out.0.goals == db.goals)
  {
    if req.account !in db.balances then (db, ServerError)
    else
      var newBalance := Apply(db.balances[req.account], Row(db.nextId, req.account, req.amount, req.kind, None));
      var row := Stored(db.nextId, req, newBalance);
      var goals := if MentionsHouse(req.notes) then CreditHouseGoals(db.goals, req.amount) else db.goals;
      (Db(db.balances[req.account := newBalance], db.transactions + [row], goals, db.nextId + 1), Created(row))
  }

  /** Only the addressed account moves, and its new balance is the closing
      balance of the inserted row. */
  lemma OnlyAddressedAccountMoves(db: Db, req: Request, a: int)
    requires Post(db, req).1.Created?
    requires a != req.account
    ensures (a in Post(db, req).0.balances <==> a in db.balances)
    ensures a in db.balances ==> Post(db, req).0.balances[a] == db.balances[a]
    ensures Post(db, req).0.balances[req.account] == Post(db, req).1.row.closing
  {
  }

  /** Posting an income and then an expense of the same amount to the same
      account restores its balance. */
  lemma IncomeThenExpenseRestores(db: Db, req: Request)
    requires req.account in db.balances
    requires req.kind == IncomeRow
    ensures var db1 := Post(db, req).0;
      Post(db1, req.(kind := ExpenseRow)).0.balances == db.balances
  {
    var db1 := Post(db, req).0;
    var b := db.balances[req.account];
    assert db1.balances[req.account] == b + req.amount;
    assert db1.balances[req.account := b] == db.balances;
  }

  /** The ledger view of the stored rows. */
  function Rows(ts: seq<Stored>): (rs: seq<Row>)
    ensures |rs| == |ts|
    ensures forall k :: 0 <= k < |ts| ==>
      rs[k] == Row(ts[k].id, ts[k].request.account, ts[k].request.amount, ts[k].request.kind, Some(ts[k].closing))
  {
    seq(|ts|, k requires 0 <= k < |ts| =>
      Row(ts[k].id, ts[k].request.account, ts[k].request.amount, ts[k].request.kind, Some(ts[k].closing)))
  }

  /** Every stored closing balance of account `a` is the one the repair
      script would compute from the account's current balance, the rows being
      in insertion order. */
  ghost predicate Consistent(db: Db, a: int) {
    a in db.balances &&
    var rows := OfAccount(Rows(db.transactions), a);
    forall k :: 0 <= k < |rows| ==>
      rows[k].closing == Some(FixBalances.ExpectedClosings(rows, db.balances[a])[k])
  }

  /** Appending a row whose closing balance is the moved balance keeps the
      stored closings equal to the expected ones. */
  lemma AppendKeepsExpected(rows: seq<Row>, r: Row, b: real)
    requires forall k :: 0 <= k < |rows| ==> rows[k].closing == Some(FixBalances.ExpectedClosings(rows, b)[k])
    requires r.closing == Some(b + Signed(r))
    ensures var rows' := rows + [r];
      forall k :: 0 <= k < |rows'| ==>
        rows'[k].closing == Some(FixBalances.ExpectedClosings(rows', b + Signed(r))[k])
  {
    var rows' := rows + [r];
    var b' := b + Signed(r);
    forall k | 0 <= k < |rows'|
      ensures rows'[k].closing == Some(FixBalances.ExpectedClosings(rows', b')[k])
    {
      if k < |rows| {
        assert rows'[k + 1..] == rows[k + 1..] + [r];
        SumSignedAppend(rows[k + 1..], [r]);
        assert SumSigned([r]) == Signed(r);
      } else {
        assert rows'[k + 1..] == [];
      }
    }
  }

  /** A successful post keeps every consistent account consistent: the new
      row's closing balance is the new current balance, and every older
      closing balance of the account stays what the repair script expects. */
  lemma PostKeepsLedgerConsistent(db: Db, req: Request, a: int)
    requires Consistent(db, a)
    requires req.account in db.balances
    ensures Consistent(Post(db, req).0, a)
  {
    var db1 := Post(db, req).0;
    var row := Post(db, req).1.row;
    var rs := Rows(db.transactions);
    var rs1 := Rows(db1.transactions);
    var r := Row(row.id, req.account, req.amount, req.kind, Some(row.closing));
    assert rs1[..|rs1| - 1] == rs;
    assert rs1[|rs1| - 1] == r;
    if a == req.account {
      assert OfAccount(rs1, a) == OfAccount(rs, a) + [r];
      AppendKeepsExpected(OfAccount(rs, a), r, db.balances[a]);
    } else {
      assert OfAccount(rs1, a) == OfAccount(rs, a);
    }
  }
}

=== FILE: verify_balances.dfy ===
/** `verifyTransactionBalances`: per account, seed a running balance from the
    first row's stored closing balance, replay the rows, and report every row
    whose stored closing balance is more than the tolerance away from the
    replayed one, plus one final entry when the replay does not end at the
    account's current balance. */
module VerifyBalances {
  import opened Wrappers
  import opened Seqs
  import opened Ledger

  /** `Math.abs(a - b) > 0.01`, false whenever either side is NaN. */
  predicate Exceeds(a: Option<real>, b: Option<real>) {
    a.Some? && b.Some? && Abs(a.value - b.value) > Tolerance
  }

  /** One entry of `discrepancies`. */
  datatype Discrepancy =
    | RowMismatch(id: int, account: int, stored: real, calculated: real)
    | FinalMismatch(account: int, stored: real, calculated: real)

  /** The running balance before the first row: its stored closing balance
      with its own amount undone. */
  function Seed(rows: seq<Row>): Option<real>
    requires |rows| > 0
  {
    Plus(rows[0].closing, -Signed(rows[0]))
  }

  /** Reference value of the calculated closing balance of row `i`: the
      seed plus the net change of rows `0..i`. */
  function Calculated(rows: seq<Row>, i: int): Option<real>
    requires 0 <= i < |rows|
  {
    Plus(Seed(rows), SumSigned(rows[..i + 1]))
  }

  predicate RowFlagged(rows: seq<Row>, i: int)
    requires 0 <= i < |rows|
  {
    Exceeds(Calculated(rows, i), rows[i].closing)
  }

  /** The row entries for the first `n` rows of one account. */
  function RowReports(rows: seq<Row>, account: int, n: int): (ds: seq<Discrepancy>)
    requires 0 <= n <= |rows|
    ensures |ds| <= n
    ensures forall d :: d in ds <==>
      exists i :: 0 <= i < n && RowFlagged(rows, i) &&
        d == RowMismatch(rows[i].id, account, rows[i].closing.value, Calculated(rows, i).value)
    ensures forall d :: d in ds ==> d.RowMismatch?
  {
    if n == 0 then []
    else
      RowReports(rows, account, n - 1)
      + (if RowFlagged(rows, n - 1)
         then [RowMismatch(rows[n - 1].id, account, rows[n - 1].closing.value, Calculated(rows, n - 1).value)]
         else [])
  }

  lemma {:induction false} Unflagged(rows: seq<Row>, account: int, n: int)
    requires 0 <= n <= |rows|
    requires forall i :: 0 <= i < n ==> !RowFlagged(rows, i)
    ensures RowReports(rows, account, n) == []
  {
    if n > 0 {
      Unflagged(rows, account, n - 1);
    }
  }

  /** The entries of one account: its row entries, then the final check. */
  function AccountReport(rows: seq<Row>, account: int, balance: Option<real>): (ds: seq<Discrepancy>)
    requires |rows| > 0
  {
    var last := Calculated(rows, |rows| - 1);
    RowReports(rows, account, |rows|)
    + (if Exceeds(last, balance) then [FinalMismatch(account, balance.value, last.value)] else [])
  }

  /** The replay for one account. */
  method VerifyAccount(rows: seq<Row>, account: int, balance: Option<real>) returns (ds: seq<Discrepancy>)
    requires |rows| > 0
    ensures ds == AccountReport(rows, account, balance)
  {
    var running: Option<real> := Seed(rows);
    ds := [];
    var i := 0;
    while i < |rows|
      invariant 0 <= i <= |rows|
      invariant running == Plus(Seed(rows), SumSigned(rows[..i]))
      invariant ds == RowReports(rows, account, i)
    {
      SumSignedAppend(rows[..i], [rows[i]]);
      PrefixSnoc(rows, i);
      assert SumSigned([rows[i]]) == Signed(rows[i]);
      var calculated := Plus(running, Signed(rows[i]));
      var stored := rows[i].closing;
      if Exceeds(calculated, stored) {
        ds := ds + [RowMismatch(rows[i].id, account, stored.value, calculated.value)];
      }
      running := calculated;
      i := i + 1;
    }
    if Exceeds(running, balance) {
      ds := ds + [FinalMismatch(account, balance.value, running.value)];
    }
  }

  /** The `account_current_balance` joined onto an account's rows: NaN when
      the account does not exist. */
  function CurrentBalance(balances: map<int, real>, account: int): Option<real> {
    if account in balances then Some(balances[account]) else None
  }

  /** All entries, accounts in group order. */
  function Reports(gs: seq<AccountRows>, balances: map<int, real>): seq<Discrepancy>
    requires forall i :: 0 <= i < |gs| ==> |gs[i].rows| > 0
  {
    if |gs| == 0 then []
    else
      AccountReport(gs[0].rows, gs[0].account, CurrentBalance(balances, gs[0].account))
      + Reports(gs[1..], balances)
  }

  lemma {:induction false} ReportsAppend(gs: seq<AccountRows>, g: AccountRows, balances: map<int, real>)
    requires forall i :: 0 <= i < |gs| ==> |gs[i].rows| > 0
    requires |g.rows| > 0
    ensures Reports(gs + [g], balances) == Reports(gs, balances) + Reports([g], balances)
  {
    if |gs| > 0 {
      assert (gs + [g])[1..] == gs[1..] + [g];
      ReportsAppend(gs[1..], g, balances);
    } else {
      assert gs + [g] == [g];
    }
  }

  lemma {:induction false} RowCountAppend(gs: seq<AccountRows>, g: AccountRows)
    ensures RowCount(gs + [g]) == RowCount(gs) + |g.rows|
  {
    if |gs| > 0 {
      assert (gs + [g])[1..] == gs[1..] + [g];
      RowCountAppend(gs[1..], g);
    } else {
      assert gs + [g] == [g];
    }
  }

  /** The loop over `Object.entries(transactionsByAccount)`. */
  method VerifyGroups(gs: seq<AccountRows>, balances: map<int, real>)
    returns (ds: seq<Discrepancy>, totalChecked: nat)
    requires forall i :: 0 <= i < |gs| ==> |gs[i].rows| > 0
    ensures ds == Reports(gs, balances)
    ensures totalChecked == RowCount(gs)
  {
    ds := [];
    totalChecked := 0;
    var k := 0;
    while k < |gs|
      invariant 0 <= k <= |gs|
      invariant ds == Reports(gs[..k], balances)
      invariant totalChecked == RowCount(gs[..k])
    {
      var g := gs[k];
      PrefixSnoc(gs, k);
      ReportsAppend(gs[..k], g, balances);
      RowCountAppend(gs[..k], g);
      var entries := VerifyAccount(g.rows, g.account, CurrentBalance(balances, g.account));
      ds := ds + entries;
      totalChecked := totalChecked + |g.rows|;
      k := k + 1;
    }
    assert gs[..|gs|] == gs;
  }

  /** `verifyTransactionBalances`: the discrepancies and `totalChecked`. */
  method VerifyTransactionBalances(rows: seq<Row>, balances: map<int, real>)
    returns (ds: seq<Discrepancy>, totalChecked: nat)
    ensures |rows| == 0 ==> ds == [] && totalChecked == 0
    ensures ds == Reports(GroupByAccount(rows), balances)
    ensures totalChecked == |rows|
  {
    if |rows| == 0 {
      return [], 0;
    }
    ds, totalChecked := VerifyGroups(GroupByAccount(rows), balances);
  }

  /** The seed undoes exactly what the first row does, so the first row of
      an account is never reported. */
  lemma FirstRowNeverFlagged(rows: seq<Row>)
    requires |rows| > 0
    ensures rows[0].closing.Some? ==> Calculated(rows, 0) == rows[0].closing
    ensures !RowFlagged(rows, 0)
  {
    assert rows[..1] == [rows[0]];
    assert SumSigned([rows[0]]) == Signed(rows[0]);
  }

  /** The calculated balance carries from row to row: each is the previous
      calculated balance moved by the row's amount, whatever was stored. */
  lemma CalculatedCarries(rows: seq<Row>, i: int)
    requires 0 < i < |rows|
    ensures Calculated(rows, i) == Plus(Calculated(rows, i - 1), Signed(rows[i]))
  {
    PrefixSnoc(rows, i);
    SumSignedAppend(rows[..i], [rows[i]]);
    assert SumSigned([rows[i]]) == Signed(rows[i]);
  }

  /** A NULL first closing balance makes the whole account NaN: nothing of
      it is reported. */
  lemma NullSeedSilencesAccount(rows: seq<Row>, account: int, balance: Option<real>)
    requires |rows| > 0
    requires rows[0].closing.None?
    ensures AccountReport(rows, account, balance) == []
  {
    Unflagged(rows, account, |rows|);
  }

  /** Per account: at most one final-check entry, and it comes last, after
      all of the account's row entries; it is there exactly when the replay
      ends more than the tolerance away from the current balance. */
  lemma FinalCheckComesLast(rows: seq<Row>, account: int, balance: Option<real>)
    requires |rows| > 0
    ensures |AccountReport(rows, account, balance)| <= |rows| + 1
    ensures forall i :: 0 <= i < |AccountReport(rows, account, balance)| - 1 ==>
      AccountReport(rows, account, balance)[i].RowMismatch?
    ensures Exceeds(Calculated(rows, |rows| - 1), balance) <==>
      |AccountReport(rows, account, balance)| > 0 &&
      AccountReport(rows, account, balance)[|AccountReport(rows, account, balance)| - 1].FinalMismatch?
  {
    var rs := RowReports(rows, account, |rows|);
    var ds := AccountReport(rows, account, balance);
    forall i | 0 <= i < |rs| ensures ds[i].RowMismatch? {
      assert ds[i] == rs[i];
      assert rs[i] in rs;
    }
    if !Exceeds(Calculated(rows, |rows| - 1), balance) && |ds| > 0 {
      assert ds[|ds| - 1] == rs[|rs| - 1];
      assert rs[|rs| - 1] in rs;
    }
  }

  /** At most one entry per row plus one per account. */
  lemma {:induction false} ReportsBounded(gs: seq<AccountRows>, balances: map<int, real>)
    requires forall i :: 0 <= i < |gs| ==> |gs[i].rows| > 0
    ensures |Reports(gs, balances)| <= RowCount(gs) + |gs|
  {
    if |gs| > 0 {
      ReportsBounded(gs[1..], balances);
      FinalCheckComesLast(gs[0].rows, gs[0].account, CurrentBalance(balances, gs[0].account));
    }
  }

  /** The discrepancy count is at most the rows checked plus the number of
      accounts. */
  lemma DiscrepancyBound(rows: seq<Row>, balances: map<int, real>)
    ensures |Reports(GroupByAccount(rows), balances)| <= |rows| + |Distinct(AccountIds(rows))|
  {
    ReportsBounded(GroupByAccount(rows), balances);
  }
}

=== FILE: wrappers.dfy ===
/** Optional values and results shared by every module of the model. */
module Wrappers {

  /** A value that may be absent: a SQL NULL, a missing map entry, or a
      JavaScript computation that would have produced NaN. */
  datatype Option<+T> = None | Some(value: T) {
    function GetOr(default: T): T {
      match this
      case Some(v) => v
      case None => default
    }
  }

  /** Either a value or an error report. */
  datatype Result<+R, +E> = Success(value: R) | Failure(error: E) {
    predicate IsFailure() {
      Failure?
    }
  }
}
